=== FILE: README.md ===
# nerdfix in Dafny

A model of the core of nerdfix, a tool that finds obsolete Nerd Font
codepoints in text files and replaces them with current icons. The model
covers:

- **the check/fix pass** (`Runtime::check`). It is a state machine over a
  file's characters. It carries the patched output, the per-run history of
  replacements, and the user's answers. The prompt (`prompt_input_icon`) is
  given as a script of answers.
- **the indexes the pass consults**: the codepoint index, the name index,
  the good icons, the candidate list and the diagnostic notes.
- **the line-window reader** (`InputReader`/`InputLine`). It keeps a window
  of at most five lines around the current one. It also holds the snippet
  arithmetic that `read_span` uses for diagnostics.
- **the small text formats**:
  - the cached-icon line;
  - the user's prompt input;
  - hexadecimal codepoints;
  - the JSON cache as a key/value sequence;
  - the cheat-sheet parse with its per-node normalisation;
  - yes/no answers.
- **the result and ordering helpers**: `exec_sorted_stable`,
  `ignore_interrupted`, `log_error` and `with_path`.
- **the autocompleter's suggestion and completion rules.**

One module per source file. The shared pieces each get their own module:

| module | holds |
|---|---|
| `Results` | `Option` and `Result` |
| `Numerals` | Rust's `from_str_radix` and the `{}`, `{:x}` and `{:X}` formats |
| `Text` | `trim`, `split_ascii_whitespace`, `str` ordering and ASCII lower-casing |

Libraries outside the tool are parameters:

| library | stands in as |
|---|---|
| the fuzzy search corpus | a function from a name to its hits |
| the autocompleter's search index | functions from the input to icon positions |
| the JSON reader | a function from the text to its map entries |
| the HTML reader | a function from the text to the raw fields of each cheat-sheet node |
| the prompt widget | a sequence of events |
| the byte reader behind `InputReader` | the remaining bytes of the stream |

Two error variants are kept as the source has them:

- `parser::parse` raises `InvalidCheatSheet` without a line, and
  `src/error.rs` does not define that variant. The parser's errors are
  therefore their own datatype, `CheatSheet.SheetError`.
- `Codepoint::from_str` raises `InvalidCheatSheet(0)`, which is a different
  error: `Icons.CodepointError`.

## Model

| member | source | states |
|---|---|---|
| Numerals.ParseUnsigned | src/db.rs:21-22 | Succeeds exactly when the text is one optional `+` followed by at least one digit of the radix and the value fits the type; the result is that value, and empty text fails |
| Numerals.ParseHexU32 | src/icon.rs:122 | A successful parse is at most `u32::MAX` |
| Numerals.ParseDecimalUsize | src/cli.rs:64-66 | A successful parse is at most `usize::MAX` |
| Numerals.DigitsValue | src/icon.rs:115 | The digits the formatter writes are digits of the radix and denote the number formatted |
| Numerals.DigitsCase | src/icon.rs:115 | Every letter the formatter writes is in its case: none upper-case in `{:x}` output, none lower-case in `{:X}` output |
| Numerals.Decimal | src/autocomplete.rs:19 | A non-empty string of decimal digits that denotes the number |
| Numerals.LowerHex | src/icon.rs:115 | A non-empty string of hexadecimal digits that denotes the number, with no upper-case letter |
| Numerals.UpperHex | src/runtime.rs:133-139 | A non-empty string of hexadecimal digits that denotes the number, with no lower-case letter |
| Numerals.DecimalRoundTrip | src/autocomplete.rs:18-19 | Reading back a number written in decimal gives that number, for every `usize` |
| Numerals.LowerHexRoundTrip | src/icon.rs:115-125 | Reading back lower-case hex gives the number, for every `u32` |
| Numerals.UpperHexRoundTrip | src/runtime.rs:133-139 | Reading back upper-case hex gives the number, for every `u32` |
| Numerals.DigitsAreAlphanumeric | src/db.rs:40 | Formatted numbers hold only ASCII letters and digits, and decimal text starts with a digit |
| Text.TrimStart | src/parser.rs:11 | The result is a suffix of the text, everything dropped is white space, and it does not start with white space |
| Text.TrimEnd | src/parser.rs:46-50 | The result is a prefix of the text, everything dropped is white space, and it does not end with white space |
| Text.Trim | src/parser.rs:46-50 | The result is the text with white space removed from both ends, and neither end of it is white space |
| Text.StripPrefix | src/parser.rs:51 | Succeeds exactly when the prefix starts the text, and prefix plus result is the text |
| Text.Find | src/parser.rs:13 | The position of the first occurrence, or `None` exactly when the character does not occur |
| Text.AsciiLower | src/prompt.rs:37 | Same length, and each character is ASCII-lower-cased |
| Text.AsciiLowerIdempotent | src/prompt.rs:37 | Lower-casing twice is lower-casing once |
| Text.SplitAsciiWhitespace | src/db.rs:18 | Every token is non-empty and holds no ASCII white space |
| Text.SplitAround | src/db.rs:18 | Splitting at one whitespace character gives the tokens of the two sides, in order |
| Text.SplitJoin | src/db.rs:18-20 | Splitting words joined by single spaces gives the words back |
| Text.Compare | src/icon.rs:23-27 | Equal strings compare `Equal`, and a proper prefix compares `Less` than the longer string and the longer `Greater` than it |
| Text.CompareEqual | src/icon.rs:23-27 | Two strings compare `Equal` exactly when they are equal |
| Text.CompareFlip | src/icon.rs:23-27 | Swapping the arguments flips the ordering |
| Text.CompareTransitive | src/utils.rs:119 | "Not greater" is transitive |
| Errors.WithPath | src/error.rs:56-62 | `Ok` is unchanged; `Io` and `CorruptedCache` errors with no source get the path and keep message and line; all other errors are unchanged |
| Errors.WithPathIdempotent | src/error.rs:56-62 | Applying it twice, with any second path, equals applying it once with the first |
| Errors.WithPathAttaches | src/error.rs:58-59 | Afterwards no `Io` or `CorruptedCache` error is left without a source |
| Utils.IgnoreInterrupted | src/utils.rs:126-134 | `Ok(t)` becomes `Ok(Some(t))`, an interrupt becomes exactly `Ok(None)`, and every other error is kept |
| Utils.LogError | src/utils.rs:136-144 | `Some` exactly for `Ok`, holding its value |
| Utils.IgnoreThenLog | src/utils.rs:126-144 | Through both helpers only an interrupt gives an empty success and only a real error is dropped |
| Utils.BeforeTotal | src/utils.rs:119 | Any two matches are ordered, and both ways exactly when score and key are equal |
| Utils.BeforeTransitive | src/utils.rs:119 | The sort order is transitive |
| Utils.Ties | src/utils.rs:119 | A tie class holds only matches with that key and score |
| Utils.Insert | src/utils.rs:119 | Inserting into a sorted list gives a sorted list with one more copy of the match |
| Utils.InsertTies | src/utils.rs:119 | An inserted match goes in front of the matches tied with it and leaves every other tie class alone |
| Utils.ExecSortedStable | src/utils.rs:114-121 | The result is a permutation of the matches, by descending score and then ascending key |
| Utils.SortIsStable | src/utils.rs:118-119 | The sort is stable: the matches of every tie class keep the order the searcher gave them |
| Utils.SortedUnique | src/utils.rs:119 | Two sorted lists whose tie classes agree are equal |
| Utils.SortIndependentOfOrder | src/utils.rs:118-120 | The ranking depends on the searcher's order only through the order of tied matches |
| Utils.TiedPairKeepsOrder | src/utils.rs:119 | Two tied matches come out in the order they went in |
| Utils.TiedMatchesKeepSearchOrder | src/icon.rs:23-27 | Two `md-tab` matches with one score keep either order the searcher gives them, since icons are ordered by name alone |
| Icons.CharFromU32 | src/icon.rs:123-125 | Succeeds exactly for Unicode scalar values, giving the character with that value |
| Icons.ParseCodepoint | src/icon.rs:118-127 | Non-hex text is `InvalidCodepoint`; hex that is not a scalar value is `InvalidCheatSheet(0)`; otherwise the character the hex denotes |
| Icons.DisplayCodepoint | src/icon.rs:114-116 | The text is one token with no white space |
| Icons.CodepointRoundTrip | src/icon.rs:113-127 | Parsing the displayed codepoint of any character gives it back |
| Icons.CompareIcons | src/icon.rs:17-27 | Icons compare `Equal` exactly when their names are equal; swapping flips the result |
| Icons.OrderingIgnoresCodepoint | src/icon.rs:9-27 | Two different icons with one name compare `Equal`, so the ordering disagrees with equality |
| Icons.DecodeIcon | src/icon.rs:74-79 | An `IconInfo` value whose codepoint parses gives the icon of the key's name with that codepoint and flag, exactly; any other value is `InvalidType`, and a bad codepoint is its parse error |
| Icons.Visit | src/icon.rs:64-87 | On success the icons collected before are still at the front; once a version has been seen, `METADATA` is never reported missing |
| Icons.VisitOutcome | src/icon.rs:64-87 | The visitor succeeds exactly when every entry is valid and `METADATA` was seen; valid entries without it give the missing-field error |
| Icons.VisitNames | src/icon.rs:70-81 | On success there is one icon per non-`METADATA` key, in map order |
| Icons.VisitIcons | src/icon.rs:73-80 | On success the icons are, in map order, those the non-`METADATA` entries decode to, each with the codepoint and obsolete flag of its entry |
| Icons.VisitMetadata | src/icon.rs:71-72 | On success the version is that of the last `METADATA` entry, since each one overwrites the last |
| Icons.Deserialize | src/icon.rs:51-90 | Success exactly for valid entries with `METADATA`, and the missing-field error otherwise; on success the icons are the other entries decoded in order, with their names, codepoints and obsolete flags, and the version is the last `METADATA` entry's |
| Icons.EncodeIcon | src/icon.rs:100-107 | The entry is keyed by the icon's name and decodes back to that icon |
| Icons.EncodeIcons | src/icon.rs:100-108 | One entry per icon, in order |
| Icons.Serialize | src/icon.rs:93-111 | `METADATA` first, then one entry per icon in order |
| Icons.CacheRoundTrip | src/icon.rs:51-111 | Deserialising a serialised cache gives it back when no icon is named `METADATA` |
| Icons.MetadataNamedIconBreaksRoundTrip | src/icon.rs:70-74 | An icon named `METADATA` makes the serialised cache unreadable |
| Db.ParseCachedIcon | src/db.rs:17-34 | No token, one token, a bad codepoint and a bad third token each give their own error, exactly; otherwise the name is the first token, the codepoint is read from the second, and the icon is obsolete exactly when there is a third |
| Db.DisplayCachedIcon | src/db.rs:37-46 | The line is the name, the lower-case hex and `obsolete` when obsolete, joined by single spaces; splitting it at white space gives those fields back whenever the name is one token |
| Db.CachedIconRoundTrip | src/db.rs:64-74 | Parsing the displayed line gives the icon back exactly when its name is one non-empty token |
| Db.TrailingTokensIgnored | src/db.rs:24-28 | Tokens after the third change nothing |
| Db.CachedIconExamples | src/db.rs:52-62 | The two display examples of the source's tests |
| Cli.CodepointText | src/cli.rs:59 | A `u+` or `U+` prefix is recognised exactly, and the rest follows it |
| Cli.ParseUserInput | src/cli.rs:56-72 | Empty input is invalid; `u+`/`U+` is hex `u32`; a leading digit is a decimal `usize`; one character is `Char`; anything else is `Name`, unchanged; every failure is `InvalidInput` |
| Cli.CandidateRoundTrip | src/cli.rs:63-66 | A decimal number is read back as that candidate |
| Cli.CodepointInputRoundTrip | src/cli.rs:59-62 | `U+` with upper-case hex, or `u+` with lower-case hex, is read back as that codepoint |
| Cli.SingleCharacter | src/cli.rs:63-68 | One digit is a candidate; any other single character is `Char` |
| Cli.NameInput | src/cli.rs:69-70 | Longer text not starting with a digit or `u+` is a name |
| Cli.MalformedNumbers | src/cli.rs:59-66 | `1a`, a bare `u+` and `U+-1` are invalid and never names |
| Prompt.ParseYesOrNo | src/prompt.rs:33-44 | `y`/`yes`, `n`/`no` and `a`/`all` in any case, exactly; everything else is `invalid input` |
| Prompt.CaseInsensitive | src/prompt.rs:37 | Lower-casing the answer first changes nothing |
| Prompt.DisplayYesOrNo | src/prompt.rs:23-42 | The displayed `yes` and `no` parse back as themselves; `all yes` is not an accepted answer |
| Prompt.UpperCaseAnswers | src/prompt.rs:36-41 | `Y`, `NO` and `All` are accepted |
| Autocomplete.Numbers | src/autocomplete.rs:18-19 | The numbers 1 to n in decimal |
| Autocomplete.GetSuggestions | src/autocomplete.rs:17-31 | Empty input lists the candidate numbers; otherwise one label per search hit, in search order |
| Autocomplete.GetCompletion | src/autocomplete.rs:33-50 | A highlighted suggestion is returned as is; empty input completes to `1`; otherwise the first live hit's name, or nothing exactly when there is no hit |
| Autocomplete.SuggestedNumbersPickCandidates | src/autocomplete.rs:18-19 | The k-th suggested number is read as candidate k+1 |
| Autocomplete.EmptyCompletionPicksFirst | src/autocomplete.rs:40-41 | Completing empty input picks the first candidate |
| Autocomplete.LabelParts | src/autocomplete.rs:25-28 | A label is the glyph, a space and the name |
| Autocomplete.HighlightIgnoresIndex | src/autocomplete.rs:38-39 | With a highlight the search index plays no part |
| CheatSheet.IconName | src/parser.rs:46-51 | The trimmed name without one leading `nf-` |
| CheatSheet.Normalise | src/parser.rs:45-70 | A node gives an icon exactly when it has a name and a codepoint that is a scalar value in hex; the icon has the cleaned name and is obsolete exactly for `obsolete` or `removed` |
| CheatSheet.NormaliseAll | src/parser.rs:39-73 | At most one icon per node |
| CheatSheet.NormaliseAllAppend | src/parser.rs:41-71 | Document order is kept across runs of nodes |
| CheatSheet.NormaliseOne | src/parser.rs:45-70 | A node contributes its icon or nothing |
| CheatSheet.NormaliseAllKeeps | src/parser.rs:45-70 | Nothing is dropped exactly when every node normalises |
| CheatSheet.NormaliseAllDecoded | src/parser.rs:41-71 | When every node normalises, the icons are the nodes' icons in order |
| CheatSheet.Parse | src/parser.rs:10-22 | Text starting with `{` after blanks is a JSON cache and gives its icons; otherwise the HTML from the first `<` is read; text without `<` is `InvalidCheatSheet` |
| CheatSheet.ParseCachedSheet | src/parser.rs:11-12 | A serialised cache read as a cheat sheet gives its icons |
| CheatSheet.SheetNodeNormalises | src/parser.rs:46-68 | A node written as the official page writes it gives back its name and codepoint |
| CheatSheetSample.SheetNodeText | src/parser.rs:84-85 | The node's texts are `nf-` plus the name and the lower-case hex |
| CheatSheetSample.SampleNodeText | src/parser.rs:84-85 | The first sample node's texts, literally |
| CheatSheetSample.SampleSheetShape | src/parser.rs:81-101 | Four nodes with corners none, none, `obsolete` and `removed` give four icons, the last two obsolete |
| CheatSheetSample.SampleSheetTest | src/parser.rs:103-113 | The four icons the source's parser test expects |
| Runtime.Index | src/runtime.rs:230-238 | Every key maps to an icon with that codepoint, and every icon's codepoint is a key mapping to it or to a later icon |
| Runtime.IndexIsLast | src/runtime.rs:230-238 | No icon after the indexed one has the same codepoint: the last one wins |
| Runtime.IndexAppend | src/runtime.rs:230-238 | Appending an icon points its codepoint at it and changes nothing else |
| Runtime.GoodIcons | src/runtime.rs:223-228 | Exactly the positions of non-obsolete icons, in increasing order |
| Runtime.NameIndex | src/runtime.rs:240-248 | Every name maps to a non-obsolete icon of that name, and every non-obsolete icon's name is a key, mapping to it or to a later one |
| Runtime.NameIndexKeys | src/runtime.rs:240-248 | The keys are exactly the names of the good icons |
| Runtime.Candidates | src/runtime.rs:110-125 | At most `MAX_CHOICES` = 7 icons: the first hits, in search order, each a non-obsolete icon of that name |
| Runtime.NoteLines | src/runtime.rs:132-140 | One line per candidate, numbered from 1 |
| Runtime.DiagnosticNotes | src/runtime.rs:127-144 | No note exactly when there are no candidates, otherwise one note that starts with the "You could replace it with:" header and is exactly as long as the header and the numbered lines |
| Runtime.NoteHoldsLine | src/runtime.rs:131-139 | The line numbered `k + 1`, for candidate `k`, sits in the note right after the header and the lines numbered before it |
| Runtime.NoteLinesReadBack | src/runtime.rs:133-139 | The number on a note line reads back as that candidate, and its `U+` hex reads back as its codepoint |
| Runtime.Resolve | src/runtime.rs:168-200 | A resolved input is a listed candidate or a non-obsolete icon |
| Runtime.PromptInputIcon | src/runtime.rs:146-204 | It returns only the codepoint of a candidate or of a non-obsolete icon; every error is an interrupt or a prompt failure; it consumes answers |
| Runtime.CancelAndInterrupt | src/runtime.rs:154-158 | Esc gives `Ok(None)` and Ctrl-C the interrupt, each after one event |
| Runtime.UnresolvedAsksAgain | src/runtime.rs:160-200 | An invalid or unresolved answer asks again |
| Runtime.ResolvedAnswer | src/runtime.rs:200-202 | A resolved answer returns that icon's codepoint |
| Runtime.CandidateAnswer | src/runtime.rs:184-185 | Answering k+1 picks the k-th candidate |
| Runtime.CandidateZeroAsksAgain | src/runtime.rs:184-189 | Answering 0 asks again |
| Runtime.ObsoleteGlyphAsksAgain | src/runtime.rs:177-182 | Typing an obsolete glyph asks again |
| Runtime.ObsoleteCodepointAsksAgain | src/runtime.rs:191-198 | Typing an obsolete icon's `U+` codepoint asks again |
| Runtime.NonScalarAsksAgain | src/runtime.rs:191-198 | A `U+` value that is not a scalar value asks again |
| Runtime.NameAnswer | src/runtime.rs:169-171 | A good icon's name, typed as a name, returns the codepoint of the icon the name index holds for it |
| Runtime.CompletionResolves | src/autocomplete.rs:42-47 | A completed name, typed back, is read as a name and resolves to a non-obsolete icon of that name, when the live hit is not obsolete and its name cannot be mistaken for a number or a `U+` codepoint |
| Scanner.PromptAskerSound | src/runtime.rs:168-202 | With a corpus of good names, every codepoint the prompt returns is a good icon's |
| Scanner.AskAt | src/runtime.rs:86-99 | A chosen character is good and is remembered; Esc keeps the icon; Ctrl-C writes the rest of the file and stops; a failed prompt is never Ctrl-C and leaves the history as it was |
| Scanner.ReplaceAt | src/runtime.rs:79-100 | A remembered replacement is reused, nothing is asked when not patching, and a good history stays good |
| Scanner.StepAt | src/runtime.rs:65-105 | A character is changed only if it is an obsolete icon, into its remembered or a good replacement; `found` records obsolete icons; the history only grows |
| Scanner.Scan | src/runtime.rs:65-106 | Only the prompt can fail the pass: a failure happens only while patching and is never Ctrl-C, and it carries the state reached, history included |
| Scanner.ScanFound | src/runtime.rs:61-107 | The result is true exactly when the file holds an obsolete icon |
| Scanner.ScanReportOnly | src/runtime.rs:86 | Without patching nothing is asked: output, history and answers are untouched |
| Scanner.ScanPatched | src/runtime.rs:65-106 | While patching, the output so far is kept and extended by one character per input character, each unchanged or a replaced obsolete icon |
| Scanner.ScanGoodHistory | src/runtime.rs:79-97 | The history only ever holds good codepoints, including the history a failed prompt leaves behind |
| Scanner.ScanHistoryGrows | src/runtime.rs:79-97 | Remembered replacements are never changed or forgotten, whether the pass succeeds or the prompt fails |
| Scanner.ScanClean | src/runtime.rs:65-105 | A file with no obsolete icon is copied unchanged and nothing else changes |
| Scanner.HistoryReused | src/runtime.rs:79-82 | A remembered replacement is written without asking |
| Scanner.AnswerApplied | src/runtime.rs:86-92 | A chosen character is written and remembered for the codepoint; Esc writes the icon back and remembers nothing |
| Scanner.InterruptWritesRest | src/runtime.rs:93-96 | Ctrl-C writes the rest of the file, from the icon on, unchanged and reports `Ok(true)` |
| Scanner.CheckReportOnly | src/runtime.rs:48-108 | `check` without a buffer only reports whether an obsolete icon occurs |
| Scanner.CheckPatched | src/runtime.rs:48-108 | `check` with a buffer reports obsolete icons, writes a patched copy of the file, and keeps a good, growing history |
| Scanner.Check | src/runtime.rs:48-108 | A successful check reports exactly whether the file holds an obsolete icon; succeeding or failing, it only adds to the history; it fails only while patching, through the prompt, never by Ctrl-C |
| Scanner.CheckFiles | src/main.rs:165-193 | One result per file |
| Scanner.CheckFilesCarries | src/main.rs:165-193 | The first file is checked with the starting history and each later one with the history the previous check reached, whether it succeeded or failed |
| Scanner.CheckFilesHistory | src/main.rs:165-193 | Across the files the history starts from the given one, only grows, and stays good when it starts good |
| Input.ReadUntil | src/input.rs:80 | The bytes read and the bytes left make up the stream; a read is empty only at the end, and a full line ends in a newline |
| Input.ReadLine | src/input.rs:78-85 | A size is recorded exactly when bytes were read, and the bytes move into the buffer |
| Input.ReadLines | src/input.rs:51-53 | Reading n lines records at most n positive sizes, and exactly n unless the stream ends |
| Input.NewReader | src/input.rs:25-34 | A new reader satisfies the window invariant, at offset 0 with no line handed out |
| Input.NewReaderInv | src/input.rs:25-34 | A new reader satisfies the window invariant |
| Input.Shift | src/input.rs:37-44 | Popping size n drains exactly n front bytes, lowers the relative offset by n, and reads at most one more line |
| Input.Start | src/input.rs:45-54 | The first call pads one empty entry and reads up to four lines |
| Input.Advance | src/input.rs:36-54 | Either branch drops the popped line's bytes and keeps the window invariant's shape |
| Input.YieldInv | src/input.rs:57-68 | Moving past the current line restores the invariant: the relative offset is the sum of the sizes before the current entry |
| Input.NextLine | src/input.rs:36-76 | The yielded line is entry `LINES_BEFORE` with the position from before the call, after which line count and both offsets advance by it; at the end of the stream the line count becomes `usize::MAX` |
| Input.NextLineWellFormed | src/input.rs:57-65 | Every yielded line satisfies the line invariant |
| Input.NextLineStream | src/input.rs:36-76 | The reader keeps tracking the stream across calls |
| Input.NextLineEnd | src/input.rs:36-76 | `None` exactly when every byte of the stream has been handed out |
| Input.LineLength | src/input.rs:80 | A line's length never exceeds the bytes left |
| Input.LineLengthRead | src/input.rs:80 | It is the length of what `read_until` reads: up to and including the first newline, or to the end of the stream |
| Input.NextLineKeepsLines | src/input.rs:36-85 | The window's sizes stay the lengths of consecutive `read_until` lines of the bytes it holds |
| Input.NextLineReadsLine | src/input.rs:36-85 | A yielded line is what `read_until` reads at its offset: it has no newline before its last byte, and that byte is a newline unless the line ends the stream |
| Input.NextLineContents | src/input.rs:100-102 | The line's contents are exactly the stream's bytes at its offset |
| Input.Contents | src/input.rs:100-102 | As many bytes as the line's size; which bytes they are is `Input.NextLineContents` |
| Input.OffsetOf | src/input.rs:104-107 | Never before the line's start; an index inside the line lands inside the span of the stream the window holds |
| Input.OffsetOfByte | src/input.rs:104-107 | `offset_of(i)` is the stream position of the line's i-th byte |
| Input.CountBack | src/input.rs:134-141 | At most the limit of real lines walking back, stopping at an empty entry, with their bytes summed |
| Input.CountForward | src/input.rs:156-162 | At most the limit of real lines walking forward, stopping at an empty entry, with their bytes summed |
| Input.SnippetStart | src/input.rs:127-147 | With no lines before, the snippet starts at the span; otherwise at column 0 of up to one real line back, never below line 0 |
| Input.SnippetEnd | src/input.rs:149-166 | With no lines after, the snippet ends after the span; otherwise within the buffer and past the current line |
| Input.ReadSpanWith | src/input.rs:115-174 | Data and span have one length, and start line, column and end line follow the two branches |
| Input.ReadSpan | src/input.rs:115-174 | With lines after asked for, the snippet exists and ends at most `lines_before + 1` lines on |
| Input.SnippetFromStream | src/input.rs:168-169 | The snippet's data are the stream's bytes at its span |
| Input.SnippetCoversSpan | src/input.rs:127-166 | The snippet covers the span whenever it starts at it or takes lines after it |
| Input.TrailingLines | src/input.rs:149-166 | With lines after asked for, the snippet ends exactly as many lines on as the trailing count allows, or at the end of the window |
| Input.AsWrittenTakesLinesBefore | src/input.rs:156-165 | As written, the snippet reaches `lines_before + 1` lines on, or the end of the window |
| Input.TrailingExtentAsWritten | src/input.rs:160 | One line before and three after, around the third line of `a\n b\n c\n d\n e\n`, gives `b\n c\n d\n` and stops before `e\n` |
| Input.ReadSpanIntended | src/input.rs:156-162 | Corrected, with lines after asked for, the snippet exists and ends at most `lines_after + 1` lines on |
| Input.IntendedTakesLinesAfter | src/input.rs:156-165 | Corrected, the snippet reaches `lines_after + 1` lines on, or the end of the window |
| Input.TrailingExtentIntended | src/input.rs:160 | Corrected, the same request reaches `e\n`, the last line of the window |
| Input.ContextAgrees | src/input.rs:149-166 | Both agree when no line after is asked for or as many after as before, so they can differ only when lines after are asked for and the two counts differ |
| Input.FirstLine | src/input.rs:45-54 | The first call yields line 0 at offset 0 exactly when the stream is non-empty |
| Input.FirstReadNonEmpty | src/input.rs:45-53 | The first call on a non-empty stream fills the current entry |

## Left out

- File I/O is left out: `read_to_string`, `save_cache`, `load_cache` and `load_cheat_sheet`. So is the I/O error `read_until` can raise. A file is its text; a stream is its remaining bytes.
- Diagnostics rendering is left out: the codespan and miette reporters, and the green status lines. The pass does not produce them; only the notes' text is modelled.
- The fuzzy corpus is a function from a name to its hits. The assumption `Scanner.CorpusSound` says every hit is a good icon's name, as the corpus is filled from them. Without it the source's `unwrap` at src/runtime.rs:120 would panic.
- The similarity threshold `SIMILARITY` and the `f32` scores are left out. Scores are integers, a total order with no NaN.
- `src/main.rs` is modelled only as `Scanner.CheckFiles`, its loop handing the history from file to file. The command-line dispatch, directory walking, output writing and `tests/cli.rs` snapshot tests are left out. So are the `autocompleter` widget fields and the `fst_set`.
- Scanner.CheckFiles: the confirmation the fix loop asks before writing a patched file (`prompt_yes_or_no`, src/main.rs:176-183) is not modelled. It only decides whether the buffer is written, and each file's answers are given as a script of their own.
- The HTML and JSON syntax are left out. The readers are parameters of `CheatSheet.Parse`. Only the first sample node's texts are stated literally; the other three follow the page's layout through `CheatSheet.SheetNode`.
- `prompt_yes_or_no`, `content_type` and the `LogStatus` counters are left out. They are widget, inspection and concurrency plumbing.
- Lower-casing is ASCII only. `to_lowercase` also folds non-ASCII letters, which no accepted answer contains.
- Utils.ExecSortedStable: the items' `Ord` is modelled as the order of their keys, as `Ord for Icon` compares names (src/icon.rs:23-27). An item type whose `Ord` looked at more than one string is not modelled.
- Runtime.PromptInputIcon: running out of scripted answers ends with a prompt error. The widget itself never runs out.
- Runtime.Resolve: `Candidate(0)` is not a valid candidate. In the source, `i - 1` underflows, and in a release build `get(usize::MAX)` gives nothing, so the user is asked again.
- Scanner.Check: writing a diagnostic is taken never to fail. The `Reporter` error that `report!` returns when the terminal write fails (src/runtime.rs:54-58, used at lines 80 and 85) is never raised, so the pass fails only through the prompt. `Errors.Reporter` is there so that `Errors.WithPath` can pass it through.
- Input.NextLine: the line count and offsets are unbounded. `usize` overflow would need more than 2^64 bytes.
- Input.NextLine: calling it again after it returned `None` is not modelled. The source's `debug_assert` (src/input.rs:39) rules that out.
- Input.ReadSpanWith: an out-of-bounds slice would panic in the source. Here it is `None`. It only arises with no lines after and a span longer than the line.
- Input.ReadSpan: the `debug_assert` that the span starts in the current line is a precondition.

## Findings

| source | as written | input that shows it | evidently intended | confidence | as-written member | corrected member |
|---|---|---|---|---|---|---|
| src/input.rs:160 | The trailing extent takes `lines_before + 1` lines from the current one | Stream `a\n b\n c\n d\n e\n` with `c\n` current (line 2, offset 4), so the window is `b\n c\n d\n e\n`; a span at offset 4 with one line before and three after gives `b\n c\n d\n`, which stops before `e\n` (next line 4) | It takes `lines_after + 1` lines and reaches `e\n` (next line 5); the two can differ only when lines after are asked for and the two counts differ | not executed | Input.ReadSpan, Input.TrailingExtentAsWritten | Input.ReadSpanIntended, Input.TrailingExtentIntended |

=== FILE: autocomplete.dfy ===
/** The prompt's completion rules (src/autocomplete.rs). The search index is
    outside the model: `search` and `live` stand for its full and its live
    searches, each giving positions in the icon list. */
module Autocomplete {
  import opened Results
  import opened Numerals
  import opened Icons
  import opened Cli

  datatype Autocompleter = Autocompleter(
    icons: seq<Icon>,
    search: string -> seq<nat>,
    live: string -> seq<nat>,
    candidates: nat)

  /** The hits a search gives are positions in the icon list; any other
      position would panic when indexed. */
  predicate HitsInRange(icons: seq<Icon>, hits: seq<nat>) {
    forall k :: 0 <= k < |hits| ==> hits[k] < |icons|
  }

  /** The suggestion shown for one icon: the glyph itself, a space, the name. */
  function SuggestionLabel(i: Icon): string {
    [i.codepoint] + " " + i.name
  }

  /** The candidate numbers `1` to `n`. */
  function Numbers(n: nat): (r: seq<string>)
    ensures |r| == n
    ensures forall k :: 0 <= k < n ==> r[k] == Decimal(k + 1)
  {
    seq(n, k requires 0 <= k < n => Decimal(k + 1))
  }

  /** `Autocompleter::get_suggestions`: with nothing typed, the candidate
      numbers; otherwise one label per search hit, in search order. */
  function GetSuggestions(a: Autocompleter, input: string): (r: seq<string>)
    requires |input| > 0 ==> HitsInRange(a.icons, a.search(input))
    ensures |input| == 0 ==> r == Numbers(a.candidates)
    ensures |input| > 0 ==>
      |r| == |a.search(input)| &&
      forall k :: 0 <= k < |r| ==> r[k] == SuggestionLabel(a.icons[a.search(input)[k]])
  {
    if |input| == 0 then Numbers(a.candidates)
    else
      var hits := a.search(input);
      seq(|hits|, k requires 0 <= k < |hits| => SuggestionLabel(a.icons[hits[k]]))
  }

  /** `Autocompleter::get_completion`: a highlighted suggestion as it is;
      with nothing typed, the first candidate; otherwise the name of the
      first live hit, if any. */
  function GetCompletion(a: Autocompleter, input: string, highlighted: Option<string>): (r: Option<string>)
    requires highlighted.None? && |input| > 0 ==> HitsInRange(a.icons, a.live(input))
    ensures highlighted.Some? ==> r == highlighted
    ensures highlighted.None? && |input| == 0 ==> r == Some("1")
    ensures highlighted.None? && |input| > 0 ==>
      (r.Some? <==> |a.live(input)| > 0) &&
      (r.Some? ==> r.value == a.icons[a.live(input)[0]].name)
  {
    match highlighted
    case Some(s) => Some(s)
    case None =>
      if |input| == 0 then Some("1")
      else
        var hits := a.live(input);
        if |hits| == 0 then None else Some(a.icons[hits[0]].name)
  }

  /** Every number suggested on an empty prompt picks the candidate it
      names. */
  lemma SuggestedNumbersPickCandidates(a: Autocompleter, k: nat)
    requires a.candidates <= USIZE_MAX
    requires k < a.candidates
    ensures ParseUserInput(GetSuggestions(a, "")[k]) == Ok(Candidate(k + 1))
  {
    assert GetSuggestions(a, "")[k] == Decimal(k + 1);
    CandidateRoundTrip(k + 1);
  }

  /** The completion of an empty prompt picks the first candidate. */
  lemma EmptyCompletionPicksFirst(a: Autocompleter)
    ensures GetCompletion(a, "", None) == Some(Decimal(1))
    ensures ParseUserInput(Decimal(1)) == Ok(Candidate(1))
  {
    assert Decimal(1) == "1";
    CandidateRoundTrip(1);
  }

  /** A suggestion label starts with the icon's glyph and ends with its
      name, so both can be read back from it. */
  lemma LabelParts(i: Icon)
    ensures var l := SuggestionLabel(i);
      |l| == |i.name| + 2 && l[0] == i.codepoint && l[1] == ' ' && l[2..] == i.name
  {
  }

  /** Completing an input that has a highlighted suggestion never searches:
      the answer does not depend on the index. */
  lemma HighlightIgnoresIndex(a: Autocompleter, b: Autocompleter, input: string, s: string)
    ensures GetCompletion(a, input, Some(s)) == GetCompletion(b, input, Some(s))
  {
  }
}

=== FILE: cli.dfy ===
/** What the user may type at the icon prompt (src/cli.rs): a candidate
    number, a `U+` codepoint, a single character, or an icon name. */
module Cli {
  import opened Results
  import opened Numerals
  import opened Text
  import opened Errors

  datatype UserInput =
    | Candidate(index: nat)
    | Name(name: string)
    | Codepoint(code: nat)
    | Char(c: char)

  predicate IsAsciiDigit(c: char) {
    '0' <= c <= '9'
  }

  /** The `u+` or `U+` prefix, with what follows it. */
  function CodepointText(s: string): (r: Option<string>)
    ensures r.Some? <==> |s| >= 2 && (s[0] == 'u' || s[0] == 'U') && s[1] == '+'
    ensures r.Some? ==> r.value == s[2..]
  {
    match StripPrefix(s, "u+")
    case Some(rest) => Some(rest)
    case None => StripPrefix(s, "U+")
  }

  /** `UserInput::from_str`. The first byte is an ASCII digit exactly when
      the first character is, so the test is made on characters. */
  function ParseUserInput(s: string): (r: Result<UserInput, Error>)
    ensures r.Err? ==> r.error == InvalidInput
    ensures |s| == 0 ==> r.Err?
    ensures |s| > 0 && CodepointText(s).Some? ==>
      (r.Ok? <==> ParseHexU32(s[2..]).Some?) &&
      (r.Ok? ==> r == Ok(Codepoint(ParseHexU32(s[2..]).value)))
    ensures |s| > 0 && CodepointText(s).None? && IsAsciiDigit(s[0]) ==>
      (r.Ok? <==> ParseDecimalUsize(s).Some?) &&
      (r.Ok? ==> r == Ok(Candidate(ParseDecimalUsize(s).value)))
    ensures |s| > 0 && CodepointText(s).None? && !IsAsciiDigit(s[0]) ==>
      r == (if |s| == 1 then Ok(Char(s[0])) else Ok(Name(s)))
  {
    if |s| == 0 then Err(InvalidInput)
    else
      match CodepointText(s)
      case Some(hex) =>
        (match ParseHexU32(hex)
         case Some(v) => Ok(Codepoint(v))
         case None => Err(InvalidInput))
      case None =>
        if IsAsciiDigit(s[0]) then
          match ParseDecimalUsize(s)
          case Some(n) => Ok(Candidate(n))
          case None => Err(InvalidInput)
        else if |s| == 1 then Ok(Char(s[0]))
        else Ok(Name(s))
  }

  /** The number the candidate list shows reads back as that candidate. */
  lemma CandidateRoundTrip(n: nat)
    requires n <= USIZE_MAX
    ensures ParseUserInput(Decimal(n)) == Ok(Candidate(n))
  {
    DigitsAreAlphanumeric(n, 10, false);
    DecimalRoundTrip(n);
  }

  /** `U+` followed by the codepoint in either case reads back as it,
      without any check that it names a character. */
  lemma CodepointInputRoundTrip(n: nat)
    requires n <= U32_MAX
    ensures ParseUserInput("U+" + UpperHex(n)) == Ok(Codepoint(n))
    ensures ParseUserInput("u+" + LowerHex(n)) == Ok(Codepoint(n))
  {
    UpperHexRoundTrip(n);
    LowerHexRoundTrip(n);
    assert ("U+" + UpperHex(n))[2..] == UpperHex(n);
    assert ("u+" + LowerHex(n))[2..] == LowerHex(n);
  }

  /** A single character is itself, unless it is a digit, which is a
      candidate number. */
  lemma SingleCharacter(c: char)
    ensures ParseUserInput([c]) ==
      if IsAsciiDigit(c) then Ok(Candidate(c as int - '0' as int)) else Ok(Char(c))
  {
    if IsAsciiDigit(c) {
      var s := [c];
      assert s[..0] == [];
      assert AllDigits(s, 10);
      assert Value(s, 10) == c as int - '0' as int;
      assert ParseDecimalUsize(s) == Some(c as int - '0' as int);
    }
  }

  /** Any longer text that is neither a number nor a codepoint is a name,
      unchanged. */
  lemma NameInput(s: string)
    requires |s| >= 2 && !IsAsciiDigit(s[0]) && !(s[1] == '+' && (s[0] == 'u' || s[0] == 'U'))
    ensures ParseUserInput(s) == Ok(Name(s))
  {
  }

  /** Text that starts with a digit is never a name: a bad number is an
      error. A bare prefix is an error too. */
  lemma MalformedNumbers()
    ensures ParseUserInput("1a") == Err(InvalidInput)
    ensures ParseUserInput("u+") == Err(InvalidInput)
    ensures ParseUserInput("U+-1") == Err(InvalidInput)
  {
    assert !AllDigits("1a", 10) by { assert DigitValue("1a"[1], 10).None?; }
    assert !AllDigits("-1", 16) by { assert DigitValue("-1"[0], 16).None?; }
  }
}

=== FILE: db.dfy ===
/** The one-line text form of a cached icon (src/db.rs): the name, the
    lower-case hexadecimal codepoint, and the word `obsolete` when it is. */
module Db {
  import opened Results
  import opened Numerals
  import opened Text
  import opened Icons

  const MISS_NAME: string := "Miss field 'name'"
  const MISS_CODEPOINT: string := "Miss field 'codepoint'"
  const INVALID_CODEPOINT: string := "Invalid field 'codepoint'"
  const INVALID_OBSOLETE: string := "Invalid field 'obsolete'"
  const OBSOLETE: string := "obsolete"

  /** `CachedIcon::from_str`: the first three whitespace-separated tokens
      are the name, the codepoint and the optional obsolete marker; any
      further token is never looked at. */
  function ParseCachedIcon(s: string): (r: Result<Icon, string>)
    ensures var t := SplitAsciiWhitespace(s);
      && (r == Err(MISS_NAME) <==> |t| == 0)
      && (r == Err(MISS_CODEPOINT) <==> |t| == 1)
      && (r == Err(INVALID_CODEPOINT) <==> |t| >= 2 && ParseCodepoint(t[1]).Err?)
      && (r == Err(INVALID_OBSOLETE) <==>
            |t| >= 3 && ParseCodepoint(t[1]).Ok? && t[2] != OBSOLETE)
      && (r.Ok? ==>
            && IsWord(r.value.name)
            && r.value.name == t[0]
            && ParseCodepoint(t[1]) == Ok(r.value.codepoint)
            && (r.value.obsolete <==> |t| >= 3))
  {
    var t := SplitAsciiWhitespace(s);
    if |t| == 0 then Err(MISS_NAME)
    else if |t| == 1 then Err(MISS_CODEPOINT)
    else
      match ParseHexU32(t[1])
      case None => Err(INVALID_CODEPOINT)
      case Some(v) =>
        match CharFromU32(v)
        case None => Err(INVALID_CODEPOINT)
        case Some(c) =>
          if |t| == 2 then Ok(Icon(t[0], c, false))
          else if t[2] == OBSOLETE then Ok(Icon(t[0], c, true))
          else Err(INVALID_OBSOLETE)
  }

  /** The fields of a cached icon's line, in order. */
  function CachedFields(i: Icon): seq<string> {
    [i.name, DisplayCodepoint(i.codepoint)] + (if i.obsolete then [OBSOLETE] else [])
  }

  /** `Display for CachedIcon`: the fields separated by single spaces, so
      that splitting the line at whitespace gives the fields back whenever
      the name is one token. */
  function DisplayCachedIcon(i: Icon): (s: string)
    ensures s == JoinSpaced(CachedFields(i))
    ensures IsWord(i.name) ==> SplitAsciiWhitespace(s) == CachedFields(i)
  {
    var a, b := i.name, DisplayCodepoint(i.codepoint);
    JoinThree(a, b, i.obsolete);
    var line := a + " " + b + (if i.obsolete then " " + OBSOLETE else "");
    if IsWord(a) then
      assert IsWord(OBSOLETE);
      SplitJoin(CachedFields(i));
      line
    else line
  }

  lemma JoinThree(a: string, b: string, obsolete: bool)
    ensures JoinSpaced([a, b] + (if obsolete then [OBSOLETE] else [])) ==
      a + " " + b + (if obsolete then " " + OBSOLETE else "")
  {
    if obsolete {
      var fields := [a, b, OBSOLETE];
      assert fields[1..] == [b, OBSOLETE];
      assert fields[1..][1..] == [OBSOLETE];
      assert JoinSpaced([b, OBSOLETE]) == b + " " + OBSOLETE;
      assert JoinSpaced(fields) == a + " " + JoinSpaced([b, OBSOLETE]);
    } else {
      var fields := [a, b];
      assert fields[1..] == [b];
      assert JoinSpaced(fields) == a + " " + b;
    }
  }

  /** A displayed icon reads back as itself exactly when its name is one
      token: non-empty and free of ASCII whitespace. */
  lemma CachedIconRoundTrip(i: Icon)
    ensures ParseCachedIcon(DisplayCachedIcon(i)) == Ok(i) <==> IsWord(i.name)
  {
    if IsWord(i.name) {
      CodepointRoundTrip(i.codepoint);
    }
  }

  /** Only the first three tokens matter: text appended after a space to a
      line that already has three tokens changes nothing. */
  lemma TrailingTokensIgnored(s: string, extra: string)
    requires |SplitAsciiWhitespace(s)| >= 3
    ensures ParseCachedIcon(s + " " + extra) == ParseCachedIcon(s)
  {
    SplitAround(s, ' ', extra, []);
    assert s + " " + extra == s + [' '] + extra;
    var t, t' := SplitAsciiWhitespace(s), SplitAsciiWhitespace(s + " " + extra);
    assert t'[..3] == t[..3];
    assert t'[0] == t[0] && t'[1] == t[1] && t'[2] == t[2];
  }

  /** The two lines of the module's display examples; reading them back is
      `CachedIconRoundTrip`. */
  lemma CachedIconExamples()
    ensures DisplayCachedIcon(Icon("nf-test", '\U{F500}', false)) == "nf-test f500"
    ensures DisplayCachedIcon(Icon("nf-test", '\U{F500}', true)) == "nf-test f500 obsolete"
  {
    HexF500();
  }

  lemma HexF500()
    ensures DisplayCodepoint('\U{F500}') == "f500"
  {
    assert Digits(0xf, 16, false) == "f";
    assert Digits(0xf5, 16, false) == "f5";
    assert Digits(0xf50, 16, false) == "f50";
    assert Digits(0xf500, 16, false) == "f500";
  }
}

=== FILE: error.dfy ===
/** The tool's error type (src/error.rs) and its path-attaching helper. */
module Errors {
  import opened Results

  /** Where an I/O error happened. */
  datatype IoSource = Path(path: string) | Stdio | IoNone

  /** `error::Error`. Causes from other libraries (the `std::io::Error`, the
      reporter's and the prompt widget's errors, boxed errors) are carried as
      opaque text. */
  datatype Error =
    | Io(cause: string, source: IoSource)
    | CorruptedCache(message: string, source: IoSource, line: nat)
    | Reporter(cause: string)
    | Prompt(cause: string)
    | InvalidInput
    | Interrupted
    | Any(cause: string)

  /** `Result::with_path`: attach `path` to an I/O or cache error that has no
      source yet; everything else passes through. */
  function WithPath<T>(r: Result<T, Error>, path: string): (r': Result<T, Error>)
    ensures r.Ok? ==> r' == r
    ensures r.Err? && r.error.Io? && r.error.source.IoNone? ==>
      r' == Err(Io(r.error.cause, Path(path)))
    ensures r.Err? && r.error.CorruptedCache? && r.error.source.IoNone? ==>
      r' == Err(CorruptedCache(r.error.message, Path(path), r.error.line))
    ensures r.Err? && !((r.error.Io? || r.error.CorruptedCache?) && r.error.source.IoNone?) ==>
      r' == r
  {
    match r
    case Ok(_) => r
    case Err(Io(e, IoNone)) => Err(Io(e, Path(path)))
    case Err(CorruptedCache(e, IoNone, i)) => Err(CorruptedCache(e, Path(path), i))
    case Err(_) => r
  }

  /** The first path attached wins: a second call never overrides it. */
  lemma WithPathIdempotent<T>(r: Result<T, Error>, first: string, second: string)
    ensures WithPath(WithPath(r, first), second) == WithPath(r, first)
  {
  }

  /** After the call, no I/O or cache error is left without a source. */
  lemma WithPathAttaches<T>(r: Result<T, Error>, path: string)
    ensures var r' := WithPath(r, path);
      r'.Err? && (r'.error.Io? || r'.error.CorruptedCache?) ==> !r'.error.source.IoNone?
  {
  }
}

=== FILE: icon.dfy ===
/** Icons, their hexadecimal codepoint text, their ordering, and the
    key/value layout of the JSON icon cache (src/icon.rs). */
module Icons {
  import opened Results
  import opened Numerals
  import opened Text

  /** A named codepoint, possibly marked obsolete. The same record is declared
      in src/db.rs; both revisions agree on its fields. */
  datatype Icon = Icon(name: string, codepoint: char, obsolete: bool)

  /** The crate errors `Codepoint::from_str` raises. */
  datatype CodepointError = InvalidCodepoint | InvalidCheatSheet(line: nat)

  /** A Unicode scalar value: what `char::from_u32` accepts. */
  predicate IsScalar(v: int) {
    0 <= v < 0xD800 || 0xE000 <= v < 0x11_0000
  }

  /** `char::from_u32`. */
  function CharFromU32(v: nat): (r: Option<char>)
    ensures r.Some? <==> IsScalar(v)
    ensures r.Some? ==> r.value as int == v
  {
    if IsScalar(v) then Some(v as char) else None
  }

  /** `Codepoint::from_str`: hexadecimal `u32`, then a scalar check. */
  function ParseCodepoint(s: string): (r: Result<char, CodepointError>)
    ensures r == Err(InvalidCodepoint) <==> ParseHexU32(s).None?
    ensures r == Err(InvalidCheatSheet(0)) <==>
      ParseHexU32(s).Some? && !IsScalar(ParseHexU32(s).value)
    ensures r.Ok? ==> ParseHexU32(s) == Some(r.value as int)
  {
    match ParseHexU32(s)
    case None => Err(InvalidCodepoint)
    case Some(v) =>
      match CharFromU32(v)
      case None => Err(InvalidCheatSheet(0))
      case Some(c) => Ok(c)
  }

  /** `Display for Codepoint`: lower-case hexadecimal without prefix. */
  function DisplayCodepoint(c: char): (s: string)
    ensures IsWord(s)
  {
    var s := LowerHex(c as int);
    DigitsAreAlphanumeric(c as int, 16, false);
    s
  }

  /** Every character's text reads back as that character. */
  lemma CodepointRoundTrip(c: char)
    ensures ParseCodepoint(DisplayCodepoint(c)) == Ok(c)
  {
    LowerHexRoundTrip(c as int);
  }

  /** `Ord for Icon` (and `PartialOrd`, which wraps it): by name alone. */
  function CompareIcons(a: Icon, b: Icon): (o: Ordering)
    ensures o == Equal <==> a.name == b.name
    ensures Compare(b.name, a.name) == Flip(o)
  {
    CompareEqual(a.name, b.name);
    CompareFlip(a.name, b.name);
    Compare(a.name, b.name)
  }

  /** The ordering disagrees with the derived equality: two different icons
      with one name compare `Equal`. */
  lemma OrderingIgnoresCodepoint()
    ensures var a := Icon("md-tab", '\U{F04E9}', false);
      var b := Icon("md-tab", '\U{F0C2F}', true);
      a != b && CompareIcons(a, b) == Equal
  {
  }

  // ---------------------------------------------------------------------
  // The cache: a map whose `METADATA` key holds the format version and
  // whose every other key is an icon name.

  datatype Version = V1

  datatype Cache = Cache(metadata: Version, icons: seq<Icon>)

  const METADATA: string := "METADATA"

  /** A map value as the visitor reads it. The JSON syntax of a value is
      abstracted: a version, an `IconInfo` record (its `obsolete` field
      already defaulted), or anything else. */
  datatype RawValue =
    | VersionValue(version: Version)
    | InfoValue(codepoint: string, obsolete: bool)
    | OtherValue

  type Entry = (string, RawValue)

  /** Deserialisation errors: a missing field, a value of the wrong shape,
      or a custom error raised by `Codepoint::from_str`. */
  datatype DeError = MissingField(field: string) | InvalidType | Custom(cause: CodepointError)

  /** `map.next_value::<IconInfo>()` under key `name`: an `IconInfo` whose
      codepoint text parses gives the icon of that name, codepoint and flag;
      any other shape of value is an invalid type, and a bad codepoint is the
      parser's own error. */
  function DecodeIcon(name: string, v: RawValue): (r: Result<Icon, DeError>)
    ensures r.Ok? <==> v.InfoValue? && ParseCodepoint(v.codepoint).Ok?
    ensures r.Ok? ==>
      && r.value.name == name
      && ParseCodepoint(v.codepoint) == Ok(r.value.codepoint)
      && r.value.obsolete == v.obsolete
    ensures !v.InfoValue? ==> r == Err(InvalidType)
    ensures v.InfoValue? && r.Err? ==> r == Err(Custom(ParseCodepoint(v.codepoint).error))
  {
    match v
    case InfoValue(text, obsolete) =>
      (match ParseCodepoint(text)
       case Ok(c) => Ok(Icon(name, c, obsolete))
       case Err(e) => Err(Custom(e)))
    case _ => Err(InvalidType)
  }

  /** An entry the visitor accepts. */
  predicate EntryValid(e: Entry) {
    if e.0 == METADATA then e.1.VersionValue? else DecodeIcon(e.0, e.1).Ok?
  }

  predicate AllValid(entries: seq<Entry>) {
    forall k :: 0 <= k < |entries| ==> EntryValid(entries[k])
  }

  predicate HasMetadata(entries: seq<Entry>) {
    exists k :: 0 <= k < |entries| && entries[k].0 == METADATA
  }

  /** Both properties split into the first entry and the rest. */
  lemma EntriesCons(entries: seq<Entry>)
    requires |entries| > 0
    ensures AllValid(entries) <==> EntryValid(entries[0]) && AllValid(entries[1..])
    ensures HasMetadata(entries) <==> entries[0].0 == METADATA || HasMetadata(entries[1..])
  {
    assert forall j :: 1 <= j < |entries| ==> entries[j] == entries[1..][j - 1];
    if HasMetadata(entries[1..]) {
      var j :| 0 <= j < |entries[1..]| && entries[1..][j].0 == METADATA;
      assert entries[j + 1].0 == METADATA;
    }
  }

  function Names(icons: seq<Icon>): (r: seq<string>)
    ensures |r| == |icons|
    ensures forall k :: 0 <= k < |icons| ==> r[k] == icons[k].name
  {
    seq(|icons|, k requires 0 <= k < |icons| => icons[k].name)
  }

  /** The keys that become icons, in map order. */
  function IconKeys(entries: seq<Entry>): seq<string> {
    if |entries| == 0 then []
    else if entries[0].0 == METADATA then IconKeys(entries[1..])
    else [entries[0].0] + IconKeys(entries[1..])
  }

  /** The icons the entries decode to, in map order: `METADATA` entries
      and entries that do not decode give none. */
  function Decoded(entries: seq<Entry>): (r: seq<Icon>)
    ensures |r| <= |entries|
  {
    if |entries| == 0 then []
    else if entries[0].0 != METADATA && DecodeIcon(entries[0].0, entries[0].1).Ok? then
      [DecodeIcon(entries[0].0, entries[0].1).value] + Decoded(entries[1..])
    else Decoded(entries[1..])
  }

  /** The version held by the last `METADATA` entry, if there is one. */
  function LastMetadata(entries: seq<Entry>): (r: Option<Version>)
    ensures r.Some? ==> exists k :: 0 <= k < |entries| && entries[k] == (METADATA, VersionValue(r.value))
  {
    if |entries| == 0 then None
    else
      var later := LastMetadata(entries[1..]);
      if later.Some? then
        assert entries[1..][0] == entries[1];
        var k :| 0 <= k < |entries[1..]| && entries[1..][k] == (METADATA, VersionValue(later.value));
        assert entries[k + 1] == entries[1..][k];
        later
      else if entries[0].0 == METADATA && entries[0].1.VersionValue? then Some(entries[0].1.version)
      else None
  }

  /** `CacheVisitor::visit_map`, from the entry it is at, with the metadata
      and icons collected so far. The icons already collected are kept, and
      once a version has been seen the field is never reported missing. */
  function Visit(entries: seq<Entry>, metadata: Option<Version>, icons: seq<Icon>): (r: Result<Cache, DeError>)
    ensures r.Ok? ==> icons <= r.value.icons
    ensures metadata.Some? ==> r != Err(MissingField(METADATA))
  {
    if |entries| == 0 then
      match metadata
      case Some(m) => Ok(Cache(m, icons))
      case None => Err(MissingField(METADATA))
    else
      var (k, v) := entries[0];
      if k == METADATA then
        match v
        case VersionValue(m) => Visit(entries[1..], Some(m), icons)
        case _ => Err(InvalidType)
      else
        match DecodeIcon(k, v)
        case Ok(icon) => Visit(entries[1..], metadata, icons + [icon])
        case Err(e) => Err(e)
  }

  /** The visitor succeeds exactly when every entry is valid and a version
      has been seen, and with every entry valid but no version at all it
      reports the missing field. */
  lemma {:induction false} VisitOutcome(entries: seq<Entry>, metadata: Option<Version>, icons: seq<Icon>)
    ensures var r := Visit(entries, metadata, icons);
      && (r.Ok? <==> AllValid(entries) && (metadata.Some? || HasMetadata(entries)))
      && (AllValid(entries) && metadata.None? && !HasMetadata(entries)
          ==> r == Err(MissingField(METADATA)))
    decreases |entries|
  {
    if |entries| > 0 {
      var (k, v) := entries[0];
      EntriesCons(entries);
      if k == METADATA {
        if v.VersionValue? {
          VisitOutcome(entries[1..], Some(v.version), icons);
        }
      } else if DecodeIcon(k, v).Ok? {
        VisitOutcome(entries[1..], metadata, icons + [DecodeIcon(k, v).value]);
      }
    }
  }

  /** On success the visitor yields one icon per non-`METADATA` key, in
      order. */
  lemma {:induction false} VisitNames(entries: seq<Entry>, metadata: Option<Version>, icons: seq<Icon>)
    ensures var r := Visit(entries, metadata, icons);
      r.Ok? ==> Names(r.value.icons) == Names(icons) + IconKeys(entries)
    decreases |entries|
  {
    if |entries| > 0 {
      var (k, v) := entries[0];
      if k == METADATA {
        if v.VersionValue? {
          VisitNames(entries[1..], Some(v.version), icons);
        }
      } else if DecodeIcon(k, v).Ok? {
        var icon := DecodeIcon(k, v).value;
        VisitIconStep(entries, metadata, icons, icon);
        VisitNames(entries[1..], metadata, icons + [icon]);
        assert Names(icons + [icon]) == Names(icons) + [k];
      }
    }
  }

  /** On success the icons are those the entries decode to, each with the
      codepoint and obsolete flag of its entry, after the ones collected
      so far. */
  lemma {:induction false} VisitIcons(entries: seq<Entry>, metadata: Option<Version>, icons: seq<Icon>)
    ensures var r := Visit(entries, metadata, icons);
      r.Ok? ==> r.value.icons == icons + Decoded(entries)
    decreases |entries|
  {
    if |entries| == 0 {
      assert icons + Decoded(entries) == icons;
    } else {
      var (k, v) := entries[0];
      if k == METADATA {
        if v.VersionValue? {
          VisitIcons(entries[1..], Some(v.version), icons);
        }
      } else if DecodeIcon(k, v).Ok? {
        var icon := DecodeIcon(k, v).value;
        VisitIcons(entries[1..], metadata, icons + [icon]);
        VisitIconsStep(entries, metadata, icons, icon);
      }
    }
  }

  /** The icon case of `VisitIcons`: what holds after the first entry holds
      before it. */
  lemma VisitIconsStep(entries: seq<Entry>, metadata: Option<Version>, icons: seq<Icon>, icon: Icon)
    requires |entries| > 0 && entries[0].0 != METADATA
    requires DecodeIcon(entries[0].0, entries[0].1) == Ok(icon)
    requires var r := Visit(entries[1..], metadata, icons + [icon]);
      r.Ok? ==> r.value.icons == icons + [icon] + Decoded(entries[1..])
    ensures var r := Visit(entries, metadata, icons);
      r.Ok? ==> r.value.icons == icons + Decoded(entries)
  {
    var rest := Decoded(entries[1..]);
    DecodedIcon(entries, icon);
    VisitIconStep(entries, metadata, icons, icon);
    assert icons + [icon] + rest == icons + ([icon] + rest);
  }

  lemma DecodedIcon(entries: seq<Entry>, icon: Icon)
    requires |entries| > 0 && entries[0].0 != METADATA
    requires DecodeIcon(entries[0].0, entries[0].1) == Ok(icon)
    ensures Decoded(entries) == [icon] + Decoded(entries[1..])
  {
  }

  /** On success the version is that of the last `METADATA` entry, or the
      one seen before these entries when none of them is `METADATA`. */
  lemma {:induction false} VisitMetadata(entries: seq<Entry>, metadata: Option<Version>, icons: seq<Icon>)
    ensures var r := Visit(entries, metadata, icons);
      r.Ok? ==> Some(r.value.metadata) == if LastMetadata(entries).Some? then LastMetadata(entries) else metadata
    decreases |entries|
  {
    if |entries| > 0 {
      var (k, v) := entries[0];
      if k == METADATA {
        if v.VersionValue? {
          VisitMetadata(entries[1..], Some(v.version), icons);
        }
      } else if DecodeIcon(k, v).Ok? {
        VisitMetadata(entries[1..], metadata, icons + [DecodeIcon(k, v).value]);
      }
    }
  }

  /** `Deserialize for Cache`: on success, the icons the entries decode to
      and the version of the last `METADATA` entry. */
  function Deserialize(entries: seq<Entry>): (r: Result<Cache, DeError>)
    ensures r.Ok? <==> AllValid(entries) && HasMetadata(entries)
    ensures r.Ok? ==> Names(r.value.icons) == IconKeys(entries)
    ensures r.Ok? ==> r.value.icons == Decoded(entries)
    ensures r.Ok? ==> LastMetadata(entries) == Some(r.value.metadata)
    ensures AllValid(entries) && !HasMetadata(entries) ==> r == Err(MissingField(METADATA))
  {
    VisitOutcome(entries, None, []);
    VisitNames(entries, None, []);
    VisitIcons(entries, None, []);
    VisitMetadata(entries, None, []);
    assert [] + Decoded(entries) == Decoded(entries);
    Visit(entries, None, [])
  }

  /** The entry `serialize_entry` writes for one icon, keyed by its name;
      decoding it gives the icon back. */
  function EncodeIcon(i: Icon): (e: Entry)
    ensures e.0 == i.name && DecodeIcon(e.0, e.1) == Ok(i)
  {
    CodepointRoundTrip(i.codepoint);
    (i.name, InfoValue(DisplayCodepoint(i.codepoint), i.obsolete))
  }

  /** The icon entries, in order. */
  function EncodeIcons(icons: seq<Icon>): (entries: seq<Entry>)
    ensures |entries| == |icons|
    ensures forall k :: 0 <= k < |icons| ==> entries[k] == EncodeIcon(icons[k])
  {
    if |icons| == 0 then [] else [EncodeIcon(icons[0])] + EncodeIcons(icons[1..])
  }

  /** `Serialize for Cache`: `METADATA` first, then every icon in order. */
  function Serialize(c: Cache): (entries: seq<Entry>)
    ensures |entries| == |c.icons| + 1
    ensures entries[0] == (METADATA, VersionValue(c.metadata))
    ensures forall k :: 0 <= k < |c.icons| ==> entries[k + 1] == EncodeIcon(c.icons[k])
  {
    [(METADATA, VersionValue(c.metadata))] + EncodeIcons(c.icons)
  }

  /** Every entry is an icon entry decoding to the matching icon. */
  predicate DecodesTo(entries: seq<Entry>, icons: seq<Icon>) {
    && |entries| == |icons|
    && forall k :: 0 <= k < |entries| ==>
         entries[k].0 != METADATA && DecodeIcon(entries[k].0, entries[k].1) == Ok(icons[k])
  }

  lemma DecodesToTail(entries: seq<Entry>, icons: seq<Icon>)
    requires |entries| > 0 && DecodesTo(entries, icons)
    ensures DecodesTo(entries[1..], icons[1..])
  {
    assert forall k :: 0 <= k < |entries[1..]| ==> entries[1..][k] == entries[k + 1];
  }

  /** One icon entry is decoded and appended. */
  lemma VisitIconStep(entries: seq<Entry>, metadata: Option<Version>, acc: seq<Icon>, icon: Icon)
    requires |entries| > 0
    requires entries[0].0 != METADATA && DecodeIcon(entries[0].0, entries[0].1) == Ok(icon)
    ensures Visit(entries, metadata, acc) == Visit(entries[1..], metadata, acc + [icon])
  {
  }

  /** Once the version is known, entries that all decode to icons are
      collected in order. */
  lemma {:induction false} VisitDecoded(entries: seq<Entry>, v: Version, acc: seq<Icon>, icons: seq<Icon>)
    requires DecodesTo(entries, icons)
    ensures Visit(entries, Some(v), acc) == Ok(Cache(v, acc + icons))
    decreases |entries|
  {
    if |entries| == 0 {
      assert acc + icons == acc;
    } else {
      var acc' := acc + [icons[0]];
      assert acc' + icons[1..] == acc + icons;
      DecodesToTail(entries, icons);
      VisitIconStep(entries, Some(v), acc, icons[0]);
      VisitDecoded(entries[1..], v, acc', icons[1..]);
    }
  }

  /** Serialising and then deserialising gives the cache back, as long as no
      icon is named `METADATA`. */
  lemma CacheRoundTrip(c: Cache)
    requires forall k :: 0 <= k < |c.icons| ==> c.icons[k].name != METADATA
    ensures Deserialize(Serialize(c)) == Ok(c)
  {
    var entries := Serialize(c);
    var tail := EncodeIcons(c.icons);
    assert entries[1..] == tail;
    forall k | 0 <= k < |tail|
      ensures tail[k].0 != METADATA && DecodeIcon(tail[k].0, tail[k].1) == Ok(c.icons[k])
    {
      CodepointRoundTrip(c.icons[k].codepoint);
    }
    assert Visit(entries, None, []) == Visit(tail, Some(c.metadata), []);
    VisitDecoded(tail, c.metadata, [], c.icons);
    assert [] + c.icons == c.icons;
  }

  /** An icon named `METADATA` is read back as the metadata key, and its
      icon record is the wrong shape for a version. */
  lemma MetadataNamedIconBreaksRoundTrip()
    ensures Deserialize(Serialize(Cache(V1, [Icon(METADATA, 'x', false)]))).Err?
  {
  }
}

=== FILE: input.dfy ===
/** The sliding line window over a byte stream that feeds the checker and
    the context snippets of its diagnostics (src/input.rs). The underlying
    `BufRead` is the stream of bytes not yet read; reading never fails. */
module Input {
  import opened Results
  import opened Numerals

  newtype Byte = b: int | 0 <= b < 256

  const NEWLINE: Byte := 10

  /** Context lines kept before and after the current line. */
  const LINES_BEFORE: nat := 1
  const LINES_AFTER: nat := 3
  const WINDOW: nat := LINES_BEFORE + 1 + LINES_AFTER

  function Sum(s: seq<nat>): nat {
    if |s| == 0 then 0 else s[0] + Sum(s[1..])
  }

  lemma {:induction false} SumAppend(a: seq<nat>, b: seq<nat>)
    ensures Sum(a + b) == Sum(a) + Sum(b)
    decreases |a|
  {
    if |a| == 0 {
      assert a + b == b;
    } else {
      assert (a + b)[1..] == a[1..] + b;
      SumAppend(a[1..], b);
    }
  }

  lemma SumPrefix(s: seq<nat>, k: nat)
    requires k <= |s|
    ensures Sum(s[..k]) <= Sum(s)
  {
    SumAppend(s[..k], s[k..]);
    assert s[..k] + s[k..] == s;
  }

  // ---------------------------------------------------------------------
  // Reading one line

  /** `read_until(b'\n', ..)` on the rest of the stream: the bytes up to and
      including the first newline, or all of them if there is none. */
  function ReadUntil(rest: seq<Byte>): (r: (seq<Byte>, seq<Byte>))
    ensures r.0 + r.1 == rest
    ensures |r.0| == 0 <==> |rest| == 0
    ensures forall j :: 0 <= j < |r.0| - 1 ==> r.0[j] != NEWLINE
    ensures |r.1| > 0 ==> r.0[|r.0| - 1] == NEWLINE
    decreases |rest|
  {
    if |rest| == 0 then ([], [])
    else if rest[0] == NEWLINE then ([rest[0]], rest[1..])
    else
      var (line, after) := ReadUntil(rest[1..]);
      ([rest[0]] + line, after)
  }

  /** `InputReader`: the unread stream, the buffered bytes, the sizes of the
      buffered lines, the number of the current line and its absolute and
      buffer-relative positions. */
  datatype Reader = Reader(
    rest: seq<Byte>,
    buffer: seq<Byte>,
    sizes: seq<nat>,
    lineCount: nat,
    offset: nat,
    relOffset: nat)

  /** `InputReader::new`: nothing read yet, so the whole stream lies ahead
      and the reader's invariants hold from the start. */
  function NewReader(data: seq<Byte>): (r: Reader)
    ensures Inv(r)
    ensures r.offset == 0 && r.lineCount == 0
  {
    Reader(data, [], [], 0, 0, 0)
  }

  /** `InputReader::read_line`: appends the next line to the buffer and
      records its size, unless the stream is exhausted. */
  function ReadLine(r: Reader): (p: (Reader, nat))
    ensures p.0.buffer + p.0.rest == r.buffer + r.rest
    ensures p.1 == |p.0.buffer| - |r.buffer|
    ensures p.1 == 0 <==> |r.rest| == 0
    ensures p.0.sizes == if p.1 == 0 then r.sizes else r.sizes + [p.1]
    ensures p.0.lineCount == r.lineCount && p.0.offset == r.offset && p.0.relOffset == r.relOffset
  {
    var (line, after) := ReadUntil(r.rest);
    var size := |line|;
    var sizes := if size != 0 then r.sizes + [size] else r.sizes;
    (r.(rest := after, buffer := r.buffer + line, sizes := sizes), size)
  }

  /** `read_line` called `n` times. */
  function ReadLines(r: Reader, n: nat): (q: Reader)
    ensures q.buffer + q.rest == r.buffer + r.rest
    ensures |q.buffer| >= |r.buffer|
    ensures r.sizes <= q.sizes && |q.sizes| <= |r.sizes| + n
    ensures Sum(q.sizes) == Sum(r.sizes) + (|q.buffer| - |r.buffer|)
    ensures forall k :: |r.sizes| <= k < |q.sizes| ==> q.sizes[k] > 0
    ensures |q.rest| > 0 ==> |q.sizes| == |r.sizes| + n
    ensures q.lineCount == r.lineCount && q.offset == r.offset && q.relOffset == r.relOffset
    decreases n
  {
    if n == 0 then r
    else
      var (next, size) := ReadLine(r);
      SumAppend(r.sizes, [size]);
      assert Sum([size]) == size;
      var q := ReadLines(next, n - 1);
      assert |next.rest| == 0 ==> |q.rest| == 0;
      q
  }

  // ---------------------------------------------------------------------
  // The window

  /** What holds between calls of `next_line` until it returns `None`:
      the sizes add up to the buffer; the window is empty (before the first
      call) or holds the previous line, the current one and up to
      `LINES_AFTER` more, all of them real lines; it is full while the
      stream has bytes left; and the relative offset is just past the
      current line. */
  predicate Inv(r: Reader) {
    && Sum(r.sizes) == |r.buffer|
    && (|r.sizes| == 0 || LINES_BEFORE + 1 <= |r.sizes| <= WINDOW)
    && (|r.sizes| > 0 ==> r.relOffset == Sum(r.sizes[..LINES_BEFORE + 1]) && r.lineCount >= 1)
    && (|r.sizes| == 0 ==> r.relOffset == 0)
    && (forall k :: LINES_BEFORE <= k < |r.sizes| ==> r.sizes[k] > 0)
    && (|r.rest| > 0 && |r.sizes| > 0 ==> |r.sizes| == WINDOW)
    && r.relOffset <= r.offset
  }

  lemma NewReaderInv(data: seq<Byte>)
    ensures Inv(NewReader(data))
  {
  }

  /** The window as `next_line` leaves it before yielding: the sizes still
      add up to the buffer, at least `LINES_BEFORE` sizes are present (the
      debug assertion), and the relative offset is the start of the current
      line. */
  predicate Shifted(q: Reader) {
    && Sum(q.sizes) == |q.buffer|
    && LINES_BEFORE <= |q.sizes| <= WINDOW
    && q.relOffset == Sum(q.sizes[..LINES_BEFORE])
    && (forall k :: LINES_BEFORE <= k < |q.sizes| ==> q.sizes[k] > 0)
    && (q.sizes[0] > 0 ==> q.lineCount >= 1)
    && (|q.rest| > 0 ==> |q.sizes| == WINDOW)
    && q.relOffset <= q.offset
  }

  /** A later call of `next_line` drops the oldest line: its size `n`
      leaves the deque, `n` bytes leave the buffer and the relative offset
      drops by `n`; then one more line is read. */
  function Shift(r: Reader): (q: Reader)
    requires Inv(r) && |r.sizes| > 0
    ensures Shifted(q)
    ensures q.lineCount == r.lineCount && q.offset == r.offset
    ensures q.buffer + q.rest == r.buffer[r.sizes[0]..] + r.rest
    ensures r.sizes[1..] <= q.sizes && |q.sizes| <= |r.sizes|
    ensures r.buffer[r.sizes[0]..] <= q.buffer
    ensures q.relOffset == r.relOffset - r.sizes[0]
  {
    var n := r.sizes[0];
    ShiftSums(r.sizes);
    var popped := r.(sizes := r.sizes[1..], buffer := r.buffer[n..], relOffset := r.relOffset - n);
    var (q, size) := ReadLine(popped);
    SumAppend(popped.sizes, [size]);
    assert Sum([size]) == size;
    assert q.sizes[..1] == popped.sizes[..1];
    q
  }

  lemma ShiftSums(sizes: seq<nat>)
    requires |sizes| >= 2
    ensures Sum(sizes) == sizes[0] + Sum(sizes[1..])
    ensures Sum(sizes[..2]) == sizes[0] + Sum(sizes[1..][..1])
  {
    assert sizes[..2][1..] == sizes[1..][..1];
  }

  /** The first call of `next_line` pads the deque with `LINES_BEFORE`
      empty lines and reads `LINES_AFTER + 1` lines. */
  function Start(r: Reader): (q: Reader)
    requires Inv(r) && |r.sizes| == 0
    ensures Shifted(q)
    ensures q.lineCount == r.lineCount && q.offset == r.offset
    ensures q.buffer + q.rest == r.buffer + r.rest
    ensures q.sizes[..LINES_BEFORE] == seq(LINES_BEFORE, _ => 0)
    ensures |q.sizes| <= LINES_BEFORE + LINES_AFTER + 1
  {
    var padded := r.(sizes := seq(LINES_BEFORE, _ => 0));
    assert padded.sizes == [0];
    assert Sum(padded.sizes) == 0;
    var q := ReadLines(padded, LINES_AFTER + 1);
    assert q.sizes[..1] == [0];
    assert Sum([0]) == 0;
    q
  }

  /** The first half of `next_line`. */
  function Advance(r: Reader): (q: Reader)
    requires Inv(r)
    ensures Shifted(q)
    ensures q.lineCount == r.lineCount && q.offset == r.offset
    ensures var n := if |r.sizes| > 0 then r.sizes[0] else 0;
      && n <= |r.buffer| && n <= r.relOffset
      && q.buffer + q.rest == r.buffer[n..] + r.rest
      && q.relOffset == r.relOffset - n
  {
    if |r.sizes| > 0 then
      ShiftSums(r.sizes);
      Shift(r)
    else
      assert r.buffer[0..] == r.buffer;
      Start(r)
  }

  /** Moving past the line at entry `LINES_BEFORE` restores the invariant. */
  lemma YieldInv(q: Reader)
    requires Shifted(q) && |q.sizes| > LINES_BEFORE
    ensures var size := q.sizes[LINES_BEFORE];
      && Sum(q.sizes[..LINES_BEFORE + 1]) == q.relOffset + size
      && Inv(q.(lineCount := q.lineCount + 1, offset := q.offset + size, relOffset := q.relOffset + size))
  {
    var size := q.sizes[LINES_BEFORE];
    assert q.sizes[..LINES_BEFORE + 1] == q.sizes[..LINES_BEFORE] + [size];
    SumAppend(q.sizes[..LINES_BEFORE], [size]);
    assert Sum([size]) == size;
  }

  /** A line handed out by `next_line`: the window it sits in and where it
      is. */
  datatype InputLine = InputLine(
    buffer: seq<Byte>,
    sizes: seq<nat>,
    lineCount: nat,
    offset: nat,
    relOffset: nat,
    size: nat)

  /** `InputReader::next_line`: the line after the previous one, with the
      window around it, or `None` at the end of the stream, which also sets
      the line number to `usize::MAX`. The line is the window's entry
      `LINES_BEFORE` and carries the position before the reader moves on by
      its size. */
  function NextLine(r: Reader): (p: (Reader, Option<InputLine>))
    requires Inv(r)
    ensures p.1.Some? ==>
      var l := p.1.value;
      && Inv(p.0)
      && l.lineCount == r.lineCount && l.offset == r.offset
      && |l.sizes| > LINES_BEFORE && l.size > 0 && l.size == l.sizes[LINES_BEFORE]
      && l.relOffset == Sum(l.sizes[..LINES_BEFORE])
      && p.0.lineCount == r.lineCount + 1
      && p.0.offset == r.offset + l.size
      && p.0.relOffset == l.relOffset + l.size
    ensures p.1.None? ==> p.0.lineCount == USIZE_MAX && |p.0.rest| == 0
  {
    var q := Advance(r);
    if |q.sizes| > LINES_BEFORE then
      var size := q.sizes[LINES_BEFORE];
      var line := InputLine(q.buffer, q.sizes, q.lineCount, q.offset, q.relOffset, size);
      YieldInv(q);
      (q.(lineCount := q.lineCount + 1, offset := q.offset + size, relOffset := q.relOffset + size), Some(line))
    else
      (q.(lineCount := USIZE_MAX), None)
  }

  /** What every line `next_line` hands out satisfies: its window adds up,
      it is entry `LINES_BEFORE` of the window and a real line, the entry
      before it is a real line only if a line was handed out before, and
      its relative offset is where it starts in the buffer. */
  predicate LineInv(l: InputLine) {
    && Sum(l.sizes) == |l.buffer|
    && LINES_BEFORE < |l.sizes| <= WINDOW
    && l.size == l.sizes[LINES_BEFORE] && l.size > 0
    && l.relOffset == Sum(l.sizes[..LINES_BEFORE])
    && (forall k :: LINES_BEFORE <= k < |l.sizes| ==> l.sizes[k] > 0)
    && (l.sizes[0] > 0 ==> l.lineCount >= 1)
    && l.relOffset <= l.offset
  }

  lemma NextLineWellFormed(r: Reader)
    requires Inv(r)
    ensures NextLine(r).1.Some? ==> LineInv(NextLine(r).1.value)
  {
  }

  /** The line ends inside its window's buffer. */
  lemma LineInBuffer(l: InputLine)
    requires LineInv(l)
    ensures l.relOffset + l.size <= |l.buffer|
  {
    assert l.sizes[..LINES_BEFORE + 1] == l.sizes[..LINES_BEFORE] + [l.size];
    SumAppend(l.sizes[..LINES_BEFORE], [l.size]);
    assert Sum([l.size]) == l.size;
    SumPrefix(l.sizes, LINES_BEFORE + 1);
  }

  /** `InputLine::contents`. */
  function Contents(l: InputLine): (c: seq<Byte>)
    requires LineInv(l)
    ensures |c| == l.size
  {
    LineInBuffer(l);
    l.buffer[l.relOffset..l.relOffset + l.size]
  }

  /** `InputLine::offset_of`: a byte index in the line as an absolute
      position in the stream, never before the line's start; an index inside
      the line is a position inside the span of the stream the window holds,
      whose buffer starts `relOffset` bytes before the line. */
  function OffsetOf(l: InputLine, i: nat): (p: nat)
    ensures p >= l.offset
    ensures LineInv(l) && i < l.size ==>
      l.offset - l.relOffset <= p < l.offset - l.relOffset + |l.buffer|
  {
    if LineInv(l) && i < l.size then
      LineInBuffer(l);
      l.offset + i
    else l.offset + i
  }

  // ---------------------------------------------------------------------
  // The stream behind the window

  /** The reader has consumed a prefix of `data`: what was drained, then
      the buffer, then the unread rest, and the current line starts
      `relOffset` bytes into the buffer. */
  predicate StreamInv(data: seq<Byte>, r: Reader) {
    && r.relOffset <= r.offset
    && r.offset - r.relOffset + |r.buffer| + |r.rest| == |data|
    && data[r.offset - r.relOffset..] == r.buffer + r.rest
  }

  /** The line's buffer is the stream's bytes from where the buffer starts. */
  predicate LineStream(data: seq<Byte>, l: InputLine) {
    && l.relOffset <= l.offset
    && l.offset - l.relOffset + |l.buffer| <= |data|
    && data[l.offset - l.relOffset..l.offset - l.relOffset + |l.buffer|] == l.buffer
  }

  lemma NewReaderStream(data: seq<Byte>)
    ensures StreamInv(data, NewReader(data))
  {
  }

  /** Dropping `n` bytes from the front of the buffer and moving the
      relative offset back by `n` keeps track of the stream. */
  lemma StreamDrop(data: seq<Byte>, r: Reader, q: Reader, n: nat)
    requires StreamInv(data, r)
    requires n <= |r.buffer| && n <= r.relOffset
    requires q.buffer + q.rest == r.buffer[n..] + r.rest
    requires q.offset == r.offset && q.relOffset == r.relOffset - n
    ensures StreamInv(data, q)
  {
    var d := r.offset - r.relOffset;
    assert (r.buffer + r.rest)[n..] == r.buffer[n..] + r.rest;
    assert data[d + n..] == (data[d..])[n..];
  }

  /** Moving both offsets on by the same amount keeps track of the stream. */
  lemma StreamMove(data: seq<Byte>, q: Reader, next: Reader)
    requires StreamInv(data, q)
    requires next.buffer == q.buffer && next.rest == q.rest
    requires next.relOffset >= q.relOffset && next.offset - next.relOffset == q.offset - q.relOffset
    ensures StreamInv(data, next)
  {
  }

  /** The line's bytes in the buffer are the stream's bytes at its offset. */
  lemma LineFromStream(data: seq<Byte>, q: Reader, l: InputLine)
    requires StreamInv(data, q) && LineInv(l)
    requires l.buffer == q.buffer && l.offset == q.offset && l.relOffset == q.relOffset
    ensures LineStream(data, l)
    ensures l.offset + l.size <= |data|
    ensures Contents(l) == data[l.offset..l.offset + l.size]
  {
    LineInBuffer(l);
    var d := q.offset - q.relOffset;
    assert q.buffer == (q.buffer + q.rest)[..|q.buffer|];
    assert data[d..d + |q.buffer|] == (data[d..])[..|q.buffer|];
    WindowSlice(data, d, l.buffer, l.relOffset, l.relOffset + l.size);
  }

  /** The reader keeps tracking the stream across `next_line`. */
  lemma NextLineStream(data: seq<Byte>, r: Reader)
    requires Inv(r) && StreamInv(data, r)
    ensures NextLine(r).1.Some? ==> StreamInv(data, NextLine(r).0)
  {
    var q := Advance(r);
    StreamDrop(data, r, q, if |r.sizes| > 0 then r.sizes[0] else 0);
    var (next, line) := NextLine(r);
    if line.Some? {
      StreamMove(data, q, next);
    }
  }

  /** Each line `next_line` hands out is the stream's bytes at its offset.
      With the offsets `NextLine` moves on by each line's size, the lines
      follow one another through the stream. */
  lemma NextLineContents(data: seq<Byte>, r: Reader)
    requires Inv(r) && StreamInv(data, r)
    ensures var line := NextLine(r).1;
      line.Some? ==>
        && LineInv(line.value)
        && LineStream(data, line.value)
        && line.value.offset + line.value.size <= |data|
        && Contents(line.value) == data[line.value.offset..line.value.offset + line.value.size]
  {
    AdvanceStream(data, r);
    NextLineIsWindow(r);
    var q := Advance(r);
    if |q.sizes| > LINES_BEFORE {
      WindowLine(data, q);
      var l := InputLine(q.buffer, q.sizes, q.lineCount, q.offset, q.relOffset, q.sizes[LINES_BEFORE]);
      assert NextLine(r).1 == Some(l);
    }
  }

  /** Dropping the oldest line keeps the reader on the stream. */
  lemma AdvanceStream(data: seq<Byte>, r: Reader)
    requires Inv(r) && StreamInv(data, r)
    ensures Shifted(Advance(r)) && StreamInv(data, Advance(r))
  {
    StreamDrop(data, r, Advance(r), if |r.sizes| > 0 then r.sizes[0] else 0);
  }

  /** The line `next_line` yields is entry `LINES_BEFORE` of the advanced window. */
  lemma NextLineIsWindow(r: Reader)
    requires Inv(r)
    ensures var q := Advance(r);
      NextLine(r).1.Some? <==> |q.sizes| > LINES_BEFORE
    ensures var q := Advance(r);
      NextLine(r).1.Some? ==>
        NextLine(r).1.value == InputLine(q.buffer, q.sizes, q.lineCount, q.offset, q.relOffset, q.sizes[LINES_BEFORE])
  {
  }

  /** The line at entry `LINES_BEFORE` of a shifted window that tracks the
      stream is well formed and holds the stream's bytes at its offset. */
  lemma WindowLine(data: seq<Byte>, q: Reader)
    requires Shifted(q) && StreamInv(data, q) && |q.sizes| > LINES_BEFORE
    ensures var l := InputLine(q.buffer, q.sizes, q.lineCount, q.offset, q.relOffset, q.sizes[LINES_BEFORE]);
      && LineInv(l)
      && LineStream(data, l)
      && l.offset + l.size <= |data|
      && Contents(l) == data[l.offset..l.offset + l.size]
  {
    var l := InputLine(q.buffer, q.sizes, q.lineCount, q.offset, q.relOffset, q.sizes[LINES_BEFORE]);
    ShiftedLine(q);
    LineFromStream(data, q, l);
  }

  lemma ShiftedLine(q: Reader)
    requires Shifted(q) && |q.sizes| > LINES_BEFORE
    ensures LineInv(InputLine(q.buffer, q.sizes, q.lineCount, q.offset, q.relOffset, q.sizes[LINES_BEFORE]))
  {
  }

  /** `offset_of` turns a byte index in a line the reader yielded into the
      position of that very byte in the stream. */
  lemma OffsetOfByte(data: seq<Byte>, l: InputLine, i: nat)
    requires LineInv(l) && LineStream(data, l)
    requires i < l.size
    ensures OffsetOf(l, i) < |data|
    ensures Contents(l)[i] == data[OffsetOf(l, i)]
  {
    LineInBuffer(l);
    var d := l.offset - l.relOffset;
    assert Contents(l)[i] == l.buffer[l.relOffset + i];
    assert l.buffer[l.relOffset + i] == data[d..d + |l.buffer|][l.relOffset + i];
  }

  /** `next_line` hands out `None` exactly when every byte of the stream
      has been handed out in earlier lines. */
  lemma NextLineEnd(data: seq<Byte>, r: Reader)
    requires Inv(r) && StreamInv(data, r)
    ensures NextLine(r).1.None? <==> r.offset == |data|
  {
    AdvanceStream(data, r);
    NextLineIsWindow(r);
    NextLineContents(data, r);
    var q := Advance(r);
    if |q.sizes| <= LINES_BEFORE {
      assert q.sizes[..LINES_BEFORE] == q.sizes;
    }
  }

  // ---------------------------------------------------------------------
  // Lines as `read_until` reads them

  /** How many bytes `read_until` reads from `s`: up to and including the
      first newline, or all of them. */
  function LineLength(s: seq<Byte>): (n: nat)
    ensures n <= |s|
  {
    if |s| == 0 then 0 else if s[0] == NEWLINE then 1 else 1 + LineLength(s[1..])
  }

  lemma {:induction false} LineLengthRead(s: seq<Byte>)
    ensures LineLength(s) == |ReadUntil(s).0|
    decreases |s|
  {
    if |s| > 0 && s[0] != NEWLINE {
      LineLengthRead(s[1..]);
    }
  }

  /** `s` starts with the lines `read_until` reads from it one after
      another, of the given sizes. */
  predicate Chunks(s: seq<Byte>, sizes: seq<nat>)
    decreases |sizes|
  {
    |sizes| == 0 || (sizes[0] == LineLength(s) && Chunks(s[sizes[0]..], sizes[1..]))
  }

  /** Every window entry after the oldest one is the line `read_until`
      reads from the buffered and unread bytes where that entry starts. */
  predicate ReadByLines(r: Reader) {
    |r.sizes| > 0 ==> r.sizes[0] <= |r.buffer + r.rest| && Chunks((r.buffer + r.rest)[r.sizes[0]..], r.sizes[1..])
  }

  /** `line` is the line `read_until` reads from `data` at `at`: there is
      no newline before its last byte, and that byte is a newline unless
      the line ends the stream. */
  predicate OneLine(data: seq<Byte>, at: nat, line: seq<Byte>) {
    && at + |line| <= |data|
    && line == ReadUntil(data[at..]).0
    && (forall j :: 0 <= j < |line| - 1 ==> line[j] != NEWLINE)
    && (at + |line| < |data| ==> 0 < |line| && line[|line| - 1] == NEWLINE)
  }

  /** Reading one more line after the lines already read keeps them lines. */
  lemma {:induction false} ChunksAppend(s: seq<Byte>, sizes: seq<nat>, n: nat)
    requires Chunks(s, sizes) && Sum(sizes) <= |s|
    requires n == LineLength(s[Sum(sizes)..])
    ensures Chunks(s, sizes + [n])
    decreases |sizes|
  {
    if |sizes| == 0 {
      assert sizes + [n] == [n];
      assert s[0..] == s;
    } else {
      var m := sizes[0];
      assert (sizes + [n])[1..] == sizes[1..] + [n];
      assert s[m..][Sum(sizes[1..])..] == s[Sum(sizes)..];
      ChunksAppend(s[m..], sizes[1..], n);
    }
  }

  /** `read_line` appends the line `read_until` reads. */
  lemma ReadLineLines(r: Reader)
    requires |r.sizes| > 0 && Sum(r.sizes) == |r.buffer| && ReadByLines(r)
    ensures var q := ReadLine(r).0;
      ReadByLines(q) && Sum(q.sizes) == |q.buffer| && |q.sizes| > 0
  {
    var (q, size) := ReadLine(r);
    SumAppend(r.sizes, [size]);
    assert Sum([size]) == size;
    if size > 0 {
      var all := r.buffer + r.rest;
      var m := r.sizes[0];
      assert all[m..][Sum(r.sizes[1..])..] == r.rest;
      LineLengthRead(r.rest);
      ChunksAppend(all[m..], r.sizes[1..], size);
      assert q.sizes[1..] == r.sizes[1..] + [size];
    }
  }

  lemma {:induction false} ReadLinesLines(r: Reader, n: nat)
    requires |r.sizes| > 0 && Sum(r.sizes) == |r.buffer| && ReadByLines(r)
    ensures ReadByLines(ReadLines(r, n))
    decreases n
  {
    if n > 0 {
      var next := ReadLine(r).0;
      ReadLineLines(r);
      ReadLinesLines(next, n - 1);
      assert ReadLines(r, n) == ReadLines(next, n - 1);
    }
  }

  /** The first half of `next_line` keeps the window's lines as
      `read_until` reads them. */
  lemma {:induction false} AdvanceLines(r: Reader)
    requires Inv(r) && ReadByLines(r)
    ensures ReadByLines(Advance(r))
  {
    if |r.sizes| > 0 {
      ShiftLines(r);
    } else {
      StartLines(r);
    }
  }

  lemma ShiftLines(r: Reader)
    requires Inv(r) && ReadByLines(r) && |r.sizes| > 0
    ensures ReadByLines(Shift(r))
  {
    var n := r.sizes[0];
    ShiftSums(r.sizes);
    var popped := r.(sizes := r.sizes[1..], buffer := r.buffer[n..], relOffset := r.relOffset - n);
    assert popped.buffer + popped.rest == (r.buffer + r.rest)[n..];
    assert popped.sizes[1..] == r.sizes[2..];
    ReadLineLines(popped);
  }

  lemma StartLines(r: Reader)
    requires Inv(r) && |r.sizes| == 0
    ensures ReadByLines(Start(r))
  {
    var padded := r.(sizes := seq(LINES_BEFORE, _ => 0));
    assert padded.sizes == [0];
    assert Sum(padded.sizes) == 0;
    assert (padded.buffer + padded.rest)[0..] == padded.buffer + padded.rest;
    ReadLinesLines(padded, LINES_AFTER + 1);
  }

  lemma NewReaderLines(data: seq<Byte>)
    ensures ReadByLines(NewReader(data))
  {
  }

  /** The `n` bytes `read_until` reads from `data` at `at` are one line. */
  lemma FirstChunk(data: seq<Byte>, at: nat, n: nat)
    requires at <= |data| && n == |ReadUntil(data[at..]).0|
    ensures at + n <= |data| && OneLine(data, at, data[at..at + n])
  {
    var (a, b) := ReadUntil(data[at..]);
    assert a == data[at..][..n];
  }

  lemma StreamFrom(data: seq<Byte>, d: nat, all: seq<Byte>, k: nat)
    requires d <= |data| && data[d..] == all && k <= |all|
    ensures data[d + k..] == all[k..]
  {
    assert data[d + k..] == data[d..][k..];
  }

  /** The entry after the oldest one in a window made of lines is the line
      `read_until` reads from the stream where that entry starts. */
  lemma WindowChunk(data: seq<Byte>, d: nat, all: seq<Byte>, at: nat, sizes: seq<nat>)
    requires d <= |data| && data[d..] == all
    requires |sizes| > 1 && at <= |all| && Chunks(all[at..], sizes[1..])
    ensures d + at <= |data| && sizes[1] == LineLength(data[d + at..])
  {
    StreamFrom(data, d, all, at);
    assert sizes[1..][0] == sizes[1];
  }

  /** The line at entry `LINES_BEFORE` of a shifted window made of lines
      is as long as the line `read_until` reads from the stream there. */
  lemma WindowLineLength(data: seq<Byte>, q: Reader)
    requires Shifted(q) && StreamInv(data, q) && ReadByLines(q) && |q.sizes| > LINES_BEFORE
    ensures q.offset <= |data| && q.sizes[LINES_BEFORE] == LineLength(data[q.offset..])
  {
    assert q.relOffset == q.sizes[0] by {
      assert q.sizes[..LINES_BEFORE] == [q.sizes[0]];
      assert Sum([q.sizes[0]]) == q.sizes[0];
    }
    var d := q.offset - q.relOffset;
    WindowChunk(data, d, q.buffer + q.rest, q.sizes[0], q.sizes);
    assert d + q.sizes[0] == q.offset;
  }

  /** `next_line` keeps the window made of lines as `read_until` reads
      them. */
  lemma NextLineKeepsLines(r: Reader)
    requires Inv(r) && ReadByLines(r)
    ensures ReadByLines(NextLine(r).0)
  {
    AdvanceLines(r);
    NextLineWindow(r);
    SameLines(Advance(r), NextLine(r).0);
  }

  /** `next_line` leaves the window as its first half arranged it. */
  lemma NextLineWindow(r: Reader)
    requires Inv(r)
    ensures var q := Advance(r);
      NextLine(r).0.buffer == q.buffer && NextLine(r).0.rest == q.rest && NextLine(r).0.sizes == q.sizes
  {
  }

  lemma SameLines(a: Reader, b: Reader)
    requires ReadByLines(a)
    requires a.buffer == b.buffer && a.rest == b.rest && a.sizes == b.sizes
    ensures ReadByLines(b)
  {
  }

  /** A line whose contents are the stream's bytes at its offset, as many
      as `read_until` reads there, is one line of the stream. */
  lemma LineOfLength(data: seq<Byte>, l: InputLine)
    requires LineInv(l) && l.offset + l.size <= |data|
    requires Contents(l) == data[l.offset..l.offset + l.size]
    requires l.size == LineLength(data[l.offset..])
    ensures OneLine(data, l.offset, Contents(l))
  {
    LineLengthRead(data[l.offset..]);
    FirstChunk(data, l.offset, l.size);
  }

  /** The line at entry `LINES_BEFORE` of a shifted window made of lines
      that tracks the stream is one line of the stream. */
  lemma WindowReadsLine(data: seq<Byte>, q: Reader)
    requires Shifted(q) && StreamInv(data, q) && ReadByLines(q) && |q.sizes| > LINES_BEFORE
    ensures var l := InputLine(q.buffer, q.sizes, q.lineCount, q.offset, q.relOffset, q.sizes[LINES_BEFORE]);
      LineInv(l) && OneLine(data, l.offset, Contents(l))
  {
    var l := InputLine(q.buffer, q.sizes, q.lineCount, q.offset, q.relOffset, q.sizes[LINES_BEFORE]);
    WindowLineLength(data, q);
    WindowLine(data, q);
    LineOfLength(data, l);
  }

  /** Every line `next_line` hands out is one line of the stream, as
      `read_until` reads it at the line's offset. */
  lemma NextLineReadsLine(data: seq<Byte>, r: Reader)
    requires Inv(r) && StreamInv(data, r) && ReadByLines(r)
    ensures NextLine(r).1.Some? ==> OneLine(data, NextLine(r).1.value.offset, Contents(NextLine(r).1.value))
  {
    NextLineIsWindow(r);
    var q := Advance(r);
    if |q.sizes| > LINES_BEFORE {
      AdvanceStream(data, r);
      AdvanceLines(r);
      WindowReadsLine(data, q);
    }
  }


  // ---------------------------------------------------------------------
  // Context snippets

  datatype Span = Span(offset: nat, len: nat)

  /** The bytes of a snippet, the absolute span they cover, the number of
      its first line, the column of its first byte, and the number of the
      line after it. */
  datatype SpanContents = SpanContents(data: seq<Byte>, span: Span, line: nat, column: nat, lineCount: nat)

  /** `lines` real lines at the back of `sizes`, no more than `limit`,
      holding `bytes` bytes, and the walk stopped only at the limit, the
      front or an empty entry. */
  predicate CountedBack(sizes: seq<nat>, limit: nat, lines: nat, bytes: nat) {
    && lines <= limit && lines <= |sizes|
    && bytes == Sum(sizes[|sizes| - lines..])
    && (forall k :: |sizes| - lines <= k < |sizes| ==> sizes[k] > 0)
    && (lines < limit && lines < |sizes| ==> sizes[|sizes| - lines - 1] == 0)
  }

  /** The lines before the current one: walking back from the end of
      `sizes`, at most `limit` lines and none past an empty entry, counted
      and summed. */
  function CountBack(sizes: seq<nat>, limit: nat): (p: (nat, nat))
    ensures CountedBack(sizes, limit, p.0, p.1)
    decreases |sizes|
  {
    if |sizes| == 0 || limit == 0 || sizes[|sizes| - 1] == 0 then (0, 0)
    else
      var q := CountBack(sizes[..|sizes| - 1], limit - 1);
      CountBackStep(sizes, limit, q.0, q.1);
      (q.0 + 1, q.1 + sizes[|sizes| - 1])
  }

  /** Counting back over the single entry kept before the current line. */
  lemma CountBackOne(size: nat, limit: nat)
    requires limit > 0
    ensures CountBack([size], limit) == if size > 0 then (1, size) else (0, 0)
  {
    assert [size][..0] == [];
  }

  /** The entry before a line counts back as one line, of its size, when
      it is a real line, and as nothing otherwise; it lies before the line
      in the buffer. */
  lemma LinesBeforeLine(l: InputLine, before: nat)
    requires LineInv(l) && before > 0
    ensures CountBack(l.sizes[..LINES_BEFORE], before) == if l.sizes[0] > 0 then (1, l.sizes[0]) else (0, 0)
    ensures l.sizes[0] == l.relOffset && (l.sizes[0] > 0 ==> l.lineCount >= 1)
  {
    assert l.sizes[..LINES_BEFORE] == [l.sizes[0]];
    assert Sum([l.sizes[0]]) == l.sizes[0];
    CountBackOne(l.sizes[0], before);
  }

  /** One more real line at the back extends a count of the entries before it. */
  lemma CountBackStep(sizes: seq<nat>, limit: nat, lines: nat, bytes: nat)
    requires 0 < |sizes| && 0 < limit && sizes[|sizes| - 1] > 0
    requires CountedBack(sizes[..|sizes| - 1], limit - 1, lines, bytes)
    ensures CountedBack(sizes, limit, lines + 1, bytes + sizes[|sizes| - 1])
  {
    var init := sizes[..|sizes| - 1];
    var last := sizes[|sizes| - 1];
    assert sizes[|sizes| - (lines + 1)..] == init[|init| - lines..] + [last];
    SumAppend(init[|init| - lines..], [last]);
    assert Sum([last]) == last;
    forall k | |sizes| - (lines + 1) <= k < |sizes| ensures sizes[k] > 0 {
      if k < |init| { assert sizes[k] == init[k]; }
    }
    if lines + 1 < limit && lines + 1 < |sizes| {
      assert sizes[|sizes| - (lines + 1) - 1] == init[|init| - lines - 1];
    }
  }

  /** The current line and those after it: walking forward over `sizes`,
      at most `limit` lines and none past an empty entry, counted and
      summed. */
  function CountForward(sizes: seq<nat>, limit: nat): (p: (nat, nat))
    ensures p.0 <= limit && p.0 <= |sizes|
    ensures p.1 == Sum(sizes[..p.0])
    ensures forall k :: 0 <= k < p.0 ==> sizes[k] > 0
    ensures p.0 < limit && p.0 < |sizes| ==> sizes[p.0] == 0
    decreases |sizes|
  {
    if |sizes| == 0 || limit == 0 || sizes[0] == 0 then (0, 0)
    else
      var (lines, bytes) := CountForward(sizes[1..], limit - 1);
      assert sizes[..lines + 1] == [sizes[0]] + sizes[1..][..lines];
      (lines + 1, sizes[0] + bytes)
  }

  /** Where a snippet starts: at the span itself when no lines before are
      asked for, otherwise at the start of the earliest real line among
      the `LINES_BEFORE` kept. Gives the buffer position, the absolute
      offset, the line number and the column. */
  function SnippetStart(l: InputLine, span: Span, before: nat): (p: (nat, nat, nat, nat))
    requires LineInv(l)
    requires l.offset <= span.offset < l.offset + l.size
    ensures p.0 <= l.relOffset + (span.offset - l.offset)
    ensures l.offset - p.1 == l.relOffset - p.0
    ensures before == 0 ==> p == (l.relOffset + (span.offset - l.offset), span.offset, l.lineCount, span.offset - l.offset)
    ensures before > 0 ==>
      && p.3 == 0 && p.1 <= l.offset
      && p.2 <= l.lineCount <= p.2 + LINES_BEFORE
      && l.lineCount - p.2 == (if l.sizes[0] > 0 then 1 else 0)
      && p.1 == l.offset - (if l.sizes[0] > 0 then l.sizes[0] else 0)
  {
    if before == 0 then
      var column := span.offset - l.offset;
      (l.relOffset + column, span.offset, l.lineCount, column)
    else
      var (lines, bytes) := CountBack(l.sizes[..LINES_BEFORE], before);
      LinesBeforeLine(l, before);
      (l.relOffset - bytes, l.offset - bytes, l.lineCount - lines, 0)
  }

  /** Where a snippet ends: after the span when no lines after are asked
      for, otherwise after up to `trailing` real lines from the current
      one. Gives the buffer position and the number of the line after. */
  function SnippetEnd(l: InputLine, start: nat, span: Span, after: nat, trailing: nat): (p: (nat, nat))
    requires LineInv(l)
    ensures after == 0 ==> p == (start + span.len, l.lineCount)
    ensures after > 0 ==> p.0 <= |l.buffer| && l.lineCount <= p.1 <= l.lineCount + trailing
    ensures after > 0 && trailing > 0 ==> p.0 >= l.relOffset + l.size
  {
    if after == 0 then (start + span.len, l.lineCount)
    else
      var (lines, bytes) := CountForward(l.sizes[LINES_BEFORE..], trailing);
      TrailingBytes(l, lines, bytes);
      assert trailing > 0 ==> lines > 0;
      (l.relOffset + bytes, l.lineCount + lines)
  }

  /** `read_span` with the number of lines the trailing extent may take
      from the current line on given as `trailing`. A slice out of the
      buffer's bounds would panic; it is `None`. */
  function ReadSpanWith(l: InputLine, span: Span, before: nat, after: nat, trailing: nat): (r: Option<SpanContents>)
    requires LineInv(l)
    requires l.offset <= span.offset < l.offset + l.size
    ensures r.Some? ==> |r.value.data| == r.value.span.len
    ensures before == 0 && r.Some? ==>
      && r.value.span.offset == span.offset
      && r.value.column == span.offset - l.offset
      && r.value.line == l.lineCount
    ensures before > 0 && r.Some? ==>
      && r.value.column == 0
      && r.value.span.offset <= l.offset
      && r.value.line <= l.lineCount <= r.value.line + LINES_BEFORE
    ensures after == 0 && span.offset + span.len <= l.offset + l.size ==> r.Some?
    ensures after > 0 && trailing > 0 ==> r.Some?
    ensures after == 0 && r.Some? ==> r.value.lineCount == l.lineCount
    ensures after > 0 && r.Some? ==> l.lineCount <= r.value.lineCount <= l.lineCount + trailing
  {
    LineInBuffer(l);
    var (start, offset, line, column) := SnippetStart(l, span, before);
    var (end, count) := SnippetEnd(l, start, span, after, trailing);
    if start <= end <= |l.buffer| then
      Some(SpanContents(l.buffer[start..end], Span(offset, end - start), line, column, count))
    else None
  }

  /** The trailing extent stays in the buffer and, once it takes the
      current line, covers it. */
  lemma TrailingBytes(l: InputLine, lines: nat, bytes: nat)
    requires LineInv(l)
    requires lines <= |l.sizes[LINES_BEFORE..]| && bytes == Sum(l.sizes[LINES_BEFORE..][..lines])
    requires forall k :: 0 <= k < lines ==> l.sizes[LINES_BEFORE..][k] > 0
    ensures l.relOffset + bytes <= |l.buffer|
    ensures lines > 0 ==> bytes >= l.size
  {
    var tail := l.sizes[LINES_BEFORE..];
    assert l.sizes == l.sizes[..LINES_BEFORE] + tail;
    SumAppend(l.sizes[..LINES_BEFORE], tail);
    SumPrefix(tail, lines);
    if lines > 0 {
      assert tail[..lines] == [l.size] + tail[1..lines];
    }
  }

  /** `InputLine::read_span` as written: the trailing extent takes
      `before + 1` lines (src/input.rs:160). */
  function ReadSpan(l: InputLine, span: Span, before: nat, after: nat): (r: Option<SpanContents>)
    requires LineInv(l)
    requires l.offset <= span.offset < l.offset + l.size
    ensures after > 0 ==> r.Some?
    ensures after > 0 ==> r.value.lineCount <= l.lineCount + before + 1
  {
    ReadSpanWith(l, span, before, after, before + 1)
  }

  /** `read_span` with the trailing extent taking `after + 1` lines: the
      current line and `after` more, as the parameter's name says. */
  function ReadSpanIntended(l: InputLine, span: Span, before: nat, after: nat): (r: Option<SpanContents>)
    requires LineInv(l)
    requires l.offset <= span.offset < l.offset + l.size
    ensures after > 0 ==> r.Some?
    ensures after > 0 ==> r.value.lineCount <= l.lineCount + after + 1
  {
    ReadSpanWith(l, span, before, after, after + 1)
  }

  /** The snippet is the stream's bytes over the span it reports. */
  lemma SnippetFromStream(data: seq<Byte>, l: InputLine, span: Span, before: nat, after: nat, trailing: nat)
    requires LineInv(l) && LineStream(data, l)
    requires l.offset <= span.offset < l.offset + l.size
    ensures var r := ReadSpanWith(l, span, before, after, trailing);
      r.Some? ==>
        && r.value.span.offset + r.value.span.len <= |data|
        && r.value.data == data[r.value.span.offset..r.value.span.offset + r.value.span.len]
  {
    var r := ReadSpanWith(l, span, before, after, trailing);
    if r.Some? {
      var (start, offset, line, column) := SnippetStart(l, span, before);
      var (end, count) := SnippetEnd(l, start, span, after, trailing);
      var d := l.offset - l.relOffset;
      assert offset == d + start;
      assert r.value.data == l.buffer[start..end];
      WindowSlice(data, d, l.buffer, start, end);
    }
  }

  /** A slice of a window onto the stream is the matching slice of the
      stream. */
  lemma WindowSlice(data: seq<Byte>, d: nat, window: seq<Byte>, a: nat, b: nat)
    requires d + |window| <= |data| && data[d..d + |window|] == window
    requires a <= b <= |window|
    ensures window[a..b] == data[d + a..d + b]
  {
    assert forall k :: a <= k < b ==> window[k] == data[d + k];
  }

  /** The snippet covers the span whenever it starts at the span or takes
      lines after it. */
  lemma SnippetCoversSpan(l: InputLine, span: Span, before: nat, after: nat)
    requires LineInv(l)
    requires l.offset <= span.offset && span.offset + span.len <= l.offset + l.size && span.len > 0
    requires before == 0 || after > 0
    ensures var r := ReadSpan(l, span, before, after);
      && r.Some?
      && r.value.span.offset <= span.offset
      && span.offset + span.len <= r.value.span.offset + r.value.span.len
  {
    var (start, offset, line, column) := SnippetStart(l, span, before);
    var (end, count) := SnippetEnd(l, start, span, after, before + 1);
  }

  /** The two agree whenever no line after the span is asked for, since
      the trailing count is then unused, and whenever as many lines are
      asked for after the span as before it: they can differ only when
      `after > 0` and `before != after`. */
  lemma ContextAgrees(l: InputLine, span: Span, before: nat, after: nat)
    requires LineInv(l)
    requires l.offset <= span.offset < l.offset + l.size
    requires after == 0 || before == after
    ensures ReadSpan(l, span, before, after) == ReadSpanIntended(l, span, before, after)
  {
  }

  /** The first call of `next_line` pads one empty line before the first
      line of the stream and hands that line out as line 0 at offset 0;
      an empty stream has none. */
  lemma FirstLine(data: seq<Byte>)
    ensures var (next, line) := NextLine(NewReader(data));
      && (line.Some? <==> |data| > 0)
      && (line.Some? ==>
            && line.value.lineCount == 0 && line.value.offset == 0 && line.value.relOffset == 0
            && line.value.sizes[0] == 0 && |line.value.sizes| <= WINDOW)
  {
    NewReaderInv(data);
    var r := NewReader(data);
    var q := Start(r);
    assert Advance(r) == q;
    assert |data| > 0 ==> |q.sizes| > LINES_BEFORE by {
      if |data| > 0 {
        var (line, after) := ReadUntil(data);
        assert |q.buffer| > 0 by {
          FirstReadNonEmpty(r);
        }
      }
    }
  }

  lemma FirstReadNonEmpty(r: Reader)
    requires Inv(r) && |r.sizes| == 0 && |r.rest| > 0
    ensures |Start(r).buffer| > 0 && |Start(r).sizes| > LINES_BEFORE
  {
    var q := Start(r);
    assert Sum(q.sizes) == |q.buffer|;
  }

  // ---------------------------------------------------------------------
  // The trailing extent

  /** The bytes "b\nc\nd\ne\n": the window when the line "c\n" of the
      stream "a\nb\nc\nd\ne\n" is current. */
  const SAMPLE_WINDOW: seq<Byte> := [98, 10, 99, 10, 100, 10, 101, 10]

  /** That line: line 2, at offset 4, two bytes into the window. */
  function SampleLine(): (l: InputLine)
    ensures LineInv(l)
  {
    var l := InputLine(SAMPLE_WINDOW, [2, 2, 2, 2], 2, 4, 2, 2);
    assert l.sizes[..LINES_BEFORE] == [2];
    assert Sum([2]) == 2;
    assert Sum([2, 2, 2, 2]) == 8;
    l
  }

  /** With lines after asked for, the trailing extent takes `trailing`
      lines from the current one, or all the window holds if fewer: every
      kept line is a real one, so nothing stops it earlier. */
  lemma TrailingLines(l: InputLine, span: Span, before: nat, after: nat, trailing: nat)
    requires LineInv(l)
    requires l.offset <= span.offset < l.offset + l.size
    requires after > 0 && trailing > 0
    ensures var avail := |l.sizes| - LINES_BEFORE;
      ReadSpanWith(l, span, before, after, trailing).value.lineCount ==
        l.lineCount + (if trailing < avail then trailing else avail)
  {
  }

  /** As written, asking for one line before and three after the span at
      offset 4 stops after "d\n": the trailing extent takes `before + 1`
      = 2 lines. */
  lemma TrailingExtentAsWritten()
    ensures ReadSpan(SampleLine(), Span(4, 1), 1, 3) ==
      Some(SpanContents(SAMPLE_WINDOW[..6], Span(2, 6), 1, 0, 4))
  {
    var l := SampleLine();
    assert l.sizes[LINES_BEFORE..] == [2, 2, 2];
    assert CountForward([2, 2, 2], 2) == (2, 4) by {
      assert [2, 2, 2][1..] == [2, 2];
      assert [2, 2][1..] == [2];
    }
    assert CountBack([2], 1) == (1, 2) by {
      assert [2][..0] == [];
    }
    assert l.sizes[..LINES_BEFORE] == [2];
    assert SnippetStart(l, Span(4, 1), 1) == (0, 2, 1, 0);
    assert SnippetEnd(l, 0, Span(4, 1), 3, 2) == (6, 4);
    assert SAMPLE_WINDOW[0..6] == SAMPLE_WINDOW[..6];
  }

  /** Taking `after + 1` lines reaches "e\n", the last line the window
      holds. */
  lemma TrailingExtentIntended()
    ensures ReadSpanIntended(SampleLine(), Span(4, 1), 1, 3) ==
      Some(SpanContents(SAMPLE_WINDOW, Span(2, 8), 1, 0, 5))
  {
    var l := SampleLine();
    assert l.sizes[LINES_BEFORE..] == [2, 2, 2];
    assert CountForward([2, 2, 2], 4) == (3, 6) by {
      assert [2, 2, 2][1..] == [2, 2];
      assert [2, 2][1..] == [2];
      assert [2][1..] == [];
    }
    assert CountBack([2], 1) == (1, 2) by {
      assert [2][..0] == [];
    }
    assert l.sizes[..LINES_BEFORE] == [2];
    assert SnippetStart(l, Span(4, 1), 1) == (0, 2, 1, 0);
    assert SnippetEnd(l, 0, Span(4, 1), 3, 4) == (8, 5);
    assert SAMPLE_WINDOW[0..8] == SAMPLE_WINDOW;
  }

  /** As written, how far the snippet reaches after the current line
      depends on the number of lines asked for before it. */
  lemma AsWrittenTakesLinesBefore(l: InputLine, span: Span, before: nat, after: nat)
    requires LineInv(l)
    requires l.offset <= span.offset < l.offset + l.size
    requires after > 0
    ensures var avail := |l.sizes| - LINES_BEFORE;
      ReadSpan(l, span, before, after).value.lineCount ==
        l.lineCount + (if before + 1 < avail then before + 1 else avail)
  {
    TrailingLines(l, span, before, after, before + 1);
  }

  /** Corrected, the snippet ends `after` lines past the current one, or at
      the last line the window holds. */
  lemma IntendedTakesLinesAfter(l: InputLine, span: Span, before: nat, after: nat)
    requires LineInv(l)
    requires l.offset <= span.offset < l.offset + l.size
    requires after > 0
    ensures var avail := |l.sizes| - LINES_BEFORE;
      ReadSpanIntended(l, span, before, after).value.lineCount ==
        l.lineCount + (if after + 1 < avail then after + 1 else avail)
  {
    TrailingLines(l, span, before, after, after + 1);
  }
}

=== FILE: numerals.dfy ===
/** Unsigned integer text as the Rust standard library reads and writes it:
    `u32::from_str_radix`, `usize::from_str`, and the `{}`, `{:x}` and `{:X}`
    formats. */
module Numerals {
  import opened Results

  const U32_MAX: nat := 0xFFFF_FFFF
  /** `usize::MAX` on the 64-bit targets the tool is built for. */
  const USIZE_MAX: nat := 0xFFFF_FFFF_FFFF_FFFF

  /** `char::to_digit(radix)`: ASCII digits, then letters of either case. */
  function DigitValue(c: char, radix: nat): (d: Option<nat>)
    requires 2 <= radix <= 36
    ensures d.Some? ==> d.value < radix
    ensures d.Some? ==> ('0' <= c <= '9' || 'a' <= c <= 'z' || 'A' <= c <= 'Z')
  {
    var v :=
      if '0' <= c <= '9' then c as int - '0' as int
      else if 'a' <= c <= 'z' then c as int - 'a' as int + 10
      else if 'A' <= c <= 'Z' then c as int - 'A' as int + 10
      else 36;
    if v < radix then Some(v) else None
  }

  predicate AllDigits(s: string, radix: nat)
    requires 2 <= radix <= 36
  {
    forall i :: 0 <= i < |s| ==> DigitValue(s[i], radix).Some?
  }

  /** The number a string of digits denotes, most significant digit first. */
  function Value(s: string, radix: nat): nat
    requires 2 <= radix <= 36
    requires AllDigits(s, radix)
  {
    if |s| == 0 then 0
    else Value(s[..|s| - 1], radix) * radix + DigitValue(s[|s| - 1], radix).value
  }

  /** `from_str_radix` of an unsigned integer type whose largest value is
      `max`: one optional leading `+`, then at least one digit; a `-` is an
      invalid digit, and a value above `max` overflows. Every failure is
      `None`, since each caller maps all of them to one error. */
  function ParseUnsigned(s: string, radix: nat, max: nat): (r: Option<nat>)
    requires 2 <= radix <= 36
    ensures |s| == 0 ==> r == None
    ensures r.Some? ==> r.value <= max
    ensures |s| > 0 ==>
      var digits := if s[0] == '+' then s[1..] else s;
      && (r.Some? <==> |digits| > 0 && AllDigits(digits, radix) && Value(digits, radix) <= max)
      && (r.Some? ==> r.value == Value(digits, radix))
  {
    if |s| == 0 then None
    else
      var digits := if s[0] == '+' then s[1..] else s;
      if |digits| == 0 || !AllDigits(digits, radix) then None
      else if Value(digits, radix) > max then None
      else Some(Value(digits, radix))
  }

  /** `u32::from_str_radix(s, 16)`. */
  function ParseHexU32(s: string): (r: Option<nat>)
    ensures r.Some? ==> r.value <= U32_MAX
  {
    ParseUnsigned(s, 16, U32_MAX)
  }

  /** `usize::from_str(s)`. */
  function ParseDecimalUsize(s: string): (r: Option<nat>)
    ensures r.Some? ==> r.value <= USIZE_MAX
  {
    ParseUnsigned(s, 10, USIZE_MAX)
  }

  function DigitChar(d: nat, upper: bool): (c: char)
    requires d < 16
    ensures forall radix :: 2 <= radix <= 36 && d < radix ==> DigitValue(c, radix) == Some(d)
  {
    if d < 10 then ('0' as int + d) as char
    else if upper then ('A' as int + d - 10) as char
    else ('a' as int + d - 10) as char
  }

  /** The shortest digit string of `n` (no leading zeros; `0` is "0"). */
  function Digits(n: nat, radix: nat, upper: bool): (s: string)
    requires 2 <= radix <= 16
    ensures |s| > 0
    decreases n
  {
    DivModBounds(n, radix);
    var last := DigitChar(n % radix, upper);
    if n < radix then [last] else Digits(n / radix, radix, upper) + [last]
  }

  /** The digits a formatter writes denote the number formatted. */
  lemma {:induction false} DigitsValue(n: nat, radix: nat, upper: bool)
    requires 2 <= radix <= 16
    ensures AllDigits(Digits(n, radix, upper), radix)
    ensures Value(Digits(n, radix, upper), radix) == n
    decreases n
  {
    DivModBounds(n, radix);
    var q, d := n / radix, n % radix;
    var last := DigitChar(d, upper);
    var init := if n < radix then [] else Digits(q, radix, upper);
    if n >= radix {
      DigitsValue(q, radix, upper);
    }
    assert Digits(n, radix, upper) == init + [last];
    AppendDigit(init, last, radix);
    ValueStep(Value(init, radix), n, radix, Value(init + [last], radix), d);
  }

  lemma ValueStep(q: nat, n: nat, radix: nat, v: nat, d: nat)
    requires 2 <= radix
    requires q == n / radix && d == n % radix
    requires v == q * radix + d
    ensures v == n
  {
  }

  /** Appending one digit multiplies the value by the radix and adds it. */
  lemma AppendDigit(init: string, last: char, radix: nat)
    requires 2 <= radix <= 36
    requires AllDigits(init, radix)
    requires DigitValue(last, radix).Some?
    ensures AllDigits(init + [last], radix)
    ensures Value(init + [last], radix) == Value(init, radix) * radix + DigitValue(last, radix).value
  {
    var s := init + [last];
    assert s[..|s| - 1] == init;
    forall i | 0 <= i < |s| ensures DigitValue(s[i], radix).Some? {
      if i < |init| { assert s[i] == init[i]; }
    }
  }

  lemma DivModBounds(n: nat, radix: nat)
    requires 2 <= radix
    ensures 0 <= n % radix < radix
    ensures n < radix ==> n / radix == 0
    ensures n >= radix ==> 0 < n / radix < n
  {
  }

  /** Letters of the formatter's case only: no upper-case letter in
      lower-case output, and no lower-case letter in upper-case output. */
  predicate InCase(c: char, upper: bool) {
    if upper then !('a' <= c <= 'z') else !('A' <= c <= 'Z')
  }

  lemma {:induction false} DigitsCase(n: nat, radix: nat, upper: bool)
    requires 2 <= radix <= 16
    ensures forall i :: 0 <= i < |Digits(n, radix, upper)| ==> InCase(Digits(n, radix, upper)[i], upper)
    decreases n
  {
    DivModBounds(n, radix);
    var s := Digits(n, radix, upper);
    var last := DigitChar(n % radix, upper);
    if n >= radix {
      var init := Digits(n / radix, radix, upper);
      DigitsCase(n / radix, radix, upper);
      assert s == init + [last];
      forall i | 0 <= i < |s| ensures InCase(s[i], upper) {
        if i < |init| { assert s[i] == init[i]; }
      }
    }
  }

  /** `format!("{}", n)`: a non-empty string of decimal digits denoting `n`. */
  function Decimal(n: nat): (s: string)
    ensures |s| > 0 && AllDigits(s, 10) && Value(s, 10) == n
  {
    DigitsValue(n, 10, false);
    Digits(n, 10, false)
  }

  /** `format!("{:x}", n)`: hexadecimal digits denoting `n`, letters in lower
      case. */
  function LowerHex(n: nat): (s: string)
    ensures |s| > 0 && AllDigits(s, 16) && Value(s, 16) == n
    ensures forall i :: 0 <= i < |s| ==> InCase(s[i], false)
  {
    DigitsValue(n, 16, false);
    DigitsCase(n, 16, false);
    Digits(n, 16, false)
  }

  /** `format!("{:X}", n)`: hexadecimal digits denoting `n`, letters in upper
      case. */
  function UpperHex(n: nat): (s: string)
    ensures |s| > 0 && AllDigits(s, 16) && Value(s, 16) == n
    ensures forall i :: 0 <= i < |s| ==> InCase(s[i], true)
  {
    DigitsValue(n, 16, true);
    DigitsCase(n, 16, true);
    Digits(n, 16, true)
  }

  /** Reading back what the formatter wrote gives the number, whenever it
      fits the target type. */
  lemma ParseDigits(n: nat, radix: nat, upper: bool, max: nat)
    requires 2 <= radix <= 16
    requires n <= max
    ensures ParseUnsigned(Digits(n, radix, upper), radix, max) == Some(n)
  {
    var s := Digits(n, radix, upper);
    DigitsValue(n, radix, upper);
    assert DigitValue(s[0], radix).Some?;
  }

  lemma DecimalRoundTrip(n: nat)
    requires n <= USIZE_MAX
    ensures ParseDecimalUsize(Decimal(n)) == Some(n)
  {
    ParseDigits(n, 10, false, USIZE_MAX);
  }

  lemma LowerHexRoundTrip(n: nat)
    requires n <= U32_MAX
    ensures ParseHexU32(LowerHex(n)) == Some(n)
  {
    ParseDigits(n, 16, false, U32_MAX);
  }

  lemma UpperHexRoundTrip(n: nat)
    requires n <= U32_MAX
    ensures ParseHexU32(UpperHex(n)) == Some(n)
  {
    ParseDigits(n, 16, true, U32_MAX);
  }

  /** Every character a formatter writes is an ASCII letter or digit, and a
      decimal string starts with an ASCII digit. */
  lemma DigitsAreAlphanumeric(n: nat, radix: nat, upper: bool)
    requires 2 <= radix <= 16
    ensures forall i :: 0 <= i < |Digits(n, radix, upper)| ==>
      var c := Digits(n, radix, upper)[i];
      '0' <= c <= '9' || 'a' <= c <= 'z' || 'A' <= c <= 'Z'
    ensures radix == 10 ==> '0' <= Digits(n, radix, upper)[0] <= '9'
  {
    var s := Digits(n, radix, upper);
    DigitsValue(n, radix, upper);
    forall i | 0 <= i < |s|
      ensures '0' <= s[i] <= '9' || 'a' <= s[i] <= 'z' || 'A' <= s[i] <= 'Z'
    {
      assert DigitValue(s[i], radix).Some?;
    }
    assert DigitValue(s[0], radix).Some?;
  }
}

=== FILE: parser.dfy ===
/** Reading a cheat sheet (src/parser.rs): either a JSON icon cache or the
    HTML of the official cheat-sheet page. JSON and HTML syntax are outside
    the model: the JSON reader is a function from the text to its map
    entries, and the HTML reader a function from the text to the raw
    fields of each child of the `glyphCheatSheet` element. */
module CheatSheet {
  import opened Results
  import opened Numerals
  import opened Text
  import opened Icons

  /** The text found under one cheat-sheet node: its `class-name`,
      `codepoint` and `corner-text` children, when present. */
  datatype RawEntry = RawEntry(name: Option<string>, codepoint: Option<string>, corner: Option<string>)

  /** How `parse` can fail. The JSON reader's own syntax errors are
      `Syntax`; errors of the cache visitor are carried as they are. */
  datatype SheetError = Syntax | Json(cause: DeError) | InvalidCheatSheet

  const NAME_PREFIX: string := "nf-"

  /** The icon name a `class-name` text stands for: trimmed, and without
      one leading `nf-`. */
  function IconName(text: string): (r: string)
    ensures NAME_PREFIX <= Trim(text) ==> Trim(text) == NAME_PREFIX + r
    ensures !(NAME_PREFIX <= Trim(text)) ==> r == Trim(text)
  {
    var t := Trim(text);
    match StripPrefix(t, NAME_PREFIX)
    case Some(rest) => rest
    case None => t
  }

  predicate IsObsoleteMark(corner: Option<string>) {
    corner == Some("obsolete") || corner == Some("removed")
  }

  /** One node of the loop in `Parser::parse`: `None` when a field is
      missing or the codepoint is not a scalar value in hexadecimal, which
      skips the node silently. The codepoint text is not trimmed. */
  function Normalise(e: RawEntry): (r: Option<Icon>)
    ensures r.Some? <==>
      e.name.Some? && e.codepoint.Some? && ParseCodepoint(e.codepoint.value).Ok?
    ensures r.Some? ==>
      && r.value.name == IconName(e.name.value)
      && Ok(r.value.codepoint) == ParseCodepoint(e.codepoint.value)
      && (r.value.obsolete <==> IsObsoleteMark(e.corner))
  {
    match (e.name, e.codepoint)
    case (Some(name), Some(text)) =>
      (match ParseHexU32(text)
       case None => None
       case Some(v) =>
         match CharFromU32(v)
         case None => None
         case Some(c) => Some(Icon(IconName(name), c, IsObsoleteMark(e.corner))))
    case _ => None
  }

  /** The values `f` gives, in order, skipping the elements it maps to
      `None`. */
  function FilterMap<A, B>(f: A -> Option<B>, xs: seq<A>): (r: seq<B>)
    ensures |r| <= |xs|
    decreases |xs|
  {
    if |xs| == 0 then []
    else
      var tail := FilterMap(f, xs[1..]);
      match f(xs[0])
      case Some(y) => [y] + tail
      case None => tail
  }

  lemma {:induction false} FilterMapAppend<A, B>(f: A -> Option<B>, a: seq<A>, b: seq<A>)
    ensures FilterMap(f, a + b) == FilterMap(f, a) + FilterMap(f, b)
    decreases |a|
  {
    if |a| == 0 {
      assert a + b == b;
    } else {
      assert (a + b)[1..] == a[1..] + b;
      FilterMapAppend(f, a[1..], b);
    }
  }

  lemma {:induction false} FilterMapKeeps<A, B>(f: A -> Option<B>, xs: seq<A>)
    ensures |FilterMap(f, xs)| == |xs| <==> forall k :: 0 <= k < |xs| ==> f(xs[k]).Some?
    decreases |xs|
  {
    if |xs| > 0 {
      FilterMapKeeps(f, xs[1..]);
      assert forall k :: 1 <= k < |xs| ==> xs[k] == xs[1..][k - 1];
    }
  }

  lemma {:induction false} FilterMapAll<A, B>(f: A -> Option<B>, xs: seq<A>, ys: seq<B>)
    requires |xs| == |ys| && forall k :: 0 <= k < |xs| ==> f(xs[k]) == Some(ys[k])
    ensures FilterMap(f, xs) == ys
    decreases |xs|
  {
    if |xs| > 0 {
      assert forall k :: 0 <= k < |xs[1..]| ==> xs[1..][k] == xs[k + 1];
      FilterMapAll(f, xs[1..], ys[1..]);
      assert [ys[0]] + ys[1..] == ys;
    }
  }

  /** `Parser::parse`: the icons of the nodes that normalise, in document
      order. */
  function NormaliseAll(entries: seq<RawEntry>): (r: seq<Icon>)
    ensures |r| <= |entries|
  {
    FilterMap(Normalise, entries)
  }

  /** Document order is kept: the icons of two runs of nodes are the icons of
      the first run followed by those of the second. */
  lemma NormaliseAllAppend(a: seq<RawEntry>, b: seq<RawEntry>)
    ensures NormaliseAll(a + b) == NormaliseAll(a) + NormaliseAll(b)
  {
    FilterMapAppend(Normalise, a, b);
  }

  /** Each node contributes its icon, or nothing when it is skipped. */
  lemma NormaliseOne(e: RawEntry)
    ensures NormaliseAll([e]) == match Normalise(e) case Some(i) => [i] case None => []
  {
    assert [e][1..] == [];
  }

  /** No node can make the whole parse fail: a node is skipped exactly when
      it would not normalise, so every node that normalises is kept. */
  lemma NormaliseAllKeeps(entries: seq<RawEntry>)
    ensures |NormaliseAll(entries)| == |entries| <==>
      forall k :: 0 <= k < |entries| ==> Normalise(entries[k]).Some?
  {
    FilterMapKeeps(Normalise, entries);
  }

  /** `parser::parse`: text whose first non-blank character is `{` is a JSON
      cache; otherwise the HTML from the first `<` on is read, and text
      without `<` is not a cheat sheet. */
  function Parse(s: string, json: string -> Option<seq<Entry>>, html: string -> seq<RawEntry>): (r: Result<seq<Icon>, SheetError>)
    ensures var t := TrimStart(s);
      |t| > 0 && t[0] == '{' ==>
        && (r.Ok? <==> json(s).Some? && Deserialize(json(s).value).Ok?)
        && (r.Ok? ==> r.value == Deserialize(json(s).value).value.icons)
        && (json(s).None? ==> r == Err(Syntax))
    ensures var t := TrimStart(s);
      !(|t| > 0 && t[0] == '{') ==>
        match Find(s, '<')
        case Some(start) => r == Ok(NormaliseAll(html(s[start..])))
        case None => r == Err(SheetError.InvalidCheatSheet)
  {
    var t := TrimStart(s);
    if |t| > 0 && t[0] == '{' then
      match json(s)
      case None => Err(Syntax)
      case Some(entries) =>
        (match Deserialize(entries)
         case Ok(cache) => Ok(cache.icons)
         case Err(e) => Err(Json(e)))
    else
      match Find(s, '<')
      case Some(start) => Ok(NormaliseAll(html(s[start..])))
      case None => Err(SheetError.InvalidCheatSheet)
  }

  /** A cache written by the tool and read back as a cheat sheet gives its
      icons, whatever blank space precedes the JSON text. */
  lemma ParseCachedSheet(s: string, json: string -> Option<seq<Entry>>, html: string -> seq<RawEntry>, c: Cache)
    requires |TrimStart(s)| > 0 && TrimStart(s)[0] == '{'
    requires json(s) == Some(Serialize(c))
    requires forall k :: 0 <= k < |c.icons| ==> c.icons[k].name != METADATA
    ensures Parse(s, json, html) == Ok(c.icons)
  {
    CacheRoundTrip(c);
  }

  /** Every node normalises, to the matching icon. */
  predicate NormalisesTo(entries: seq<RawEntry>, icons: seq<Icon>) {
    && |entries| == |icons|
    && forall k :: 0 <= k < |entries| ==> Normalise(entries[k]) == Some(icons[k])
  }

  /** When no node is skipped, the icons are exactly the nodes' icons. */
  lemma NormaliseAllDecoded(entries: seq<RawEntry>, icons: seq<Icon>)
    requires NormalisesTo(entries, icons)
    ensures NormaliseAll(entries) == icons
  {
    FilterMapAll(Normalise, entries, icons);
  }

  /** A cheat-sheet node as the official page writes it: the name with
      its `nf-` prefix, the codepoint in lower-case hexadecimal, and the
      corner text. */
  function SheetNode(name: string, c: char, corner: Option<string>): RawEntry {
    RawEntry(Some(NAME_PREFIX + name), Some(DisplayCodepoint(c)), corner)
  }

  /** A name that no trimming shortens, once it carries the prefix. */
  predicate EndsUnblank(name: string) {
    |name| > 0 && !IsWhitespace(name[|name| - 1])
  }

  /** Such a node gives back the name without its prefix and the same
      codepoint, whenever the name has no blanks at its end. */
  lemma SheetNodeNormalises(name: string, c: char, corner: Option<string>)
    requires EndsUnblank(name)
    ensures Normalise(SheetNode(name, c, corner)) == Some(Icon(name, c, IsObsoleteMark(corner)))
  {
    CodepointRoundTrip(c);
    TrimmedUnchanged(NAME_PREFIX + name);
    assert (NAME_PREFIX + name)[|NAME_PREFIX|..] == name;
  }
}

=== FILE: parser_sample.dfy ===
/** The cheat-sheet page used by the parser's own test, reduced to the
    fields of its four nodes (src/parser.rs). */
module CheatSheetSample {
  import opened Results
  import opened Numerals
  import opened Text
  import opened Icons
  import opened CheatSheet

  /** The shape of the sample sheet in the module's test: two current icons,
      one marked `obsolete`, one marked `removed`, all named with the `nf-`
      prefix. Whatever the names and codepoints, the icons come back in
      order, without the prefix, and the last two obsolete. */
  lemma SampleSheetShape(a: string, b: string, c: string, d: string, ca: char, cb: char, cc: char, cd: char)
    requires EndsUnblank(a) && EndsUnblank(b) && EndsUnblank(c) && EndsUnblank(d)
    ensures NormaliseAll([
        SheetNode(a, ca, None), SheetNode(b, cb, None),
        SheetNode(c, cc, Some("obsolete")), SheetNode(d, cd, Some("removed"))]) ==
      [Icon(a, ca, false), Icon(b, cb, false), Icon(c, cc, true), Icon(d, cd, true)]
  {
    var nodes := [
        SheetNode(a, ca, None), SheetNode(b, cb, None),
        SheetNode(c, cc, Some("obsolete")), SheetNode(d, cd, Some("removed"))];
    var icons := [Icon(a, ca, false), Icon(b, cb, false), Icon(c, cc, true), Icon(d, cd, true)];
    forall k | 0 <= k < 4
      ensures Normalise(nodes[k]) == Some(icons[k])
    {
      if k == 0 {
        SheetNodeNormalises(a, ca, None);
      } else if k == 1 {
        SheetNodeNormalises(b, cb, None);
      } else if k == 2 {
        SheetNodeNormalises(c, cc, Some("obsolete"));
      } else {
        SheetNodeNormalises(d, cd, Some("removed"));
      }
    }
    NormaliseAllDecoded(nodes, icons);
  }

  /** A node the page writes with the given hexadecimal text. */
  lemma SheetNodeText(name: string, c: char, corner: Option<string>, hex: string)
    requires LowerHex(c as int) == hex
    ensures SheetNode(name, c, corner) == RawEntry(Some("nf-" + name), Some(hex), corner)
  {
  }

  /** The first node of the test, as the page writes it. */
  lemma SampleNodeText()
    ensures SheetNode("cod-account", '\U{EB99}', None) ==
      RawEntry(Some("nf-cod-account"), Some("eb99"), None)
  {
    assert LowerHex(0xEB99) == "eb99";
    SheetNodeText("cod-account", '\U{EB99}', None, "eb99");
    assert "nf-" + "cod-account" == "nf-cod-account";
  }

  /** The sample sheet of the test gives exactly the four icons the test
      expects. */
  lemma SampleSheetTest()
    ensures NormaliseAll([
        SheetNode("cod-account", '\U{EB99}', None),
        SheetNode("cod-activate_breakpoints", '\U{EA97}', None),
        SheetNode("mdi-access_point", '\U{F501}', Some("obsolete")),
        SheetNode("mdi-access_point_network", '\U{F502}', Some("removed"))]) ==
      [ Icon("cod-account", '\U{EB99}', false),
        Icon("cod-activate_breakpoints", '\U{EA97}', false),
        Icon("mdi-access_point", '\U{F501}', true),
        Icon("mdi-access_point_network", '\U{F502}', true) ]
  {
    SampleSheetShape("cod-account", "cod-activate_breakpoints", "mdi-access_point", "mdi-access_point_network",
      '\U{EB99}', '\U{EA97}', '\U{F501}', '\U{F502}');
  }
}

=== FILE: prompt.dfy ===
/** The yes/no/all-yes confirmation answer (src/prompt.rs). */
module Prompt {
  import opened Results
  import opened Text

  datatype YesOrNo = Yes | No | AllYes

  const INVALID_ANSWER: string := "invalid input"

  /** `YesOrNo::from_str`: the lower-cased answer, in full or by its first
      letter. */
  function ParseYesOrNo(s: string): (r: Result<YesOrNo, string>)
    ensures r == Ok(Yes) <==> AsciiLower(s) == "y" || AsciiLower(s) == "yes"
    ensures r == Ok(No) <==> AsciiLower(s) == "n" || AsciiLower(s) == "no"
    ensures r == Ok(AllYes) <==> AsciiLower(s) == "a" || AsciiLower(s) == "all"
    ensures r.Err? ==> r.error == INVALID_ANSWER
  {
    var l := AsciiLower(s);
    if l == "y" || l == "yes" then Ok(Yes)
    else if l == "n" || l == "no" then Ok(No)
    else if l == "a" || l == "all" then Ok(AllYes)
    else Err(INVALID_ANSWER)
  }

  /** `Display for YesOrNo`: "yes" and "no" read back as themselves;
      "all yes" is not an accepted answer. */
  function DisplayYesOrNo(a: YesOrNo): (s: string)
    ensures ParseYesOrNo(s) == if a == AllYes then Err(INVALID_ANSWER) else Ok(a)
  {
    LowerCaseWords();
    assert |AsciiLower("all yes")| == 7;
    match a
    case Yes => "yes"
    case No => "no"
    case AllYes => "all yes"
  }

  lemma LowerCaseWords()
    ensures AsciiLower("yes") == "yes" && AsciiLower("no") == "no"
  {
    var yes, no := AsciiLower("yes"), AsciiLower("no");
    assert yes[0] == 'y' && yes[1] == 'e' && yes[2] == 's';
    assert no[0] == 'n' && no[1] == 'o';
  }

  /** Case does not matter. */
  lemma CaseInsensitive(s: string)
    ensures ParseYesOrNo(AsciiLower(s)) == ParseYesOrNo(s)
  {
    AsciiLowerIdempotent(s);
  }

  /** Upper-case answers are accepted. */
  lemma UpperCaseAnswers()
    ensures ParseYesOrNo("Y") == Ok(Yes)
    ensures ParseYesOrNo("NO") == Ok(No)
    ensures ParseYesOrNo("All") == Ok(AllYes)
  {
    assert AsciiLower("Y") == "y";
    assert AsciiLower("NO") == "no";
    assert AsciiLower("All") == "all";
  }
}

=== FILE: results.dfy ===
/** The two wrapper types the Rust code uses everywhere: `Option<T>` and
    `Result<T, E>`. */
module Results {

  datatype Option<+T> = None | Some(value: T)

  datatype Result<+T, +E> = Ok(value: T) | Err(error: E)
}

=== FILE: runtime.dfy ===
/** The icon tables of a run and the interactive choice of a replacement
    icon (src/runtime.rs). Icons are a plain list; the lazily built indexes
    are functions of it. The fuzzy corpus is outside the model: its search
    results for an icon name are given. The prompt widget is a script of
    answers. */
module Runtime {
  import opened Results
  import opened Numerals
  import opened Text
  import opened Errors
  import opened Icons
  import opened Cli
  import opened Autocomplete

  /** At most this many candidates are offered for an obsolete icon. */
  const MAX_CHOICES: nat := 7

  // ---------------------------------------------------------------------
  // Indexes

  /** `Runtime::index`: each codepoint to the position of the last icon
      that has it (collecting into a map keeps the last write). */
  function Index(icons: seq<Icon>): (m: map<char, nat>)
    ensures forall c :: c in m ==> m[c] < |icons| && icons[m[c]].codepoint == c
    ensures forall i :: 0 <= i < |icons| ==> icons[i].codepoint in m && i <= m[icons[i].codepoint]
    decreases |icons|
  {
    if |icons| == 0 then map[]
    else
      var n := |icons| - 1;
      var prefix := icons[..n];
      assert forall i :: 0 <= i < n ==> prefix[i] == icons[i];
      Index(prefix)[icons[n].codepoint := n]
  }

  /** The icon a codepoint resolves to is the last one with that codepoint. */
  lemma IndexIsLast(icons: seq<Icon>, c: char, j: nat)
    requires c in Index(icons)
    requires Index(icons)[c] < j < |icons|
    ensures icons[j].codepoint != c
  {
  }

  /** Appending an icon points its codepoint at it and leaves every other
      codepoint alone. */
  lemma IndexAppend(icons: seq<Icon>, i: Icon)
    ensures Index(icons + [i]) == Index(icons)[i.codepoint := |icons|]
  {
    assert (icons + [i])[..|icons|] == icons;
  }

  /** `r` lists, in increasing order, exactly the positions of the icons
      that are not obsolete. */
  predicate GoodPositions(icons: seq<Icon>, r: seq<nat>) {
    && (forall k :: 0 <= k < |r| ==> r[k] < |icons| && !icons[r[k]].obsolete)
    && (forall i :: 0 <= i < |icons| && !icons[i].obsolete ==> i in r)
    && (forall k, l :: 0 <= k < l < |r| ==> r[k] < r[l])
  }

  /** `Runtime::good_icons`: the positions of the icons that are not
      obsolete, in order. */
  function GoodIcons(icons: seq<Icon>): (r: seq<nat>)
    ensures GoodPositions(icons, r)
    decreases |icons|
  {
    if |icons| == 0 then []
    else
      var n := |icons| - 1;
      var r := GoodIcons(icons[..n]);
      GoodPositionsSnoc(icons, r);
      if icons[n].obsolete then r else r + [n]
  }

  /** The positions for all but the last icon extend to all icons by the
      last position, when that icon is not obsolete. */
  lemma GoodPositionsSnoc(icons: seq<Icon>, r: seq<nat>)
    requires |icons| > 0 && GoodPositions(icons[..|icons| - 1], r)
    ensures var n := |icons| - 1;
      GoodPositions(icons, if icons[n].obsolete then r else r + [n])
  {
    var n := |icons| - 1;
    var p := icons[..n];
    var s := if icons[n].obsolete then r else r + [n];
    forall k | 0 <= k < |s|
      ensures s[k] < |icons| && !icons[s[k]].obsolete
    {
      if k < |r| {
        assert s[k] == r[k] && p[r[k]] == icons[r[k]];
      }
    }
    forall i | 0 <= i < |icons| && !icons[i].obsolete
      ensures i in s
    {
      if i < n {
        assert p[i] == icons[i];
      } else {
        assert s[|s| - 1] == n;
      }
    }
    forall k, l | 0 <= k < l < |s|
      ensures s[k] < s[l]
    {
      if l == |r| {
        assert s[k] == r[k] < n == s[l];
      }
    }
  }

  /** `Runtime::name_index`: each name of an icon that is not obsolete to
      the position of the last such icon. */
  function NameIndex(icons: seq<Icon>): (m: map<string, nat>)
    ensures forall s :: s in m ==> m[s] < |icons| && icons[m[s]].name == s && !icons[m[s]].obsolete
    ensures forall i :: 0 <= i < |icons| && !icons[i].obsolete ==>
      icons[i].name in m && i <= m[icons[i].name]
    decreases |icons|
  {
    if |icons| == 0 then map[]
    else
      var n := |icons| - 1;
      var prefix := icons[..n];
      assert forall i :: 0 <= i < n ==> prefix[i] == icons[i];
      var m := NameIndex(prefix);
      if icons[n].obsolete then m else m[icons[n].name := n]
  }

  /** The names in the name index are exactly the names of the icons that
      are not obsolete. */
  lemma NameIndexKeys(icons: seq<Icon>, s: string)
    ensures s in NameIndex(icons) <==>
      exists k :: 0 <= k < |GoodIcons(icons)| && icons[GoodIcons(icons)[k]].name == s
  {
    var g := GoodIcons(icons);
    if s in NameIndex(icons) {
      var i := NameIndex(icons)[s];
      var k :| 0 <= k < |g| && g[k] == i;
    }
  }

  // ---------------------------------------------------------------------
  // Candidates and notes

  /** `Runtime::candidates`: the first `MAX_CHOICES` corpus hits for the
      icon's name, each looked up in the name index. The corpus holds the
      names of icons that are not obsolete, so every hit is in the index;
      a hit that were not would panic. */
  function Candidates(icons: seq<Icon>, hits: seq<string>): (r: seq<Icon>)
    requires forall k :: 0 <= k < |hits| && k < MAX_CHOICES ==> hits[k] in NameIndex(icons)
    ensures |r| == if |hits| < MAX_CHOICES then |hits| else MAX_CHOICES
    ensures forall k :: 0 <= k < |r| ==>
      r[k].name == hits[k] && !r[k].obsolete && r[k] in icons
  {
    var n := if |hits| < MAX_CHOICES then |hits| else MAX_CHOICES;
    var index := NameIndex(icons);
    seq(n, k requires 0 <= k < n => icons[index[hits[k]]])
  }

  const NOTE_HEADER: string := "You could replace it with:\n"

  /** One numbered line of the note: number, glyph, `U+` codepoint, name. */
  function NoteLine(number: nat, c: Icon): string {
    "    " + Decimal(number) + ". " + [c.codepoint] + " U+" + UpperHex(c.codepoint as int) + " " + c.name + "\n"
  }

  /** The lines for `cands`, numbered from 1. */
  function NoteLines(cands: seq<Icon>): (r: seq<string>)
    ensures |r| == |cands|
    ensures forall k :: 0 <= k < |cands| ==> r[k] == NoteLine(k + 1, cands[k])
  {
    seq(|cands|, k requires 0 <= k < |cands| => NoteLine(k + 1, cands[k]))
  }

  /** The lines one after another. */
  function Concat(lines: seq<string>): string {
    if |lines| == 0 then "" else lines[0] + Concat(lines[1..])
  }

  /** Joining splits at any line. */
  lemma {:induction false} ConcatSplit(lines: seq<string>, k: nat)
    requires k <= |lines|
    ensures Concat(lines) == Concat(lines[..k]) + Concat(lines[k..])
    decreases k
  {
    if k > 0 {
      ConcatSplit(lines[1..], k - 1);
      assert lines[1..][..k - 1] == lines[..k][1..];
      assert lines[1..][k - 1..] == lines[k..];
    }
  }

  /** The position in the note where the line numbered `k + 1` starts:
      after the header and the `k` lines before it. */
  function LineStart(cands: seq<Icon>, k: nat): nat
    requires k <= |cands|
  {
    |NOTE_HEADER| + |Concat(NoteLines(cands)[..k])|
  }

  /** `Runtime::diagnostic_notes`: no note without candidates, otherwise
      one note that starts with the header and is exactly as long as the
      header and the candidates' lines; `NoteHoldsLine` places each line. */
  function DiagnosticNotes(cands: seq<Icon>): (r: seq<string>)
    ensures |r| == 0 <==> |cands| == 0
    ensures |r| <= 1
    ensures |r| == 1 ==> NOTE_HEADER <= r[0] && |r[0]| == LineStart(cands, |cands|)
  {
    if |cands| == 0 then []
    else
      var lines := NoteLines(cands);
      assert lines[..|cands|] == lines;
      [NOTE_HEADER + Concat(lines)]
  }

  /** `line` occurs in `text` starting at position `at`. */
  predicate SitsAt(text: string, at: nat, line: string) {
    at + |line| <= |text| && text[at..at + |line|] == line
  }

  /** After a header, line `k` sits right after the header and the lines
      before it. */
  lemma ConcatHolds(header: string, lines: seq<string>, k: nat)
    requires k < |lines|
    ensures SitsAt(header + Concat(lines), |header| + |Concat(lines[..k])|, lines[k])
  {
    var before, after := Concat(lines[..k]), Concat(lines[k + 1..]);
    ConcatSplit(lines, k);
    assert lines[k..][1..] == lines[k + 1..];
    assert header + Concat(lines) == (header + before) + lines[k] + after;
  }

  /** Line `k` of `NoteLines`, the one numbered `k + 1` for candidate `k`,
      sits in the note right after the header and the lines before it. */
  lemma NoteHoldsLine(cands: seq<Icon>, k: nat)
    requires k < |cands|
    ensures |DiagnosticNotes(cands)| == 1
    ensures SitsAt(DiagnosticNotes(cands)[0], LineStart(cands, k), NoteLines(cands)[k])
  {
    var lines := NoteLines(cands);
    var note := DiagnosticNotes(cands)[0];
    assert note == NOTE_HEADER + Concat(lines);
    assert LineStart(cands, k) == |NOTE_HEADER| + |Concat(lines[..k])|;
    ConcatHolds(NOTE_HEADER, lines, k);
  }

  /** The note's lines are what the prompt reads back: the number on line
      `k + 1` picks candidate `k`, and the `U+` codepoint on it names the
      candidate's character. */
  lemma NoteLinesReadBack(cands: seq<Icon>, k: nat)
    requires k < |cands| && k + 1 <= USIZE_MAX
    ensures var line := NoteLine(k + 1, cands[k]);
      && line == "    " + Decimal(k + 1) + ". " + [cands[k].codepoint] + " U+" + UpperHex(cands[k].codepoint as int) + " " + cands[k].name + "\n"
      && ParseUserInput(Decimal(k + 1)) == Ok(Candidate(k + 1))
      && ParseUserInput("U+" + UpperHex(cands[k].codepoint as int)) == Ok(Codepoint(cands[k].codepoint as int))
  {
    CandidateRoundTrip(k + 1);
    CodepointInputRoundTrip(cands[k].codepoint as int);
  }

  // ---------------------------------------------------------------------
  // Prompting for an icon

  /** One answer of the prompt widget: typed text, Esc, Ctrl-C, or any
      other failure of the widget. */
  datatype Event = Answer(text: string) | Cancel | Interrupt | Failure(cause: string)

  /** The failure reported when the answers run out (the terminal closed). */
  const INPUT_CLOSED: string := "input closed"

  /** A codepoint the prompt may return: a candidate's, or that of an icon
      that is not obsolete. */
  predicate Acceptable(icons: seq<Icon>, cands: seq<Icon>, c: char) {
    || (exists k :: 0 <= k < |cands| && cands[k].codepoint == c)
    || (exists k :: 0 <= k < |icons| && icons[k].codepoint == c && !icons[k].obsolete)
  }

  /** The `match input` of `prompt_input_icon`: the icon an input stands
      for, or `None` to ask again. Candidate `0` is rejected: `i - 1`
      wraps to `usize::MAX`, which no list reaches. */
  function Resolve(icons: seq<Icon>, cands: seq<Icon>, input: UserInput): (r: Option<Icon>)
    ensures r.Some? ==> r.value in cands || (r.value in icons && !r.value.obsolete)
  {
    match input
    case Name(name) =>
      var index := NameIndex(icons);
      if name in index then Some(icons[index[name]]) else None
    case Char(ch) =>
      var index := Index(icons);
      if ch in index && !icons[index[ch]].obsolete then Some(icons[index[ch]]) else None
    case Candidate(i) =>
      if 1 <= i <= |cands| then Some(cands[i - 1]) else None
    case Codepoint(hex) =>
      match CharFromU32(hex)
      case None => None
      case Some(ch) =>
        var index := Index(icons);
        if ch in index && !icons[index[ch]].obsolete then Some(icons[index[ch]]) else None
  }

  /** `Runtime::prompt_input_icon`: ask until an answer names an acceptable
      icon; Esc gives `None`, Ctrl-C the `Interrupted` error, and any other
      widget failure a `Prompt` error. Returns the answers not consumed. */
  function PromptInputIcon(icons: seq<Icon>, cands: seq<Icon>, script: seq<Event>)
    : (r: (Result<Option<char>, Error>, seq<Event>))
    ensures |r.1| < |script| || (script == [] && r.1 == [])
    ensures r.0.Ok? && r.0.value.Some? ==> Acceptable(icons, cands, r.0.value.value)
    ensures r.0.Err? ==> r.0.error == Interrupted || r.0.error.Prompt?
    decreases |script|
  {
    if |script| == 0 then (Err(Prompt(INPUT_CLOSED)), [])
    else
      var rest := script[1..];
      match script[0]
      case Cancel => (Ok(None), rest)
      case Interrupt => (Err(Interrupted), rest)
      case Failure(cause) => (Err(Prompt(cause)), rest)
      case Answer(text) =>
        match ParseUserInput(text)
        case Err(e) =>
          if e == InvalidInput then PromptInputIcon(icons, cands, rest) else (Err(e), rest)
        case Ok(input) =>
          match Resolve(icons, cands, input)
          case None => PromptInputIcon(icons, cands, rest)
          case Some(icon) =>
            AcceptableWitness(icons, cands, icon);
            (Ok(Some(icon.codepoint)), rest)
  }

  lemma AcceptableWitness(icons: seq<Icon>, cands: seq<Icon>, icon: Icon)
    requires icon in cands || (icon in icons && !icon.obsolete)
    ensures Acceptable(icons, cands, icon.codepoint)
  {
    if icon in cands {
      var k :| 0 <= k < |cands| && cands[k] == icon;
    } else {
      var k :| 0 <= k < |icons| && icons[k] == icon;
    }
  }

  /** Esc ends the prompt with no icon, and Ctrl-C with `Interrupted`. */
  lemma CancelAndInterrupt(icons: seq<Icon>, cands: seq<Icon>, rest: seq<Event>)
    ensures PromptInputIcon(icons, cands, [Cancel] + rest) == (Ok(None), rest)
    ensures PromptInputIcon(icons, cands, [Interrupt] + rest) == (Err(Interrupted), rest)
  {
    assert ([Cancel] + rest)[1..] == rest;
    assert ([Interrupt] + rest)[1..] == rest;
  }

  /** An answer that does not resolve is dropped and the prompt asks again. */
  lemma UnresolvedAsksAgain(icons: seq<Icon>, cands: seq<Icon>, text: string, rest: seq<Event>)
    requires ParseUserInput(text).Err? || Resolve(icons, cands, ParseUserInput(text).value).None?
    ensures PromptInputIcon(icons, cands, [Answer(text)] + rest) == PromptInputIcon(icons, cands, rest)
  {
    assert ([Answer(text)] + rest)[1..] == rest;
  }

  /** An answer that resolves ends the prompt with its icon's codepoint. */
  lemma ResolvedAnswer(icons: seq<Icon>, cands: seq<Icon>, text: string, icon: Icon, rest: seq<Event>)
    requires ParseUserInput(text).Ok? && Resolve(icons, cands, ParseUserInput(text).value) == Some(icon)
    ensures PromptInputIcon(icons, cands, [Answer(text)] + rest) == (Ok(Some(icon.codepoint)), rest)
  {
    assert ([Answer(text)] + rest)[1..] == rest;
  }

  /** Typing a candidate's number picks that candidate. */
  lemma CandidateAnswer(icons: seq<Icon>, cands: seq<Icon>, k: nat, rest: seq<Event>)
    requires k < |cands| && k + 1 <= USIZE_MAX
    ensures PromptInputIcon(icons, cands, [Answer(Decimal(k + 1))] + rest) ==
      (Ok(Some(cands[k].codepoint)), rest)
  {
    CandidateRoundTrip(k + 1);
    assert Resolve(icons, cands, Candidate(k + 1)) == Some(cands[k]);
    ResolvedAnswer(icons, cands, Decimal(k + 1), cands[k], rest);
  }

  /** `0` names no candidate. */
  lemma CandidateZeroAsksAgain(icons: seq<Icon>, cands: seq<Icon>, rest: seq<Event>)
    ensures PromptInputIcon(icons, cands, [Answer("0")] + rest) == PromptInputIcon(icons, cands, rest)
  {
    assert Decimal(0) == "0";
    CandidateRoundTrip(0);
    UnresolvedAsksAgain(icons, cands, "0", rest);
  }

  /** A typed glyph is refused when the icon it resolves to is obsolete. */
  lemma ObsoleteGlyphAsksAgain(icons: seq<Icon>, cands: seq<Icon>, c: char, rest: seq<Event>)
    requires c in Index(icons) && icons[Index(icons)[c]].obsolete
    requires !IsAsciiDigit(c)
    ensures PromptInputIcon(icons, cands, [Answer([c])] + rest) == PromptInputIcon(icons, cands, rest)
  {
    SingleCharacter(c);
    assert Resolve(icons, cands, Char(c)) == None;
    UnresolvedAsksAgain(icons, cands, [c], rest);
  }

  /** So is a `U+` codepoint whose icon is obsolete. */
  lemma ObsoleteCodepointAsksAgain(icons: seq<Icon>, cands: seq<Icon>, c: char, rest: seq<Event>)
    requires c in Index(icons) && icons[Index(icons)[c]].obsolete
    ensures PromptInputIcon(icons, cands, [Answer("U+" + UpperHex(c as int))] + rest) ==
      PromptInputIcon(icons, cands, rest)
  {
    CodepointInputRoundTrip(c as int);
    assert CharFromU32(c as int) == Some(c);
    assert Resolve(icons, cands, Codepoint(c as int)) == None;
    UnresolvedAsksAgain(icons, cands, "U+" + UpperHex(c as int), rest);
  }

  /** A `U+` codepoint that is not a Unicode scalar value is refused. */
  lemma NonScalarAsksAgain(icons: seq<Icon>, cands: seq<Icon>, n: nat, rest: seq<Event>)
    requires n <= U32_MAX && !IsScalar(n)
    ensures PromptInputIcon(icons, cands, [Answer("U+" + UpperHex(n))] + rest) ==
      PromptInputIcon(icons, cands, rest)
  {
    CodepointInputRoundTrip(n);
    assert CharFromU32(n) == None;
    assert Resolve(icons, cands, Codepoint(n)) == None;
    UnresolvedAsksAgain(icons, cands, "U+" + UpperHex(n), rest);
  }

  /** A name of an icon that is not obsolete picks the last such icon. */
  lemma NameAnswer(icons: seq<Icon>, cands: seq<Icon>, name: string, rest: seq<Event>)
    requires name in NameIndex(icons)
    requires |name| >= 2 && !IsAsciiDigit(name[0]) && !(name[1] == '+' && (name[0] == 'u' || name[0] == 'U'))
    ensures PromptInputIcon(icons, cands, [Answer(name)] + rest) ==
      (Ok(Some(icons[NameIndex(icons)[name]].codepoint)), rest)
  {
    NameInput(name);
    ResolvedAnswer(icons, cands, name, icons[NameIndex(icons)[name]], rest);
  }

  /** A name the completer fills in, typed back as the answer, picks an icon
      of that name that is not obsolete, whenever the live hit it came from
      is not obsolete and its name reads as a name. */
  lemma CompletionResolves(a: Autocompleter, cands: seq<Icon>, input: string)
    requires |input| > 0 && HitsInRange(a.icons, a.live(input)) && |a.live(input)| > 0
    requires !a.icons[a.live(input)[0]].obsolete
    requires var name := a.icons[a.live(input)[0]].name;
      |name| >= 2 && !IsAsciiDigit(name[0]) && !(name[1] == '+' && (name[0] == 'u' || name[0] == 'U'))
    ensures var name := GetCompletion(a, input, None).value;
      && ParseUserInput(name) == Ok(Name(name))
      && var r := Resolve(a.icons, cands, Name(name));
         r.Some? && r.value.name == name && !r.value.obsolete
  {
  }
}

=== FILE: scanner.dfy ===
/** `Runtime::check`: one pass over a file's characters that reports every
    obsolete icon and, when patching, writes the file again with the
    replacements the user chose (src/runtime.rs). Diagnostics are output
    and are not modelled; the outcome is whether an obsolete icon was
    found, the patched text, the replacement history and the answers left. */
module Scanner {
  import opened Results
  import opened Errors
  import opened Icons
  import opened Runtime

  /** Every search result the prompt can look up is the name of an icon
      that is not obsolete: the corpus is filled from exactly those names. */
  ghost predicate CorpusSound(icons: seq<Icon>, hits: string -> seq<string>) {
    forall name: string, k :: 0 <= k < |hits(name)| && k < MAX_CHOICES ==> hits(name)[k] in NameIndex(icons)
  }

  /** The prompt as the pass sees it: given the obsolete icon and the
      answers left, the prompt's result and the answers it did not use. */
  type Asker = (Icon, seq<Event>) -> (Result<Option<char>, Error>, seq<Event>)

  /** `prompt_input_icon` offered the candidates for the icon's name. */
  function PromptAsker(icons: seq<Icon>, hits: string -> seq<string>): Asker
    requires CorpusSound(icons, hits)
  {
    (icon: Icon, script: seq<Event>) => PromptInputIcon(icons, Candidates(icons, hits(icon.name)), script)
  }

  /** Every codepoint the prompt returns is good. */
  ghost predicate AskerSound(icons: seq<Icon>, ask: Asker) {
    forall icon, script :: ask(icon, script).0.Ok? && ask(icon, script).0.value.Some? ==>
      IsGood(icons, ask(icon, script).0.value.value)
  }

  /** The real prompt only returns good codepoints: candidates are icons
      that are not obsolete, and any other answer must name one. */
  lemma PromptAskerSound(icons: seq<Icon>, hits: string -> seq<string>)
    requires CorpusSound(icons, hits)
    ensures AskerSound(icons, PromptAsker(icons, hits))
  {
    var ask := PromptAsker(icons, hits);
    forall icon, script | ask(icon, script).0.Ok? && ask(icon, script).0.value.Some?
      ensures IsGood(icons, ask(icon, script).0.value.value)
    {
      var cands := Candidates(icons, hits(icon.name));
      PromptGood(icons, cands, ask(icon, script).0.value.value);
    }
  }

  /** A character the index resolves to an obsolete icon. */
  predicate IsObsolete(icons: seq<Icon>, ch: char) {
    ch in Index(icons) && icons[Index(icons)[ch]].obsolete
  }

  /** The codepoint of some icon that is not obsolete. */
  predicate IsGood(icons: seq<Icon>, ch: char) {
    exists k :: 0 <= k < |icons| && icons[k].codepoint == ch && !icons[k].obsolete
  }

  /** Every remembered replacement is a good codepoint. */
  predicate GoodHistory(icons: seq<Icon>, history: map<char, char>) {
    forall c :: c in history ==> IsGood(icons, history[c])
  }

  /** The character written for `before` is either `before` itself or,
      for an obsolete icon, a good codepoint. */
  predicate Patched(icons: seq<Icon>, before: char, after: char) {
    after == before || (IsObsolete(icons, before) && IsGood(icons, after))
  }

  /** `later` keeps every replacement `earlier` remembers. */
  predicate HistoryExtends(earlier: map<char, char>, later: map<char, char>) {
    forall c :: c in earlier ==> c in later && later[c] == earlier[c]
  }

  /** What the pass carries from one character to the next: whether an
      obsolete icon was seen, the patched text so far (`None` when not
      patching), the history of replacements, and the answers left. */
  datatype State = State(found: bool, out: Option<string>, history: map<char, char>, script: seq<Event>)

  /** The outcome for one character: write a character and go on, stop
      early with the state reached (the user pressed Ctrl-C), or fail with
      the state reached, whose history the caller keeps. */
  datatype Step = Emit(ch: char, st: State) | Finish(st: State) | Fail(error: Error, st: State)

  /** A failed pass: the error and the state reached when it happened.
      `check` updates the caller's history in place, so the replacements
      remembered before the failure outlive it. */
  datatype Aborted = Aborted(cause: Error, reached: State)

  /** The state a pass ended in, whether it succeeded or failed. */
  function Reached(r: Result<State, Aborted>): State {
    match r
    case Ok(st) => st
    case Err(f) => f.reached
  }

  /** Asking the user for a replacement of the obsolete `icon` at
      position `i`: a chosen codepoint is written and remembered, Esc keeps
      the character, Ctrl-C writes the rest of the file unchanged and
      stops, and any other failure is returned. */
  function AskAt(icons: seq<Icon>, ask: Asker, content: string, i: nat, icon: Icon, st: State): (r: Step)
    requires AskerSound(icons, ask)
    requires i < |content| && st.out.Some?
    ensures r.Emit? && r.ch != content[i] ==> IsGood(icons, r.ch)
    ensures r.Emit? ==> r.st.found == st.found && r.st.out == st.out
    ensures r.Emit? ==> r.st.history == st.history || r.st.history == st.history[icon.codepoint := r.ch]
    ensures r.Emit? && r.st.history != st.history ==> IsGood(icons, r.ch)
    ensures r.Finish? ==> r.st.found == st.found && r.st.history == st.history
    ensures r.Finish? ==> r.st.out == Some(st.out.value + content[i..])
    ensures r.Fail? ==> r.st.history == st.history && r.error != Interrupted
  {
    var (res, rest) := ask(icon, st.script);
    match res
    case Ok(Some(c)) =>
      Emit(c, st.(history := st.history[icon.codepoint := c], script := rest))
    case Ok(None) => Emit(content[i], st.(script := rest))
    case Err(e) =>
      if e == Interrupted then Finish(st.(out := Some(st.out.value + content[i..]), script := rest))
      else Fail(e, st.(script := rest))
  }

  /** The obsolete `icon` found at position `i`: a remembered replacement
      is reused without asking, nothing is asked when not patching, and
      otherwise the user is asked. */
  function ReplaceAt(icons: seq<Icon>, ask: Asker, content: string, i: nat, icon: Icon, st: State): (r: Step)
    requires AskerSound(icons, ask)
    requires i < |content| && icon.codepoint == content[i]
    ensures r.Emit? && r.ch != content[i] ==>
      (content[i] in st.history && r.ch == st.history[content[i]]) || IsGood(icons, r.ch)
    ensures r.Emit? || r.Finish? ==> r.st.found == st.found
    ensures r.Emit? ==> r.st.out == st.out
    ensures r.Finish? ==> st.out.Some? && r.st.out == Some(st.out.value + content[i..])
    ensures r.Finish? ==> r.st.history == st.history
    ensures HistoryExtends(st.history, r.st.history)
    ensures GoodHistory(icons, st.history) ==> GoodHistory(icons, r.st.history)
    ensures r.Fail? ==> st.out.Some? && r.error != Interrupted
  {
    if icon.codepoint in st.history then Emit(st.history[icon.codepoint], st)
    else if st.out.None? then Emit(content[i], st)
    else AskAt(icons, ask, content, i, icon, st)
  }

  /** The body of the loop in `check`, at position `i`. */
  function StepAt(icons: seq<Icon>, ask: Asker, content: string, i: nat, st: State): (r: Step)
    requires AskerSound(icons, ask)
    requires i < |content|
    ensures r.Emit? && r.ch != content[i] ==>
      && IsObsolete(icons, content[i])
      && ((content[i] in st.history && r.ch == st.history[content[i]]) || IsGood(icons, r.ch))
    ensures r.Emit? || r.Finish? ==> r.st.found == (st.found || IsObsolete(icons, content[i]))
    ensures r.Emit? ==> r.st.out == st.out
    ensures r.Finish? ==> st.out.Some? && r.st.out == Some(st.out.value + content[i..])
    ensures r.Finish? ==> r.st.history == st.history
    ensures HistoryExtends(st.history, r.st.history)
    ensures GoodHistory(icons, st.history) ==> GoodHistory(icons, r.st.history)
    ensures GoodHistory(icons, st.history) && r.Emit? ==> Patched(icons, content[i], r.ch)
    ensures r.Finish? || r.Fail? ==> IsObsolete(icons, content[i]) && st.out.Some?
    ensures r.Fail? ==> r.error != Interrupted
  {
    var ch := content[i];
    if IsObsolete(icons, ch) then ReplaceAt(icons, ask, content, i, icons[Index(icons)[ch]], st.(found := true))
    else Emit(ch, st)
  }

  /** A codepoint the prompt accepts is good: candidates are icons that
      are not obsolete. */
  lemma PromptGood(icons: seq<Icon>, cands: seq<Icon>, c: char)
    requires forall k :: 0 <= k < |cands| ==> !cands[k].obsolete && cands[k] in icons
    requires Acceptable(icons, cands, c)
    ensures IsGood(icons, c)
  {
    if exists k :: 0 <= k < |cands| && cands[k].codepoint == c {
      var k :| 0 <= k < |cands| && cands[k].codepoint == c;
      var j :| 0 <= j < |icons| && icons[j] == cands[k];
    }
  }

  /** Writes `ch` when patching. */
  function Push(out: Option<string>, ch: char): Option<string> {
    match out
    case None => None
    case Some(s) => Some(s + [ch])
  }

  /** The loop of `check` from position `i`. Only the prompt can fail, so
      a failure needs patching, and Ctrl-C is never a failure. */
  function Scan(icons: seq<Icon>, ask: Asker, content: string, i: nat, st: State): (r: Result<State, Aborted>)
    requires AskerSound(icons, ask)
    requires i <= |content|
    ensures r.Err? ==> st.out.Some? && r.error.cause != Interrupted
    decreases |content| - i
  {
    if i == |content| then Ok(st)
    else
      match StepAt(icons, ask, content, i, st)
      case Emit(ch, next) => Scan(icons, ask, content, i + 1, next.(out := Push(next.out, ch)))
      case Finish(last) => Ok(last)
      case Fail(e, last) => Err(Aborted(e, last))
  }

  /** `Runtime::check` on a file's text: patching when `patching`, with
      the history of earlier files and the user's answers. A successful
      check tells whether the file holds an obsolete icon; success or not,
      the history only grows; only a prompt failure, never Ctrl-C, fails. */
  function Check(icons: seq<Icon>, hits: string -> seq<string>, content: string, patching: bool,
                 history: map<char, char>, script: seq<Event>): (r: Result<State, Aborted>)
    requires CorpusSound(icons, hits)
    ensures r.Ok? ==> r.value.found == AnyObsolete(icons, content, 0)
    ensures HistoryExtends(history, Reached(r).history)
    ensures r.Err? ==> patching && r.error.cause != Interrupted
  {
    var ask := PromptAsker(icons, hits);
    var st := State(false, if patching then Some("") else None, history, script);
    PromptAskerSound(icons, hits);
    ScanFound(icons, ask, content, 0, st);
    ScanHistoryGrows(icons, ask, content, 0, st);
    Scan(icons, ask, content, 0, st)
  }

  /** The driver's loop over files (src/main.rs): every file is checked
      with the history the earlier files left, whether their checks
      succeeded or failed, since a failure is logged and the loop goes on.
      `scripts[k]` is the user's answers while file `k` is checked. */
  function CheckFiles(icons: seq<Icon>, hits: string -> seq<string>, files: seq<string>, patching: bool,
                      history: map<char, char>, scripts: seq<seq<Event>>): (r: seq<Result<State, Aborted>>)
    requires CorpusSound(icons, hits)
    requires |scripts| == |files|
    ensures |r| == |files|
    decreases |files|
  {
    if |files| == 0 then []
    else
      var first := Check(icons, hits, files[0], patching, history, scripts[0]);
      [first] + CheckFiles(icons, hits, files[1..], patching, Reached(first).history, scripts[1..])
  }

  /** Some character from position `i` on is an obsolete icon. */
  ghost predicate AnyObsolete(icons: seq<Icon>, content: string, i: nat) {
    exists j :: i <= j < |content| && IsObsolete(icons, content[j])
  }

  lemma AnyObsoleteStep(icons: seq<Icon>, content: string, i: nat)
    requires i < |content|
    ensures AnyObsolete(icons, content, i) <==> IsObsolete(icons, content[i]) || AnyObsolete(icons, content, i + 1)
  {
    if AnyObsolete(icons, content, i) && !IsObsolete(icons, content[i]) {
      var j :| i <= j < |content| && IsObsolete(icons, content[j]);
      assert i + 1 <= j;
    }
  }

  /** `check` answers whether the file holds an obsolete icon, however the
      user answers, unless the prompt fails. */
  lemma {:induction false} ScanFound(icons: seq<Icon>, ask: Asker, content: string, i: nat, st: State)
    requires AskerSound(icons, ask)
    requires i <= |content|
    ensures Scan(icons, ask, content, i, st).Ok? ==>
      Scan(icons, ask, content, i, st).value.found == (st.found || AnyObsolete(icons, content, i))
    decreases |content| - i
  {
    if i < |content| {
      AnyObsoleteStep(icons, content, i);
      match StepAt(icons, ask, content, i, st)
      case Emit(ch, next) =>
        ScanFound(icons, ask, content, i + 1, next.(out := Push(next.out, ch)));
      case Finish(last) =>
      case Fail(e, last) =>
    }
  }

  /** Without patching nothing is asked: the pass cannot fail, consumes no
      answer, writes nothing and remembers nothing new. */
  lemma {:induction false} ScanReportOnly(icons: seq<Icon>, ask: Asker, content: string, i: nat, st: State)
    requires AskerSound(icons, ask)
    requires i <= |content| && st.out.None?
    ensures var r := Scan(icons, ask, content, i, st);
      && r.Ok?
      && r.value.out.None? && r.value.history == st.history && r.value.script == st.script
    decreases |content| - i
  {
    if i < |content| {
      var step := StepAt(icons, ask, content, i, st);
      assert step.Emit? && step.st.history == st.history && step.st.script == st.script;
      ScanReportOnly(icons, ask, content, i + 1, step.st.(out := Push(step.st.out, step.ch)));
    }
  }

  /** `after` is `before` with some obsolete icons replaced by good ones. */
  predicate PatchedText(icons: seq<Icon>, before: string, after: string) {
    |after| == |before| && forall k :: 0 <= k < |before| ==> Patched(icons, before[k], after[k])
  }

  lemma PatchedTextCons(icons: seq<Icon>, x: char, y: char, before: string, after: string)
    requires Patched(icons, x, y) && PatchedText(icons, before, after)
    ensures PatchedText(icons, [x] + before, [y] + after)
  {
    forall k | 0 <= k < |before| + 1 ensures Patched(icons, ([x] + before)[k], ([y] + after)[k]) {
      if k > 0 {
        assert ([x] + before)[k] == before[k - 1];
        assert ([y] + after)[k] == after[k - 1];
      }
    }
  }

  /** Writing a patched character for position `i` and then a patched
      rest gives a patched text from `i`. */
  lemma PatchedTextStep(icons: seq<Icon>, content: string, i: nat, written: string, ch: char, o: string)
    requires i < |content| && Patched(icons, content[i], ch)
    requires |written| + 1 <= |o| && o[..|written| + 1] == written + [ch]
    requires PatchedText(icons, content[i + 1..], o[|written| + 1..])
    ensures o[..|written|] == written
    ensures PatchedText(icons, content[i..], o[|written|..])
  {
    var n := |written|;
    assert o[..n] == (o[..n + 1])[..n];
    assert o[n..] == [ch] + o[n + 1..];
    assert content[i..] == [content[i]] + content[i + 1..];
    PatchedTextCons(icons, content[i], ch, content[i + 1..], o[n + 1..]);
  }

  /** When patching, what is written from position `i` on is the rest of
      the file with some obsolete icons replaced by good ones. An interrupt
      writes the rest unchanged. */
  lemma {:induction false} ScanPatched(icons: seq<Icon>, ask: Asker, content: string, i: nat, st: State)
    requires AskerSound(icons, ask)
    requires i <= |content| && st.out.Some? && GoodHistory(icons, st.history)
    ensures var r := Scan(icons, ask, content, i, st);
      r.Ok? ==>
        && r.value.out.Some?
        && |st.out.value| <= |r.value.out.value|
        && r.value.out.value[..|st.out.value|] == st.out.value
        && PatchedText(icons, content[i..], r.value.out.value[|st.out.value|..])
    decreases |content| - i
  {
    var n := |st.out.value|;
    if i == |content| {
      assert st.out.value[n..] == [];
    } else {
      match StepAt(icons, ask, content, i, st)
      case Emit(ch, next) =>
        var after := next.(out := Push(next.out, ch));
        assert after.out == Some(st.out.value + [ch]);
        ScanPatched(icons, ask, content, i + 1, after);
        var r := Scan(icons, ask, content, i + 1, after);
        if r.Ok? {
          PatchedTextStep(icons, content, i, st.out.value, ch, r.value.out.value);
        }
      case Finish(last) =>
        var o := last.out.value;
        assert o == st.out.value + content[i..];
        assert o[..n] == st.out.value;
        assert o[n..] == content[i..];
      case Fail(e, last) =>
    }
  }

  /** Every replacement remembered during the pass is good, also when the
      pass fails. */
  lemma {:induction false} ScanGoodHistory(icons: seq<Icon>, ask: Asker, content: string, i: nat, st: State)
    requires AskerSound(icons, ask)
    requires i <= |content| && GoodHistory(icons, st.history)
    ensures GoodHistory(icons, Reached(Scan(icons, ask, content, i, st)).history)
    decreases |content| - i
  {
    if i < |content| {
      match StepAt(icons, ask, content, i, st)
      case Emit(ch, next) =>
        ScanGoodHistory(icons, ask, content, i + 1, next.(out := Push(next.out, ch)));
      case Finish(last) =>
      case Fail(e, last) =>
    }
  }

  /** Replacements remembered before the pass are still remembered after
      it, with the same values, whether it succeeded or failed. */
  lemma {:induction false} ScanHistoryGrows(icons: seq<Icon>, ask: Asker, content: string, i: nat, st: State)
    requires AskerSound(icons, ask)
    requires i <= |content|
    ensures HistoryExtends(st.history, Reached(Scan(icons, ask, content, i, st)).history)
    decreases |content| - i
  {
    if i < |content| {
      match StepAt(icons, ask, content, i, st)
      case Emit(ch, next) =>
        ScanHistoryGrows(icons, ask, content, i + 1, next.(out := Push(next.out, ch)));
      case Finish(last) =>
      case Fail(e, last) =>
    }
  }

  /** A file without obsolete icons is written back unchanged, and nothing
      is asked. */
  lemma {:induction false} ScanClean(icons: seq<Icon>, ask: Asker, content: string, i: nat, st: State)
    requires AskerSound(icons, ask)
    requires i <= |content|
    requires forall j :: i <= j < |content| ==> !IsObsolete(icons, content[j])
    ensures Scan(icons, ask, content, i, st) ==
      Ok(st.(out := if st.out.Some? then Some(st.out.value + content[i..]) else None))
    decreases |content| - i
  {
    if i < |content| {
      var after := st.(out := Push(st.out, content[i]));
      assert StepAt(icons, ask, content, i, st) == Emit(content[i], st);
      ScanClean(icons, ask, content, i + 1, after);
      if st.out.Some? {
        assert content[i..] == [content[i]] + content[i + 1..];
        assert st.out.value + [content[i]] + content[i + 1..] == st.out.value + content[i..];
      }
    } else {
      if st.out.Some? {
        assert st.out.value + content[i..] == st.out.value;
      }
    }
  }

  /** An obsolete icon already replaced once is replaced the same way
      again, without asking, even when not patching. */
  lemma HistoryReused(icons: seq<Icon>, ask: Asker, content: string, i: nat, st: State)
    requires AskerSound(icons, ask)
    requires i < |content| && IsObsolete(icons, content[i]) && content[i] in st.history
    ensures StepAt(icons, ask, content, i, st) == Emit(st.history[content[i]], st.(found := true))
  {
  }

  /** An icon met for the first time while patching is put to the user: a
      chosen character is written and remembered for this codepoint, and
      Esc writes the icon back unchanged and remembers nothing. */
  lemma AnswerApplied(icons: seq<Icon>, ask: Asker, content: string, i: nat, st: State)
    requires AskerSound(icons, ask)
    requires i < |content| && IsObsolete(icons, content[i]) && content[i] !in st.history && st.out.Some?
    ensures var (res, rest) := ask(icons[Index(icons)[content[i]]], st.script);
      && (res.Ok? && res.value.Some? ==>
            StepAt(icons, ask, content, i, st) ==
              Emit(res.value.value, st.(found := true, history := st.history[content[i] := res.value.value], script := rest)))
      && (res == Ok(None) ==>
            StepAt(icons, ask, content, i, st) == Emit(content[i], st.(found := true, script := rest)))
  {
    assert icons[Index(icons)[content[i]]].codepoint == content[i];
  }

  /** Ctrl-C at the prompt stops the pass: the rest of the file, from the
      icon on, is written unchanged and the check reports success. */
  lemma InterruptWritesRest(icons: seq<Icon>, ask: Asker, content: string, i: nat, st: State)
    requires AskerSound(icons, ask)
    requires i < |content| && IsObsolete(icons, content[i]) && content[i] !in st.history && st.out.Some?
    requires ask(icons[Index(icons)[content[i]]], st.script).0 == Err(Interrupted)
    ensures var rest := ask(icons[Index(icons)[content[i]]], st.script).1;
      Scan(icons, ask, content, i, st) ==
        Ok(State(true, Some(st.out.value + content[i..]), st.history, rest))
  {
  }

  /** Without patching, `check` reports whether the file holds an obsolete
      icon and changes nothing else. */
  lemma CheckReportOnly(icons: seq<Icon>, hits: string -> seq<string>, content: string,
                        history: map<char, char>, script: seq<Event>)
    requires CorpusSound(icons, hits)
    ensures Check(icons, hits, content, false, history, script) ==
      Ok(State(AnyObsolete(icons, content, 0), None, history, script))
  {
    var st := State(false, None, history, script);
    var ask := PromptAsker(icons, hits);
    PromptAskerSound(icons, hits);
    ScanReportOnly(icons, ask, content, 0, st);
    ScanFound(icons, ask, content, 0, st);
  }

  /** When patching, a successful `check` writes a text as long as the file
      in which every change replaces an obsolete icon by a good one. */
  lemma CheckPatched(icons: seq<Icon>, hits: string -> seq<string>, content: string,
                     history: map<char, char>, script: seq<Event>)
    requires CorpusSound(icons, hits) && GoodHistory(icons, history)
    ensures var r := Check(icons, hits, content, true, history, script);
      r.Ok? ==>
        && r.value.found == AnyObsolete(icons, content, 0)
        && r.value.out.Some? && PatchedText(icons, content, r.value.out.value)
        && GoodHistory(icons, r.value.history)
        && HistoryExtends(history, r.value.history)
  {
    var st := State(false, Some(""), history, script);
    var ask := PromptAsker(icons, hits);
    PromptAskerSound(icons, hits);
    ScanPatched(icons, ask, content, 0, st);
    assert content[0..] == content;
    ScanFound(icons, ask, content, 0, st);
    ScanGoodHistory(icons, ask, content, 0, st);
    ScanHistoryGrows(icons, ask, content, 0, st);
  }

  /** `later` keeps what `middle` keeps of `earlier`. */
  lemma HistoryExtendsTrans(earlier: map<char, char>, middle: map<char, char>, later: map<char, char>)
    requires HistoryExtends(earlier, middle) && HistoryExtends(middle, later)
    ensures HistoryExtends(earlier, later)
  {
  }

  /** Each file after the first is checked with the history the file
      before it reached, also when that file's check failed. */
  lemma {:induction false} CheckFilesCarries(icons: seq<Icon>, hits: string -> seq<string>, files: seq<string>,
                                            patching: bool, history: map<char, char>, scripts: seq<seq<Event>>)
    requires CorpusSound(icons, hits) && |scripts| == |files|
    ensures var r := CheckFiles(icons, hits, files, patching, history, scripts);
      && (|files| > 0 ==> r[0] == Check(icons, hits, files[0], patching, history, scripts[0]))
      && forall k :: 0 < k < |files| ==>
           r[k] == Check(icons, hits, files[k], patching, Reached(r[k - 1]).history, scripts[k])
    decreases |files|
  {
    if |files| > 0 {
      var r := CheckFiles(icons, hits, files, patching, history, scripts);
      var first := Check(icons, hits, files[0], patching, history, scripts[0]);
      var rest := CheckFiles(icons, hits, files[1..], patching, Reached(first).history, scripts[1..]);
      assert r == [first] + rest;
      CheckFilesCarries(icons, hits, files[1..], patching, Reached(first).history, scripts[1..]);
      forall k | 0 < k < |files|
        ensures r[k] == Check(icons, hits, files[k], patching, Reached(r[k - 1]).history, scripts[k])
      {
        assert r[k] == rest[k - 1];
        assert files[1..][k - 1] == files[k] && scripts[1..][k - 1] == scripts[k];
        if k > 1 {
          assert r[k - 1] == rest[k - 2];
        }
      }
    }
  }

  /** Every outcome keeps what `history` remembers. */
  predicate KeepsHistory(history: map<char, char>, r: seq<Result<State, Aborted>>) {
    forall k :: 0 <= k < |r| ==> HistoryExtends(history, Reached(r[k]).history)
  }

  /** Every outcome keeps what the outcomes before it remember. */
  predicate HistoryGrows(r: seq<Result<State, Aborted>>) {
    forall j, k :: 0 <= j < k < |r| ==> HistoryExtends(Reached(r[j]).history, Reached(r[k]).history)
  }

  /** Every outcome remembers only good replacements. */
  predicate AllGoodHistories(icons: seq<Icon>, r: seq<Result<State, Aborted>>) {
    forall k :: 0 <= k < |r| ==> GoodHistory(icons, Reached(r[k]).history)
  }

  /** Across the driver's loop the history only grows: no file, failed or
      not, loses a replacement remembered before it, and a history that
      starts good stays good. */
  lemma {:induction false} CheckFilesHistory(icons: seq<Icon>, hits: string -> seq<string>, files: seq<string>,
                                            patching: bool, history: map<char, char>, scripts: seq<seq<Event>>)
    requires CorpusSound(icons, hits) && |scripts| == |files|
    ensures KeepsHistory(history, CheckFiles(icons, hits, files, patching, history, scripts))
    ensures HistoryGrows(CheckFiles(icons, hits, files, patching, history, scripts))
    ensures GoodHistory(icons, history) ==>
      AllGoodHistories(icons, CheckFiles(icons, hits, files, patching, history, scripts))
    decreases |files|
  {
    if |files| > 0 {
      var r := CheckFiles(icons, hits, files, patching, history, scripts);
      var first := Check(icons, hits, files[0], patching, history, scripts[0]);
      var h := Reached(first).history;
      var rest := CheckFiles(icons, hits, files[1..], patching, h, scripts[1..]);
      assert r == [first] + rest;
      CheckFilesHistory(icons, hits, files[1..], patching, h, scripts[1..]);
      if GoodHistory(icons, history) {
        PromptAskerSound(icons, hits);
        ScanGoodHistory(icons, PromptAsker(icons, hits), files[0], 0,
                        State(false, if patching then Some("") else None, history, scripts[0]));
        assert GoodHistory(icons, h);
      }
      forall k | 0 < k < |r|
        ensures HistoryExtends(history, Reached(r[k]).history) && HistoryExtends(h, Reached(r[k]).history)
        ensures GoodHistory(icons, history) ==> GoodHistory(icons, Reached(r[k]).history)
      {
        assert r[k] == rest[k - 1];
        HistoryExtendsTrans(history, h, Reached(r[k]).history);
      }
      forall j, k | 0 < j < k < |r|
        ensures HistoryExtends(Reached(r[j]).history, Reached(r[k]).history)
      {
        assert r[j] == rest[j - 1] && r[k] == rest[k - 1];
      }
    }
  }
}

=== FILE: text.dfy ===
/** The `str` operations the tool relies on, over `string = seq<char>`.
    Rust strings are UTF-8 bytes; every operation here only splits at
    characters that are ASCII or compares whole scalars, so working on
    Unicode scalars gives the same results. */
module Text {
  import opened Results

  datatype Ordering = Less | Equal | Greater

  /** `u8::is_ascii_whitespace`: space, tab, line feed, form feed, carriage
      return (not vertical tab). */
  predicate IsAsciiWhitespace(c: char) {
    c == ' ' || c == '\t' || c == '\n' || c == '\U{000C}' || c == '\r'
  }

  /** `char::is_whitespace`: the Unicode `White_Space` property. */
  predicate IsWhitespace(c: char) {
    || ('\t' <= c <= '\r')
    || c == ' ' || c == '\U{0085}' || c == '\U{00A0}' || c == '\U{1680}'
    || ('\U{2000}' <= c <= '\U{200A}')
    || c == '\U{2028}' || c == '\U{2029}' || c == '\U{202F}' || c == '\U{205F}'
    || c == '\U{3000}'
  }

  /** `r` is what is left of `s` once the white space at its start is
      dropped: a suffix of `s`, after nothing but white space, that does not
      start with white space. */
  predicate IsTrimStartOf(s: string, r: string) {
    && |r| <= |s| && r == s[|s| - |r|..]
    && (forall i :: 0 <= i < |s| - |r| ==> IsWhitespace(s[i]))
    && (|r| > 0 ==> !IsWhitespace(r[0]))
  }

  /** `r` is what is left of `s` once the white space at its end is
      dropped: a prefix of `s`, before nothing but white space, that does
      not end with white space. */
  predicate IsTrimEndOf(s: string, r: string) {
    && |r| <= |s| && r == s[..|r|]
    && (forall i :: |r| <= i < |s| ==> IsWhitespace(s[i]))
    && (|r| > 0 ==> !IsWhitespace(r[|r| - 1]))
  }

  /** `r` is `s` with the white space at both ends removed, `a` characters
      from the front: a slice of `s` that neither starts nor ends with white
      space, with only white space before and after it. */
  predicate IsTrimOf(s: string, a: int, r: string) {
    && (|r| > 0 ==> !IsWhitespace(r[0]) && !IsWhitespace(r[|r| - 1]))
    && 0 <= a && a + |r| <= |s| && r == s[a..a + |r|]
    && (forall i :: 0 <= i < a ==> IsWhitespace(s[i]))
    && (forall i :: a + |r| <= i < |s| ==> IsWhitespace(s[i]))
  }

  /** `str::trim_start`. */
  function TrimStart(s: string): (r: string)
    ensures IsTrimStartOf(s, r)
  {
    if |s| > 0 && IsWhitespace(s[0]) then TrimStart(s[1..]) else s
  }

  /** `str::trim_end`. */
  function TrimEnd(s: string): (r: string)
    ensures IsTrimEndOf(s, r)
  {
    if |s| > 0 && IsWhitespace(s[|s| - 1]) then TrimEnd(s[..|s| - 1]) else s
  }

  /** `str::trim`: what is left after `TrimStart` drops its white space,
      with the trailing white space removed too. */
  function Trim(s: string): (r: string)
    ensures IsTrimOf(s, |s| - |TrimStart(s)|, r)
  {
    var t := TrimStart(s);
    var r := TrimEnd(t);
    TrimBothEnds(s, t, r);
    r
  }

  /** Trimming the end of what trimming the start leaves trims both ends. */
  lemma TrimBothEnds(s: string, t: string, r: string)
    requires IsTrimStartOf(s, t) && IsTrimEndOf(t, r)
    ensures IsTrimOf(s, |s| - |t|, r)
  {
    var a := |s| - |t|;
    if |r| > 0 {
      assert r[0] == t[0];
    }
    forall i | a + |r| <= i < |s|
      ensures IsWhitespace(s[i])
    {
      assert s[i] == t[i - a];
    }
  }

  /** Text with no white space at either end is left as it is. */
  lemma TrimmedUnchanged(s: string)
    requires |s| > 0 ==> !IsWhitespace(s[0]) && !IsWhitespace(s[|s| - 1])
    ensures Trim(s) == s
  {
  }

  /** `str::strip_prefix`. */
  function StripPrefix(s: string, prefix: string): (r: Option<string>)
    ensures r.Some? <==> prefix <= s
    ensures r.Some? ==> s == prefix + r.value
  {
    if prefix <= s then Some(s[|prefix|..]) else None
  }

  /** `str::find(c)`: the position of the first `c`. */
  function Find(s: string, c: char): (r: Option<nat>)
    ensures r.Some? ==> r.value < |s| && s[r.value] == c
    ensures r.Some? ==> forall i :: 0 <= i < r.value ==> s[i] != c
    ensures r.None? ==> forall i :: 0 <= i < |s| ==> s[i] != c
  {
    if |s| == 0 then None
    else if s[0] == c then Some(0)
    else match Find(s[1..], c)
      case None => None
      case Some(i) => Some(i + 1)
  }

  /** ASCII lower-casing of one character. */
  function LowerChar(c: char): char {
    if 'A' <= c <= 'Z' then (c as int - 'A' as int + 'a' as int) as char else c
  }

  /** `str::to_ascii_lowercase`. */
  function AsciiLower(s: string): (r: string)
    ensures |r| == |s|
    ensures forall i :: 0 <= i < |s| ==> r[i] == LowerChar(s[i])
  {
    if |s| == 0 then [] else [LowerChar(s[0])] + AsciiLower(s[1..])
  }

  /** Lower-casing twice changes nothing more. */
  lemma AsciiLowerIdempotent(s: string)
    ensures AsciiLower(AsciiLower(s)) == AsciiLower(s)
  {
  }

  /** A token of `split_ascii_whitespace`: non-empty, no ASCII whitespace. */
  predicate IsWord(w: string) {
    |w| > 0 && forall i :: 0 <= i < |w| ==> !IsAsciiWhitespace(w[i])
  }

  /** `str::split_ascii_whitespace`, collected: the maximal runs of
      characters that are not ASCII whitespace, in order. */
  function SplitAsciiWhitespace(s: string): (r: seq<string>)
    ensures forall k :: 0 <= k < |r| ==> IsWord(r[k])
  {
    SplitFrom(s, [])
  }

  /** Splitting the rest of the text while `word` is the run read so far. */
  function SplitFrom(s: string, word: string): (r: seq<string>)
    requires forall i :: 0 <= i < |word| ==> !IsAsciiWhitespace(word[i])
    ensures forall k :: 0 <= k < |r| ==> IsWord(r[k])
    decreases |s|
  {
    if |s| == 0 then
      if |word| == 0 then [] else [word]
    else if IsAsciiWhitespace(s[0]) then
      (if |word| == 0 then [] else [word]) + SplitFrom(s[1..], [])
    else
      SplitFrom(s[1..], word + [s[0]])
  }

  /** A run without whitespace is absorbed into the current word. */
  lemma {:induction false} SplitFromWord(w: string, rest: string, word: string)
    requires forall i :: 0 <= i < |word| ==> !IsAsciiWhitespace(word[i])
    requires forall i :: 0 <= i < |w| ==> !IsAsciiWhitespace(w[i])
    ensures forall i :: 0 <= i < |word + w| ==> !IsAsciiWhitespace((word + w)[i])
    ensures SplitFrom(w + rest, word) == SplitFrom(rest, word + w)
    decreases |w|
  {
    if |w| > 0 {
      assert (w + rest)[0] == w[0];
      assert (w + rest)[1..] == w[1..] + rest;
      SplitFromWord(w[1..], rest, word + [w[0]]);
      assert word + [w[0]] + w[1..] == word + w;
    } else {
      assert w + rest == rest;
      assert word + w == word;
    }
  }

  /** Splitting at one whitespace character splits the two sides apart. */
  lemma {:induction false} SplitAround(a: string, c: char, b: string, word: string)
    requires IsAsciiWhitespace(c)
    requires forall i :: 0 <= i < |word| ==> !IsAsciiWhitespace(word[i])
    ensures SplitFrom(a + [c] + b, word) == SplitFrom(a, word) + SplitFrom(b, [])
    decreases |a|
  {
    var s := a + [c] + b;
    if |a| == 0 {
      assert s == [c] + b;
      assert s[1..] == b;
    } else {
      assert s[0] == a[0];
      assert s[1..] == a[1..] + [c] + b;
      if IsAsciiWhitespace(a[0]) {
        SplitAround(a[1..], c, b, []);
      } else {
        SplitAround(a[1..], c, b, word + [a[0]]);
      }
    }
  }

  /** Words joined with single spaces (`format!("{} {}", ..)`). */
  function JoinSpaced(ws: seq<string>): string {
    if |ws| == 0 then ""
    else if |ws| == 1 then ws[0]
    else ws[0] + " " + JoinSpaced(ws[1..])
  }

  /** Splitting undoes joining, whenever every piece is a word. */
  lemma {:induction false} SplitJoin(ws: seq<string>)
    requires forall k :: 0 <= k < |ws| ==> IsWord(ws[k])
    ensures SplitAsciiWhitespace(JoinSpaced(ws)) == ws
  {
    if |ws| == 0 {
    } else if |ws| == 1 {
      SplitFromWord(ws[0], "", []);
      assert ws[0] + "" == ws[0];
      assert [] + ws[0] == ws[0];
    } else {
      var rest := JoinSpaced(ws[1..]);
      assert JoinSpaced(ws) == ws[0] + (" " + rest);
      SplitFromWord(ws[0], " " + rest, []);
      assert [] + ws[0] == ws[0];
      assert (" " + rest)[1..] == rest;
      SplitJoin(ws[1..]);
    }
  }

  /** `Ord for str`: lexicographic. Comparing UTF-8 bytes orders strings the
      same way as comparing their scalars. */
  function Compare(a: string, b: string): (o: Ordering)
    ensures a == b ==> o == Equal
    ensures a < b ==> o == Less
    ensures b < a ==> o == Greater
  {
    if |a| == 0 then (if |b| == 0 then Equal else Less)
    else if |b| == 0 then Greater
    else if a[0] < b[0] then Less
    else if a[0] > b[0] then Greater
    else Compare(a[1..], b[1..])
  }

  function Flip(o: Ordering): Ordering {
    match o
    case Less => Greater
    case Equal => Equal
    case Greater => Less
  }

  /** Two strings compare `Equal` exactly when they are the same string. */
  lemma {:induction false} CompareEqual(a: string, b: string)
    ensures Compare(a, b) == Equal <==> a == b
  {
    if |a| > 0 && |b| > 0 && a[0] == b[0] {
      CompareEqual(a[1..], b[1..]);
      assert a == [a[0]] + a[1..] && b == [b[0]] + b[1..];
    }
  }

  /** Swapping the arguments flips the answer. */
  lemma {:induction false} CompareFlip(a: string, b: string)
    ensures Compare(b, a) == Flip(Compare(a, b))
  {
    if |a| > 0 && |b| > 0 && a[0] == b[0] {
      CompareFlip(a[1..], b[1..]);
    }
  }

  /** "Not greater" is transitive. */
  lemma {:induction false} CompareTransitive(a: string, b: string, c: string)
    requires Compare(a, b) != Greater && Compare(b, c) != Greater
    ensures Compare(a, c) != Greater
  {
    if |a| > 0 && |b| > 0 && |c| > 0 && a[0] == b[0] == c[0] {
      CompareTransitive(a[1..], b[1..], c[1..]);
    }
  }
}

=== FILE: utils.dfy ===
/** Result helpers and the stable score sort of src/utils.rs. */
module Utils {
  import opened Results
  import opened Errors
  import opened Text

  /** `ResultExt::ignore_interrupted`: a user interrupt becomes "nothing". */
  function IgnoreInterrupted<T>(r: Result<T, Error>): (r': Result<Option<T>, Error>)
    ensures r.Ok? <==> r'.Ok? && r'.value.Some?
    ensures r.Ok? ==> r'.value.value == r.value
    ensures r' == Ok(None) <==> r == Err(Interrupted)
    ensures r'.Err? <==> r.Err? && r.error != Interrupted
    ensures r'.Err? ==> r'.error == r.error
  {
    match r
    case Ok(t) => Ok(Some(t))
    case Err(Interrupted) => Ok(None)
    case Err(e) => Err(e)
  }

  /** `ResultExt::log_error`: the error is reported (left out) and dropped. */
  function LogError<T, E>(r: Result<T, E>): (o: Option<T>)
    ensures o.Some? <==> r.Ok?
    ensures o.Some? ==> o.value == r.value
  {
    match r
    case Ok(t) => Some(t)
    case Err(_) => None
  }

  /** The batch driver runs each file through `ignore_interrupted` and then
      `log_error`: a success keeps its value, an interrupt becomes an empty
      success, and only a real error is logged. */
  lemma IgnoreThenLog<T>(r: Result<T, Error>)
    ensures LogError(IgnoreInterrupted(r)) == Some(None) <==> r == Err(Interrupted)
    ensures LogError(IgnoreInterrupted(r)) == None <==> r.Err? && r.error != Interrupted
    ensures r.Ok? ==> LogError(IgnoreInterrupted(r)) == Some(Some(r.value))
  {
  }

  /** A fuzzy match: which item matched (its position among the searcher's
      items), the key the item's `Ord` compares, and the similarity. The
      only item type the sort is used with is `Icon`, whose `Ord` compares
      names, so two distinct items can share a key. The source's `f32`
      score is abstracted to an integer (a total order with no NaN). */
  datatype Match = Match(item: nat, key: string, score: int)

  /** The order of `exec_sorted_stable`: higher score first, then key
      ascending; the item plays no part. */
  predicate Before(a: Match, b: Match) {
    a.score > b.score || (a.score == b.score && Compare(a.key, b.key) != Greater)
  }

  /** Neither goes before the other in the sort's comparison. */
  predicate Tied(a: Match, b: Match) {
    a.key == b.key && a.score == b.score
  }

  predicate Sorted(s: seq<Match>) {
    forall i, j :: 0 <= i < j < |s| ==> Before(s[i], s[j])
  }

  /** Either of two matches goes first, both ways exactly when they are tied. */
  lemma BeforeTotal(a: Match, b: Match)
    ensures Before(a, b) || Before(b, a)
    ensures Before(a, b) && Before(b, a) <==> Tied(a, b)
  {
    CompareFlip(a.key, b.key);
    CompareEqual(a.key, b.key);
  }

  /** The matches of `s` with this key and score, in the order of `s`. */
  function Ties(s: seq<Match>, key: string, score: int): (r: seq<Match>)
    ensures |r| <= |s|
    ensures forall k :: 0 <= k < |r| ==> r[k].key == key && r[k].score == score
  {
    if |s| == 0 then []
    else (if s[0].key == key && s[0].score == score then [s[0]] else []) + Ties(s[1..], key, score)
  }

  /** Splitting off the head of a list splits off its part of a tie class. */
  lemma TiesCons(x: Match, s: seq<Match>, key: string, score: int)
    ensures Ties([x] + s, key, score) ==
      (if x.key == key && x.score == score then [x] else []) + Ties(s, key, score)
  {
    assert ([x] + s)[1..] == s;
  }

  /** A tie class that is not empty has a member in the list. */
  lemma {:induction false} TiesMember(s: seq<Match>, key: string, score: int)
    requires |Ties(s, key, score)| > 0
    ensures exists j :: 0 <= j < |s| && s[j].key == key && s[j].score == score
  {
    if s[0].key != key || s[0].score != score {
      TiesMember(s[1..], key, score);
      var j :| 0 <= j < |s[1..]| && s[1..][j].key == key && s[1..][j].score == score;
      assert s[j + 1] == s[1..][j];
    }
  }

  /** Puts `m` into a sorted list, in front of every match tied with it. */
  function Insert(m: Match, s: seq<Match>): (r: seq<Match>)
    requires Sorted(s)
    ensures Sorted(r)
    ensures multiset(r) == multiset(s) + multiset{m}
  {
    if |s| == 0 then [m]
    else if Before(m, s[0]) then
      InsertFront(m, s);
      [m] + s
    else
      BeforeTotal(m, s[0]);
      SortedTail(s);
      var tail := Insert(m, s[1..]);
      InsertBehind(m, s, tail);
      [s[0]] + tail
  }

  lemma SortedTail(s: seq<Match>)
    requires Sorted(s) && |s| > 0
    ensures Sorted(s[1..])
    ensures forall j :: 1 <= j < |s| ==> Before(s[0], s[j])
    ensures multiset(s[1..]) == multiset(s) - multiset{s[0]}
  {
    assert s == [s[0]] + s[1..];
    forall p, q | 0 <= p < q < |s[1..]| ensures Before(s[1..][p], s[1..][q]) {
      assert s[1..][p] == s[p + 1] && s[1..][q] == s[q + 1];
    }
  }

  /** A match that goes before the head goes before the whole list. */
  lemma InsertFront(m: Match, s: seq<Match>)
    requires Sorted(s) && |s| > 0 && Before(m, s[0])
    ensures Sorted([m] + s)
  {
    var r := [m] + s;
    forall i, j | 0 <= i < j < |r| ensures Before(r[i], r[j]) {
      if i == 0 && j > 1 {
        BeforeTransitive(m, s[0], r[j]);
      } else if i > 0 {
        assert r[i] == s[i - 1] && r[j] == s[j - 1];
      }
    }
  }

  /** The head stays in front of the rest with `m` inserted into it. */
  lemma InsertBehind(m: Match, s: seq<Match>, tail: seq<Match>)
    requires Sorted(s) && |s| > 0 && Before(s[0], m)
    requires Sorted(tail) && multiset(tail) == multiset(s[1..]) + multiset{m}
    ensures Sorted([s[0]] + tail)
    ensures multiset([s[0]] + tail) == multiset(s) + multiset{m}
  {
    SortedTail(s);
    forall j | 0 <= j < |tail| ensures Before(s[0], tail[j]) {
      assert tail[j] in multiset(tail);
      if tail[j] != m {
        assert tail[j] in multiset(s[1..]);
        var k :| 0 <= k < |s[1..]| && s[1..][k] == tail[j];
        assert s[k + 1] == tail[j];
      }
    }
    ConsSorted(s[0], tail);
    assert s == [s[0]] + s[1..];
  }

  /** A match before every element of a sorted list can be put in front. */
  lemma ConsSorted(x: Match, tail: seq<Match>)
    requires Sorted(tail)
    requires forall j :: 0 <= j < |tail| ==> Before(x, tail[j])
    ensures Sorted([x] + tail)
  {
    var r := [x] + tail;
    forall i, j | 0 <= i < j < |r| ensures Before(r[i], r[j]) {
      assert r[j] == tail[j - 1];
      if i > 0 {
        assert r[i] == tail[i - 1];
      }
    }
  }

  lemma BeforeTransitive(a: Match, b: Match, c: Match)
    requires Before(a, b) && Before(b, c)
    ensures Before(a, c)
  {
    if a.score == b.score == c.score {
      CompareTransitive(a.key, b.key, c.key);
    }
  }

  /** Inserting `m` puts it in front of its tie class and leaves every
      other class alone. */
  lemma {:induction false} InsertTies(m: Match, s: seq<Match>, key: string, score: int)
    requires Sorted(s)
    ensures Ties(Insert(m, s), key, score) ==
      (if m.key == key && m.score == score then [m] else []) + Ties(s, key, score)
    decreases |s|
  {
    if |s| == 0 {
      TiesCons(m, [], key, score);
    } else if Before(m, s[0]) {
      TiesCons(m, s, key, score);
    } else {
      BeforeTotal(m, s[0]);
      SortedTail(s);
      InsertTies(m, s[1..], key, score);
      TiesPassOver(s[0], m, Insert(m, s[1..]), s[1..], key, score);
      assert s == [s[0]] + s[1..];
    }
  }

  /** A match not tied with `m` can go in front of the list `m` went into. */
  lemma TiesPassOver(x: Match, m: Match, t: seq<Match>, rest: seq<Match>, key: string, score: int)
    requires !Tied(x, m)
    requires Ties(t, key, score) == (if m.key == key && m.score == score then [m] else []) + Ties(rest, key, score)
    ensures Ties([x] + t, key, score) ==
      (if m.key == key && m.score == score then [m] else []) + Ties([x] + rest, key, score)
  {
    TiesCons(x, t, key, score);
    TiesCons(x, rest, key, score);
    if x.key == key && x.score == score {
      assert Ties(t, key, score) == Ties(rest, key, score);
    } else if m.key == key && m.score == score {
      assert Ties([x] + t, key, score) == Ties(t, key, score);
    }
  }

  /** `NGramSearcherExt::exec_sorted_stable`: the matches, reordered by
      descending score and then ascending key. */
  function ExecSortedStable(matches: seq<Match>): (r: seq<Match>)
    ensures multiset(r) == multiset(matches)
    ensures Sorted(r)
  {
    if |matches| == 0 then []
    else
      assert matches == [matches[0]] + matches[1..];
      Insert(matches[0], ExecSortedStable(matches[1..]))
  }

  /** The sort is stable: the matches of every tie class come out in the
      order the searcher produced them. */
  lemma {:induction false} SortIsStable(matches: seq<Match>, key: string, score: int)
    ensures Ties(ExecSortedStable(matches), key, score) == Ties(matches, key, score)
    decreases |matches|
  {
    if |matches| > 0 {
      SortIsStable(matches[1..], key, score);
      InsertTies(matches[0], ExecSortedStable(matches[1..]), key, score);
      TiesCons(matches[0], matches[1..], key, score);
      assert matches == [matches[0]] + matches[1..];
    }
  }

  /** The head of a list leads its own tie class. */
  lemma HeadLeadsTies(s: seq<Match>)
    requires |s| > 0
    ensures var t := Ties(s, s[0].key, s[0].score); |t| > 0 && t[0] == s[0]
  {
    TiesCons(s[0], s[1..], s[0].key, s[0].score);
    assert s == [s[0]] + s[1..];
  }

  /** The head of a sorted list goes before every match whose tie class
      the list holds. */
  lemma HeadBeforeClass(s: seq<Match>, x: Match)
    requires Sorted(s) && |Ties(s, x.key, x.score)| > 0
    ensures |s| > 0 && Before(s[0], x)
  {
    TiesMember(s, x.key, x.score);
    var j :| 0 <= j < |s| && s[j].key == x.key && s[j].score == x.score;
    if j == 0 {
      BeforeTotal(s[0], x);
    } else {
      assert Before(s[0], s[j]);
    }
  }

  /** Two sorted lists whose tie classes agree start with the same match. */
  lemma SortedHeads(a: seq<Match>, b: seq<Match>)
    requires Sorted(a) && Sorted(b) && |a| > 0 && SameTies(a, b)
    ensures |b| > 0 && a[0] == b[0]
  {
    var x := a[0];
    HeadLeadsTies(a);
    assert Ties(a, x.key, x.score) == Ties(b, x.key, x.score);
    HeadBeforeClass(b, x);
    var y := b[0];
    HeadLeadsTies(b);
    assert Ties(a, y.key, y.score) == Ties(b, y.key, y.score);
    HeadBeforeClass(a, y);
    BeforeTotal(x, y);
  }

  /** Lists with one head and one tie class keep that class without it. */
  lemma TiesTail(a: seq<Match>, b: seq<Match>, key: string, score: int)
    requires |a| > 0 && |b| > 0 && a[0] == b[0]
    requires Ties(a, key, score) == Ties(b, key, score)
    ensures Ties(a[1..], key, score) == Ties(b[1..], key, score)
  {
    TiesCons(a[0], a[1..], key, score);
    TiesCons(b[0], b[1..], key, score);
    assert a == [a[0]] + a[1..];
    assert b == [b[0]] + b[1..];
    var h := if a[0].key == key && a[0].score == score then [a[0]] else [];
    assert Ties(a[1..], key, score) == (h + Ties(a[1..], key, score))[|h|..];
    assert Ties(b[1..], key, score) == (h + Ties(b[1..], key, score))[|h|..];
  }

  /** Every tie class of `a` and `b` holds the same matches in the same order. */
  ghost predicate SameTies(a: seq<Match>, b: seq<Match>) {
    forall key, score :: Ties(a, key, score) == Ties(b, key, score)
  }

  /** Lists with one head and the same tie classes still agree without it. */
  lemma SameTiesTail(a: seq<Match>, b: seq<Match>)
    requires |a| > 0 && |b| > 0 && a[0] == b[0] && SameTies(a, b)
    ensures SameTies(a[1..], b[1..])
  {
    forall key, score ensures Ties(a[1..], key, score) == Ties(b[1..], key, score) {
      TiesTail(a, b, key, score);
    }
  }

  lemma ConsEqual(a: seq<Match>, b: seq<Match>)
    requires |a| > 0 && |b| > 0 && a[0] == b[0] && a[1..] == b[1..]
    ensures a == b
  {
    assert a == [a[0]] + a[1..];
    assert b == [b[0]] + b[1..];
  }

  /** Only one ordering is sorted with given tie classes. */
  lemma {:induction false} SortedUnique(a: seq<Match>, b: seq<Match>)
    requires Sorted(a) && Sorted(b) && SameTies(a, b)
    ensures a == b
    decreases |a|
  {
    if |a| == 0 {
      if |b| > 0 {
        HeadLeadsTies(b);
        assert false;
      }
    } else {
      SortedHeads(a, b);
      SortedTail(a);
      SortedTail(b);
      SameTiesTail(a, b);
      SortedUnique(a[1..], b[1..]);
      ConsEqual(a, b);
    }
  }

  /** The ranking depends on the searcher's order only through the order
      of tied matches: two searches whose tie classes agree rank alike. */
  lemma SortIndependentOfOrder(m1: seq<Match>, m2: seq<Match>)
    requires SameTies(m1, m2)
    ensures ExecSortedStable(m1) == ExecSortedStable(m2)
  {
    forall key, score
      ensures Ties(ExecSortedStable(m1), key, score) == Ties(ExecSortedStable(m2), key, score)
    {
      SortIsStable(m1, key, score);
      SortIsStable(m2, key, score);
    }
    SortedUnique(ExecSortedStable(m1), ExecSortedStable(m2));
  }

  /** Two tied matches keep the order the searcher gave them. */
  lemma TiedPairKeepsOrder(a: Match, b: Match)
    requires Tied(a, b)
    ensures ExecSortedStable([a, b]) == [a, b]
  {
    assert [a, b][1..] == [b];
    assert ExecSortedStable([b]) == [b];
    BeforeTotal(a, b);
  }

  /** Two icons with one name and one score keep the order the searcher gave
      them, whichever it was. */
  lemma TiedMatchesKeepSearchOrder()
    ensures var a := Match(0, "md-tab", 5);
      var b := Match(1, "md-tab", 5);
      ExecSortedStable([a, b]) == [a, b] && ExecSortedStable([b, a]) == [b, a]
  {
    var a := Match(0, "md-tab", 5);
    var b := Match(1, "md-tab", 5);
    TiedPairKeepsOrder(a, b);
    TiedPairKeepsOrder(b, a);
  }
}
